=== FILE: README.md ===
# Arikaim controllers: a Dafny model

This project models the controller layer of the Arikaim CMS. That layer is a PHP base class for page
controllers, an API controller, and a family of traits mixed into both. The model covers:

- **The API result envelope.** The payload, status, code and error list that every API request
  answers with. Status 'error' and code 400 are derived from a non-empty error list when the
  envelope is serialised. A payload carrying `progress_end` closes a progress stream with ',' and ']'.
- **The error list.** Appending, replacing and clearing it, the message fallback chains
  (controller message, then system registry, then default, then the name itself), and translation
  of validator failures into `{field_name, message}` entries.
- **Messages, languages and parameters.** Message lookup (exact key, then dot path), page-language
  fallback (data, cookie, session, default), route-argument resolution, and request parameters
  (the path segments merged with the query, integer keys renumbered from 0).
- **The access gate.** `hasAccess` fails closed. `requireAccess` either grants or ends the request
  (`UserAccess.Gate`). The page controller ends it on the system error page. `ApiController` has
  no `pageSystemError`, so there the call reaches `__call`, answers null, and emitting that null
  raises a TypeError. Either way the handler never resumes.
- **The CRUD and action handlers.** Read, update, create, delete, soft delete and restore, status,
  single-field update, options, entity permissions, polymorphic relations, meta tags, actions, the
  paginator and the captcha. Each handler either writes one success message with its fields or
  appends exactly one error. The predicates `Handlers.Succeeded` and `Handlers.Failed` state this
  for every handler. The unique-column pre-check `checkColumn` is the one real algorithm.
- **Task progress streaming.** A step counter and the '[' / ',' / ']' framing that makes the
  echoed responses one JSON array (`TaskProgress.ClosedStream`).

The PHP values the controllers pass around are one datatype, `PhpValues.Value`. `Empty` is PHP's
`empty()`. Every PHP array is one string-keyed map, an integer key standing as its decimal text, so
a list is the array keyed "0", "1", ... (`ListValue`). `WithKey` is `$v[$k] = $x`, including
auto-vivification of null and false. None of
the source files declares strict types, so a value returned where `string` or `?string` is
declared is converted as PHP converts it (`AsText`): an integer to its decimal text, true to "1",
false to "". Every collaborator is a parameter:

- the container and its services (`Services.Container`);
- the ORM (`Orm.Store` and the outcome flags handed to each handler);
- the validator (`Validation.Verdict`, which picks the data-valid or the validation-error path);
- the cookie and session (`Multilanguage.Client`).

A handler returns a `Handlers.Run`. It records the gate outcome, the validation rules registered,
the store write asked for, and whether the handler called into an unresolvable model class. That
last case ends the request with an uncaught error in PHP.

The model follows the code, with one deliberate exception (the callback slots) and the
representation choices below:

- `ApiController` defines no `onDataValid`/`onValidationError`. Its catch-all `__call`
  (ApiController.php:127-140) looks for `onDataValidController` or `onValidationErrorController`,
  finds neither, and answers null, so in `ApiController` as written these calls install nothing.
  The handler traits depend on those slots, so the model gives the API controller the page
  controller's two slots (Controller.php:351-385) and, in the constructor, installs the default
  validation-error callback that ApiController.php:63-66 sets out to install. The gap is listed
  under "Left out" on the `Api.ApiController.constructor` line.
- That default callback *replaces* the error list (`setErrors`). It does not append.
- `Api.ApiController` also carries the members of the `ApiResponse` trait
  (Traits/Base/ApiResponse.php), which `BaseApiController.php` uses and `ApiController.php` does
  not: `Fields`, `PlainResponseJson` and `StreamResponse`. Their rows cite that trait.
- `Delete` and `MetaTags` test their message override with `$this->isset(...)`. No controller
  defines that method, so the catch-all answers null. The model makes the hook's answer an
  explicit parameter (`hookAnswer`), which is false under the catch-all.
- `Status.php` registers its rule as `addRule('status', 'checkList:items=0,1,toggle')`, the
  reverse of every other handler's (rule, field) order. The model records the call as written.
- The single-field update handler of `UpdateModelField.php` is published as
  `softDeleteController`. It is modelled as `UpdateModelField.UpdateFieldController`.
- The failure key of that handler is 'errors.filed.update' and the paginator's field is
  'paginagtor', both spelled as in the code.
- The relation handlers read id, type and relation_id before the before-hook runs. The hook's
  answer therefore never reaches the store call (`PolymorphicRelations.AddRelation`).
- Closing a progress stream that has no step before it gives ",...]", which is not a JSON array.
  `TaskProgress.ClosedStream` needs at least one step.

## Model

| member | source | states |
|---|---|---|
| PhpValues.WithKey | Traits/Base/ApiResponse.php:175-178 | an array write sets the key, keeps every other key (a list's items under their indexes), and turns null or false into an array |
| PhpValues.IntTextInjective | ApiController.php:204-208 | distinct integers are distinct keys |
| PhpValues.ListEntriesIndexes | ApiController.php:204-208 | a list's keys are exactly the decimal texts of its indexes, each holding the item at that index |
| PhpValues.ListRead | ApiController.php:204-208 | a list is read at the text of an index and nowhere else; the empty list is the empty array |
| PhpValues.ListTakesStringKey | ApiController.php:208 | writing key 'k' into the list [a] gives the array with a under "0" and the value under 'k' |
| PhpValues.WriteNestedEntry | ApiController.php:208 | one more nested write under a name extends what the name held by the entries written so far |
| PhpValues.WithKeyTwice | Traits/Base/ApiResponse.php:193 | a second write to a key replaces the first |
| PhpValues.WithKeyExtends | Traits/Base/ApiResponse.php:192-194 | writing one more key into base-plus-entries extends the entries |
| PhpValues.Split | Traits/Base/BaseController.php:229 | explode yields at least one piece and no piece holds the separator |
| PhpValues.JoinSplit | Traits/Base/BaseController.php:229 | implode after explode gives back the original string |
| PhpValues.SplitNoSeparator | Traits/Base/Multilanguage.php:38 | a string without the separator splits into itself alone |
| PhpValues.SplitFirst | Traits/Base/BaseController.php:229 | the text before the first separator is the first piece, followed by the pieces of the rest |
| PhpValues.SplitPair | Traits/Base/Multilanguage.php:38 | "a.b" with separator-free a and b splits into exactly [a, b] |
| PhpValues.IntegerText | Traits/Base/Multilanguage.php:100 | the number an integer-form numeric string denotes, with an optional sign |
| PhpValues.DecimalRoundTrip | Traits/Base/Multilanguage.php:100 | the decimal text of a number reads back as that number |
| PhpValues.IntTextRoundTrip | Traits/Base/Multilanguage.php:100 | `(string)$n` reads back as `n` |
| PhpValues.AsText | Traits/Base/Multilanguage.php:36-39 | a `?string` return keeps a string, writes an integer as exactly its decimal text `IntText`, true as "1" and false as ""; null gives no text |
| Multilanguage.GetMessage | Traits/Base/Multilanguage.php:36-39 | the entry under the exact name as text (a string as is, an integer in decimal, a boolean as "1" or ""); with no exact entry, the entry at the dot path as text |
| Multilanguage.UndottedMissingMessage | Traits/Base/Multilanguage.php:36-39 | an undotted name with no entry has no message |
| Multilanguage.NestedMessage | Traits/Base/Multilanguage.php:38 | 'group.key' reaches messages[group][key] when there is no exact entry |
| Multilanguage.LoadedMessages | Traits/Base/Multilanguage.php:60-62 | the component's properties become the table, [] when empty |
| Multilanguage.LoadLanguage | Traits/Base/Multilanguage.php:50 | the given language, else the default |
| Multilanguage.DefaultLanguage | Traits/Base/Multilanguage.php:108-111 | the configured default language, 'en' when unset |
| Multilanguage.DataLanguage | Traits/Base/Multilanguage.php:73-75 | no language when the data's is empty; else a string as is, a non-zero integer as its decimal text, true as "1"; whatever it gives is non-empty |
| Multilanguage.LooseEqualsText | Traits/Base/Multilanguage.php:100 | PHP 8 `==` of a `?string` with a value: a string equals itself and an integer its decimal text; two strings not both numeric are equal only when identical; never equal to an array; null equals exactly the empty values other than "0"; against a boolean, the string's truthiness |
| Multilanguage.PageLanguage | Traits/Base/Multilanguage.php:71-86 | non-empty data language as text (a non-zero integer in decimal, true as "1"), else non-empty cookie, else any session value, else the default; non-empty when the default is non-empty and the session holds no empty value |
| Multilanguage.IsLanguageChange | Traits/Base/Multilanguage.php:94-101 | false without a data language; a string language changes iff the session differs as text and not as the same integer; an integer language changes iff the session does not denote it (0 against no session) |
| Multilanguage.IntegerLanguageSettles | Traits/Base/Multilanguage.php:94-101 | an integer language equals the same number stored as text in the session, so it is no change |
| Multilanguage.LanguageChangeSettles | Traits/Base/Multilanguage.php:71-101 | once the page language is stored in the session, the same data is no longer a change, for a string, integer or true data language |
| Errors.ErrorText | Traits/Base/Errors.php:52-64 | controller message, else registry message, else default, else the name |
| Errors.AddErrorText | Traits/Base/Errors.php:72-78 | the controller message or the code itself: the error chain with no registry and no default |
| Errors.LookupErrorText | Traits/Base/BaseController.php:289-294 | non-empty controller message, else the error service's text |
| Errors.ValidationMessage | Traits/Base/Errors.php:86-89 | the 'message' of the table entry for a code, none when the entry is unset |
| Errors.MergedValidationTable | Traits/Base/Errors.php:168-171 | system codes plus the controller's `errors.validation` codes, the controller's winning |
| Errors.LoadedValidationTable | Traits/Base/Errors.php:165-173 | a non-empty table is kept, an empty one is built |
| Errors.LoadValidationIdempotent | Traits/Base/Errors.php:165-173 | loading the table twice is loading it once |
| Errors.ResolveFailure | Traits/Base/Errors.php:186-192 | exactly field_name and message; the rendered template when the code has a non-empty message, else the raw code |
| Errors.ResolveValidationErrors | Traits/Base/Errors.php:181-195 | one entry per failure, in order |
| Errors.ResolveValidationErrorsAppend | Traits/Base/Errors.php:181-195 | translating a concatenation concatenates the translations |
| BaseController.ApplyRoute | Traits/Base/BaseController.php:121-139 | page name and params always from the route, params [] for empty options; the extension name is replaced by the route's only when it is set and not 'core' |
| BaseController.ApplyRouteIdempotent | Traits/Base/BaseController.php:121-139 | resolving the same route twice gives the fields of resolving it once |
| BaseController.ExtensionName | Traits/Base/BaseController.php:167-170 | 'core' reads as no extension; any other value as stored |
| BaseController.GetParams | Traits/Base/BaseController.php:98-101 | never null; the stored params otherwise |
| BaseController.GetParam | Traits/Base/BaseController.php:110-113 | the stored parameter, else the default |
| BaseController.Segments | Traits/Base/BaseController.php:230 | array_filter keeps only pieces that are neither "" nor "0", never more pieces than given |
| BaseController.SegmentsMembers | Traits/Base/BaseController.php:230 | every kept piece comes from the input, and every input piece that is neither "" nor "0" is kept |
| BaseController.SegmentsSingle | Traits/Base/BaseController.php:230 | one piece is kept exactly when it is neither "" nor "0" |
| BaseController.SegmentsAppend | Traits/Base/BaseController.php:230 | the kept pieces of a concatenation are the kept pieces of each part, in order |
| BaseController.SegmentsKeepNonEmpty | Traits/Base/BaseController.php:230 | segments that are all non-empty pass unchanged |
| BaseController.ArrayKey | Traits/Base/BaseController.php:231 | a query key is stored as an integer exactly when it is the canonical decimal text of a 64-bit integer, else as the string |
| BaseController.IntegerKeys | Traits/Base/BaseController.php:231 | the text of every 64-bit integer is stored as that integer |
| BaseController.ZeroKey | Traits/Base/BaseController.php:231 | the key "0" is stored as the integer 0 |
| BaseController.PathSegments | Traits/Base/BaseController.php:229-230 | the kept pieces of the path are neither "" nor "0" and hold no '/' |
| BaseController.IntKeyed | Traits/Base/BaseController.php:233 | the values of the integer-keyed query entries: every one of them, no more than the entries, none when every key is a string (only those, in order: `IntKeyedMembers`, `IntKeyedAppend`) |
| BaseController.StrKeyed | Traits/Base/BaseController.php:233 | the names are exactly the string keys of the query (each holding its last entry's value: `StrKeyedLast`) |
| BaseController.IntKeyedAppend | Traits/Base/BaseController.php:233 | the integer-keyed values of a concatenation are those of each part in order |
| BaseController.IntKeyedMembers | Traits/Base/BaseController.php:233 | every positional query value is the value of some integer-keyed entry |
| BaseController.StrKeyedLast | Traits/Base/BaseController.php:233 | a string key holds the value of its last entry |
| BaseController.GetRequestParams | Traits/Base/BaseController.php:227-234 | array_merge renumbers integer keys: the kept path pieces take 0, 1, ..., the integer-keyed query values follow in order; named params are the string-keyed query entries |
| BaseController.OneIntKeyed | Traits/Base/BaseController.php:233 | a single integer-keyed entry gives one positional value and no name |
| BaseController.SplitLeadingSeparator | Traits/Base/BaseController.php:229 | "/a" splits into "", "a" |
| BaseController.KeptOfEmptyThen | Traits/Base/BaseController.php:230 | an empty piece then a non-empty one keeps only the latter |
| BaseController.NumericQueryKeyFollowsPath | Traits/Base/BaseController.php:227-234 | the path "/a" with the query `?0=x` gives the positional params "a", "x" and no names |
| BaseController.SplitWithEmptyPieces | Traits/Base/BaseController.php:229 | "/a//b" splits into "", "a", "", "b" |
| BaseController.EmptySegmentsDropped | Traits/Base/BaseController.php:227-234 | the path "/a//b" keeps exactly the segments "a", "b" |
| BaseController.RequestParamsRoundTrip | Traits/Base/BaseController.php:227-234 | a path of non-empty segments is recovered by joining its kept segments |
| BaseController.NamedKeys | Traits/Base/BaseController.php:261-263 | after naming the first n positions, the names are exactly the first n keys |
| BaseController.NamedLast | Traits/Base/BaseController.php:261-263 | a key not repeated later holds the parameter at its own position |
| BaseController.NamedLastAll | Traits/Base/BaseController.php:258-266 | with all keys named: exactly the keys, each last occurrence holding its position's parameter |
| BaseController.NameParams | Traits/Base/BaseController.php:261-263 | each key in turn receives the parameter at its position |
| BaseController.ResolveRequestParams | Traits/Base/BaseController.php:258-266 | null for no keys; otherwise exactly the keys, the last occurrence of the i-th key holding the i-th integer-keyed request parameter (segment, then integer-keyed query value) or null |
| UserAccess.HasAccess | Traits/Base/UserAccess.php:55-58 | false without an access service, else its verdict |
| UserAccess.RequireAccess | Traits/Base/UserAccess.php:25-36 | granted iff `hasAccess`; otherwise halted on the given response, else a new one |
| UserAccess.RequireControlPanelPermission | Traits/Base/UserAccess.php:66-73 | `requireAccess` with the control-panel permission and full rights; granted only with an access service |
| UserAccess.HasControlPanelAccess | Traits/Base/UserAccess.php:43-46 | the access service's own answer |
| Orm.FindById | Traits/Crud.php:107 | a row the uuid or id identifies with no identified row before it; none exactly when no row matches |
| Orm.FirstWhere | Traits/Crud.php:80 | a row whose column equals the value with no matching row before it; none exactly when no row does |
| Api.Framed | ApiController.php:160-162 | ',' + json + ']' exactly when not raw and `progress_end` is truthy, else the json itself |
| Api.ApiController.constructor | ApiController.php:58-70 | cleared envelope, empty errors, pretty off, no model class, the default validation-error callback installed (as intended; see Left out) |
| Api.ApiController.ClearResult | ApiController.php:77-85 | payload null, status 'ok', code 200, no listed errors, whatever came before |
| Api.ApiController.Dispatch | ApiController.php:94-97 | false without an event service, else its answer |
| Api.ApiController.SetModelClass | ApiController.php:105-108 | the model class read back is the one set |
| Api.ApiController.GetModelClass | ApiController.php:115-118 | the class last set; none before any |
| Api.ApiController.GetMessage | Traits/Base/Multilanguage.php:36-39 | the entry under the exact name as text (integer in decimal, boolean as "1" or ""), else the entry at the dot path as text |
| Api.ApiController.GetDefaultLanguage | Traits/Base/Multilanguage.php:108-111 | the configured default language, 'en' when unset |
| Api.ApiController.GetPageLanguage | Traits/Base/Multilanguage.php:71-86 | non-empty data language as text (a non-zero integer in decimal, true as "1"), else non-empty cookie, else the session value, else the default |
| Api.ApiController.IsLanguageChange | Traits/Base/Multilanguage.php:94-101 | false without a data language; a string language changes iff the session differs as text and not as the same integer, or, with no session, iff it is non-empty; an integer language changes iff the session does not denote it, or, with no session, iff it is non-zero |
| Api.ApiController.GetParams | Traits/Base/BaseController.php:98-101 | never null; the stored params otherwise |
| Api.ApiController.GetParam | Traits/Base/BaseController.php:110-113 | the stored parameter, else the default |
| Api.ApiController.GetPageName | Traits/Base/BaseController.php:146-149 | the page name route resolution stored |
| Api.ApiController.GetExtensionName | Traits/Base/BaseController.php:167-170 | never 'core'; any other stored name as stored |
| Api.ApiController.GetError | Traits/Base/BaseController.php:289-294 | non-empty controller message, else the error service's text |
| Api.ApiController.MessageText | ApiController.php:233-241 | the looked-up message, else the name itself; an integer entry is stored as its decimal text |
| Api.ApiController.LoadMessages | Traits/Base/Multilanguage.php:48-63 | the table is replaced by the component's properties in the given or default language |
| Api.ApiController.SetResultField | ApiController.php:190-193 | the key holds the value; every other key is unchanged |
| Api.ApiController.Field | ApiController.php:220-225 | as `setResultField` |
| Api.ApiController.Message | ApiController.php:233-241 | 'message' holds the looked-up message or the name |
| Api.ApiController.SetResultFields | ApiController.php:202-211 | empty values change nothing; with no name they replace the payload; with a name their entries (a list's under its indexes) merge under it, keeping its other keys |
| Api.ApiController.Fields | Traits/Base/ApiResponse.php:95-99 | as `setResultFields` |
| Api.ApiController.SetResult | ApiController.php:288-293 | the payload is replaced |
| Api.ApiController.UseJsonPrettyformat | ApiController.php:248-253 | pretty printing is on |
| Api.ApiController.SetResponse | ApiController.php:263-280 | per branch: a closure runs, an array becomes the payload, a string the message; a false condition with a string appends exactly that error |
| Api.ApiController.Seal | ApiController.php:150-155 | listed errors are the error list; 'error'/400 iff it is non-empty, else 'ok'/200 |
| Api.ApiController.PlainResponseJson | Traits/Base/ApiResponse.php:204-218 | the sealed envelope encoded; raw encodes the payload alone |
| Api.ApiController.GetResponseJson | ApiController.php:148-163 | the sealed envelope, framed when it closes a progress stream |
| Api.ApiController.GetResponse | ApiController.php:171-181 | a new JSON response with that body and the derived code as status |
| Api.ApiController.StreamResponse | Traits/Base/ApiResponse.php:41-56 | unframed JSON plus ',' iff progress, written to the given or own response; both callback slots dropped |
| Api.ApiController.Error | Traits/Base/Errors.php:52-64 | exactly one entry appended: the fallback-chain text |
| Api.ApiController.AddError | Traits/Base/Errors.php:72-78 | exactly one entry: the controller message or the code |
| Api.ApiController.AddErrors | Traits/Base/Errors.php:97-100 | the list is appended in order; the count grows by its length |
| Api.ApiController.SetErrors | Traits/Base/Errors.php:39-42 | the list is replaced |
| Api.ApiController.ClearErrors | Traits/Base/Errors.php:155-158 | the list is empty and there is no error |
| Api.ApiController.GetErrorCount | Traits/Base/Errors.php:107-110 | the length of the list |
| Api.ApiController.HasError | Traits/Base/Errors.php:117-120 | iff the count is positive |
| Api.ApiController.SetError | Traits/Base/Errors.php:143-148 | appends iff the condition holds |
| Api.ApiController.WithError | Traits/Base/Errors.php:129-134 | as `setError` |
| Api.ApiController.LoadValidationErrors | Traits/Base/Errors.php:165-173 | the table is filled only when empty |
| Api.ApiController.ResolveValidationErrors | Traits/Base/Errors.php:181-195 | the table is loaded, then one entry per failure |
| Api.ApiController.DefaultValidationErrorCallback | ApiController.php:64-67 | the translated failures replace the error list |
| Api.ApiController.ValidationFailed | ApiController.php:64-67 | the default callback runs only when it is the registered one |
| Api.ApiController.OnValidationError | Controller.php:351-354 | the slot reads back the callback registered last |
| Api.ApiController.OnDataValid | Controller.php:362-365 | the slot reads back the callback registered last |
| Api.ApiController.GetDataValidCallback | Controller.php:372-375 | the data-valid slot as it stands: what `OnDataValid` stored last, none before |
| Api.ApiController.GetValidationErrorCallback | Controller.php:382-385 | the validation-error slot as it stands: what `OnValidationError` stored last |
| Api.ApiController.ResolveRouteParams | Traits/Base/BaseController.php:121-139 | without a route: false and nothing changes; with one: true and the route applied |
| Api.ApiController.SetExtensionName | Traits/Base/BaseController.php:157-160 | the stored name is the one given |
| Handlers.WithFields | ApiController.php:220-225 | chained field writes keep every key none of them names |
| Handlers.WithFieldsLast | ApiController.php:220-225 | the last write of a key is what the payload holds |
| Handlers.MessageThenField | Traits/Delete.php:46-49 | message then one field is the two writes in that order |
| Handlers.MessageThenTwoFields | Traits/Status.php:37-41 | message then two fields is the three writes in that order |
| Handlers.ReplyKinds | Traits/Base/ApiResponse.php:121-138 | a success is never a failure; it holds the message and every last-written field |
| Crud.UniqueColumns | Traits/Crud.php:20-23 | the declared unique columns, [] by default |
| Crud.DeleteMessage | Traits/Crud.php:30-33 | the declared key, 'delete' by default |
| Crud.UpdateMessage | Traits/Crud.php:40-43 | the declared key, 'update' by default |
| Crud.CreateMessage | Traits/Crud.php:50-53 | the declared key, 'create' by default |
| Crud.ReadMessage | Traits/Crud.php:60-63 | the declared key, 'read' by default |
| Crud.CheckColumn | Traits/Crud.php:73-92 | true iff no unique column has a non-empty value held by a first matching row that is not the excluded one |
| Crud.FreeMeansNoDuplicate | Traits/Crud.php:173-176 | a create that passes the check meets no row holding any of its non-empty unique values |
| Crud.FreeMeansOnlySelf | Traits/Crud.php:139-142 | an update that passes the check finds its unique values only first in the row being updated |
| Crud.ReadController | Traits/Crud.php:102-121 | gate, rule, no write; a found row with columns replaces the payload by them, one without gives the message; no row gives 'errors.<read>' |
| Crud.UpdateController | Traits/Crud.php:131-156 | update written only for a found row with free unique columns; success: message and uuid; else 'errors.<update>' |
| Crud.UpdateWrite | Traits/Crud.php:135-152 | the data-valid closure: update written only for a found row with free unique columns; success: message and uuid; else 'errors.<update>' |
| Crud.CreateController | Traits/Crud.php:166-189 | no rules; a create written only with a resolvable class and free unique columns; success: message and new uuid |
| Crud.DeleteController | Traits/Crud.php:199-217 | gate, rule; delete written for a found row; success: message and uuid; else 'errors.<delete>' |
| Crud.DeleteWrite | Traits/Crud.php:203-213 | the data-valid closure: delete written for a found row; success: message and uuid; else 'errors.<delete>' |
| Delete.DeleteMessage | Traits/Delete.php:24-27 | 'delete' unless the override hook answers true for a declared key |
| Delete.DeleteController | Traits/Delete.php:37-55 | gate first, uuid rule; success: message and the request uuid; else exactly 'errors.delete' |
| Delete.DeleteWrite | Traits/Delete.php:41-51 | the data-valid closure: delete written for a found row; success: message and the request uuid; else exactly 'errors.delete' |
| SoftDelete.SoftDeleteMessage | Traits/SoftDelete.php:24-27 | the declared key, 'delete' by default |
| SoftDelete.RestoreMessage | Traits/SoftDelete.php:34-37 | the declared key, 'restore' by default |
| SoftDelete.ChangeEntity | Traits/SoftDelete.php:47-102 | no gate; an invalid class gives only the invalid-class error; else the model's answer picks message and uuid or the error |
| SoftDelete.SoftDeleteController | Traits/SoftDelete.php:47-70 | soft delete of the found row; success: message and uuid; else 'errors.delete' |
| SoftDelete.RestoreController | Traits/SoftDelete.php:80-102 | restore of the found row; success: message and uuid; else 'errors.restore' |
| Status.RequestedStatus | Traits/Status.php:32 | the requested status, 1 when absent |
| Status.StatusChange | Traits/Status.php:27-46 | gate first; status written only for a found row; success: 'status', uuid and status; else 'errors.status' |
| Status.StatusWrite | Traits/Status.php:31-43 | the found entity gets the requested status (1 when absent); success: 'status', uuid and status; else 'errors.status' |
| Status.SetStatus | Traits/Status.php:27-49 | as above, answering with the controller's JSON response |
| UpdateModelField.UpdateFieldMessage | Traits/UpdateModelField.php:24-27 | the declared key, 'field.update' by default |
| UpdateModelField.FieldKey | Traits/UpdateModelField.php:51-53 | the array key a field name becomes |
| UpdateModelField.Changes | Traits/UpdateModelField.php:51-53 | exactly one entry: field_name to field_value |
| UpdateModelField.UpdateFieldController | Traits/UpdateModelField.php:37-66 | rules for uuid and field_name; invalid class: only 'errors.class'; success: message, uuid, field_name; else 'errors.filed.update' |
| Options.OptionsCall | Traits/Options/Options.php:30-31 | the reference id from 'id'; options [] when absent |
| Options.OptionCall | Traits/Options/Options.php:61-63 | the id, and key and value null when absent |
| Options.SaveWith | Traits/Options/Options.php:27-79 | invalid class: 'errors.id' and no save; truthy save: 'orm.options.save' and the instance uuid; else 'errors.options.save' |
| Options.SaveController | Traits/Options/Options.php:27-47 | as above with all options |
| Options.SaveOptionController | Traits/Options/Options.php:57-79 | as above with one option |
| EntityPermissions.PermissionCall | Traits/EntityPermissions.php:30-32 | entity and user from the data, permissions 'full' when absent |
| EntityPermissions.AddUserPermissionController | Traits/EntityPermissions.php:27-50 | invalid class: 'errors.id' and no grant; a created row: 'permission-add' and its uuid; else 'errors.permission-add' |
| EntityPermissions.DeletePermissionController | Traits/EntityPermissions.php:60-81 | missing row: 'errors.id' and no delete; else the result picks 'permission-delete' and uuid or 'errors.permission-delete' |
| PolymorphicRelations.ResolveRelationCallback | Traits/PolymorphicRelations.php:130-133 | the hook's answer for (data, model) when set, else the data unchanged |
| PolymorphicRelations.RemovalCall | Traits/PolymorphicRelations.php:107-111 | removal by owner, type and related id iff both are non-empty, else by uuid |
| PolymorphicRelations.AddRelation | Traits/PolymorphicRelations.php:54-80 | invalid data ends the request; saved from the values read before the hook; success: message and the relation uuid; else 'errors.relations.add' |
| PolymorphicRelations.DeleteRelationController | Traits/PolymorphicRelations.php:90-121 | invalid class: 'errors.relations.add'; a false or null answer: 'errors.relations.delete'; else message and uuid |
| MetaTags.UpdateMetaTagsMessage | Traits/MetaTags.php:24-27 | 'metatags' unless the override hook answers true for a declared key |
| MetaTags.MetaInfo | Traits/MetaTags.php:48 | exactly the meta title, description and keywords the data holds |
| MetaTags.UpdateMetaTagsController | Traits/MetaTags.php:37-58 | missing row: 'errors.id' and no save; saved in the page language; a translation row: message and its uuid; else 'errors.metatags' |
| Actions.ActionMessage | Traits/Actions.php:45 | the action's message, else 'Action executed successfully' |
| Actions.RunAction | Traits/Actions.php:27-50 | an invalid action is never run and adds one error; a failed run adds one error; else the message and every result entry are stored |
| ApiPaginator.EffectivePage | Traits/ApiPaginator.php:30-32 | a page beyond the last is clamped to the last; any other is kept |
| ApiPaginator.Paginate | Traits/ApiPaginator.php:27-37 | 'paginagtor' and 'items' from the paginator of the effective page |
| Captcha.GetCaptchaErrors | Traits/Captcha.php:52-55 | the errors stored by the last check: the driver's after a failure, null after a pass (with `VerifyCaptcha`) |
| Captcha.VerifyCaptcha | Traits/Captcha.php:31-45 | true iff the driver's answer is truthy; failure stores the driver's errors and adds exactly 'errors.captcha'; success clears them |
| TaskProgress.Emission | Traits/TaskProgress.php:87-94 | '[' before the first body, ',' before every later one |
| TaskProgress.JoinAppend | Traits/TaskProgress.php:90-97 | joining one more body appends ',' and the body |
| TaskProgress.StreamIsOpenArray | Traits/TaskProgress.php:90-97 | the emitted steps are '[' followed by the bodies joined with ',' |
| TaskProgress.ClosedStream | ApiController.php:160-162 | steps followed by the closing response make one JSON array of all bodies |
| TaskProgress.StreamStep | Traits/TaskProgress.php:82-97 | a step appends exactly the next emission of the stream |
| TaskProgress.InitTaskProgress | Traits/TaskProgress.php:45-56 | step 0, and the given total and delay |
| TaskProgress.TaskProgressEnd | Traits/TaskProgress.php:63-68 | the envelope cleared, then only progress_end true |
| TaskProgress.MarkProgress | Traits/TaskProgress.php:81-85 | step +1; progress true, then the new step and the total written into the payload |
| TaskProgress.SendProgressResponse | Traits/TaskProgress.php:75-106 | step +1; progress, progress_step and progress_total_setps written; the response body emitted as the step's emission |
| Pages.ChosenPageName | Controller.php:557-559 | the argument unless empty or an array, else data 'page_name', else the route page name |
| Pages.RoutePageSuffices | Controller.php:557-563 | a non-empty route page name always avoids the not-found page when the data names none |
| Pages.NoCacheHeaders | Controller.php:603-610 | Cache-Control replaced by no-store; Pragma and Expires set; other headers, status and body kept |
| Pages.WithRedirect | Controller.php:589-595 | the no-cache headers, Location set to the url, status 307 |
| Pages.RedirectIdempotent | Controller.php:589-610 | redirecting twice to a url equals redirecting once |
| Pages.Controller.constructor | Controller.php:34-92 | both callback slots empty, extension name '', messages [], no page name |
| Pages.Controller.SetExtensionName | Controller.php:181-184 | the stored name is the one given; 'core' reads back as none |
| Pages.Controller.GetParams | Controller.php:101-104 | never null; the stored params otherwise |
| Pages.Controller.GetParam | Controller.php:113-116 | the stored parameter, else the default |
| Pages.Controller.GetPageName | Controller.php:160-163 | the page name route resolution stored |
| Pages.Controller.GetExtensionName | Controller.php:170-173 | never 'core'; any other stored name as stored |
| Pages.Controller.GetMessage | Controller.php:320-323 | the entry under the exact name as text (integer in decimal, boolean as "1" or ""), else the entry at the dot path as text |
| Pages.Controller.GetPageLanguage | Controller.php:513-528 | non-empty data language as text (a non-zero integer in decimal, true as "1"), else non-empty cookie, else the session value, else the default |
| Pages.Controller.IsLanguageChange | Controller.php:498-505 | false without a data language; a string language changes iff the session differs as text and not as the same integer, or, with no session, iff it is non-empty; an integer language changes iff the session does not denote it, or, with no session, iff it is non-zero |
| Pages.Controller.GetError | Controller.php:193-198 | non-empty controller message, else the error service's text |
| Pages.Controller.GetDefaultLanguage | Controller.php:535-538 | 'en' without a config service, else the configured language or 'en' |
| Pages.Controller.LoadMessages | Controller.php:290-297 | the table is replaced by the component's properties in the given or default language |
| Pages.Controller.LoadValidationErrors | Controller.php:304-312 | the table is filled only when empty |
| Pages.Controller.User | Controller.php:330-333 | false without an access service, else its user |
| Pages.Controller.GetUserId | Controller.php:340-343 | null without an access service, else its user id |
| Pages.Controller.HasAccess | Controller.php:483-490 | false without an access service; else its verdict for the current user id |
| Pages.Controller.RequireAccess | Controller.php:451-461 | granted iff `hasAccess`; otherwise halted on a new response, never a plain false |
| Pages.Controller.RequireControlPanelPermission | Controller.php:439-442 | `requireAccess` with the control-panel permission and full rights |
| Pages.Controller.HasControlPanelAccess | Controller.php:468-474 | `hasAccess` for the control-panel permission with full rights |
| Pages.Controller.ControlPanelGateAgrees | Controller.php:439-474 | the control-panel check and requirement agree |
| Pages.Controller.OnValidationError | Controller.php:351-354 | the slot reads back the callback registered last |
| Pages.Controller.OnDataValid | Controller.php:362-365 | the slot reads back the callback registered last |
| Pages.Controller.GetDataValidCallback | Controller.php:372-375 | the data-valid slot as it stands: what `OnDataValid` stored last, none before |
| Pages.Controller.GetValidationErrorCallback | Controller.php:382-385 | the validation-error slot as it stands: what `OnValidationError` stored last |
| Pages.Controller.ResolveRouteParams | Controller.php:698-715 | only a 'route_params' of exactly false leaves the state unchanged and gives false; any other value is applied |
| Pages.Controller.ResolveRouteParam | Controller.php:724-729 | the route argument as the `?string` return gives it (a string as is, an integer as its decimal text, a boolean as "1" or ""); null when the route arguments lack it or are not an array |
| Pages.Controller.PageLoad | Controller.php:551-580 | the chosen page name; empty gives not-found in the page language; else the page in the given or page language with current_path added, that language stored in the session |

## Left out

- JSON encoding is left out. `json_encode` and its pretty flags are the abstract `encode` and `encodePretty` functions of `Services.Container`.
- The envelope's `execution_time` (a float clock) is left out.
- Output buffering, `header`, `ini_set`, `flush` and `sleep` in the task-progress trait are I/O. The delay value is stored but never used.
- Rendering is left out: page and component templates, `pageNotFound`, `pageSystemError` and `writeXml`. A halted gate and a page load say which page would be rendered, not its HTML.
- URL building is left out: `getUrl`, `getPageUrl`, `getRouteUrl`. Logging, `get`/`has` fallbacks to the service container, and `getQueryParam` are left out too. None of these is part of the modelled core.
- The catch-all `__call` methods are not modelled. The API controller's runs `<name>Controller` when it exists and answers with `getResponse()`, else answers null. The page controller's dispatches `<name>Page` methods. This runtime name dispatch is left out; its one effect on the core is the `Api.ApiController.constructor` line below.
- The ORM, the validator, the action factory, the paginator factory and the captcha driver are parameters. Their answers are inputs to the handlers.
- Closures are names (`Api.Callback`). A handler's data-valid closure is the `Valid` branch of its method, or a method of its own called there (`Status.StatusWrite`, `Crud.UpdateWrite`, `Crud.DeleteWrite`, `Delete.DeleteWrite`).
- File upload and download, access tokens, `PageLoader.php` and `BaseApiController.php` are not part of this model.
- The order of an array's keys is not kept, except for the request parameters. The query is the list of its entries in order, under the keys PHP stores (`BaseController.Key`); a PHP array has distinct keys, which the model does not enforce. Their merge with the path segments is kept as two parts: the integer-keyed values renumbered from 0 and the string-keyed names (`BaseController.RequestParams`).
- Floating-point values are not modelled, so no float is ever turned into text or compared.
- Loose comparison is modelled only where the core depends on it (`Empty`, `Multilanguage.LooseEqualsText`, `FailedResult`).
- Delete.DeleteMessage: a true override hook with no declared key reads an undefined property in PHP. The model answers 'delete' there.
- MetaTags.UpdateMetaTagsMessage: the same undefined-property case answers 'metatags'.
- UpdateModelField.FieldKey: non-string field names other than null, which PHP would coerce to array keys, become the empty key.
- MetaTags.MetaInfo: `slice` is taken to keep only the listed keys the data holds. The collection class is not part of this model.
- PolymorphicRelations.ResolveRelationCallback: the model object passed to the hook is represented by the model instance's uuid. Side effects of the hook are not modelled.
- Multilanguage.IsLanguageChange: numeric strings are recognised only in integer form (digits with an optional sign). PHP 8 also compares leading-blank, decimal and exponent forms ("5.0", " 5", "5e0") numerically; the model compares those as plain text.
- Api.ApiController.constructor: as written, ApiController.php:63-66 installs no callback, because `onValidationError` reaches `__call`. The model installs the default callback the constructor sets out to install, and gives the class the page controller's callback slots (`OnDataValid`, `OnValidationError`). `ValidationFailed` and `DefaultValidationErrorCallback` therefore describe that intended behaviour, not the code as written.
- UserAccess.RequireAccess: the halted request is modelled as ending on the response it would be rendered on. In `ApiController`, which has no `pageSystemError`, PHP instead raises a TypeError while emitting, and that is not modelled.
- Api.ApiController.SetResultField: a payload that is a string, number or true (PHP raises an Error when writing a key into it) is excluded by its precondition.
- Api.ApiController.Field: the same scalar-payload Error is excluded by its precondition.
- Api.ApiController.Message: the same scalar-payload Error is excluded by its precondition.
- Api.ApiController.SetResponse: with a true condition and a string, the same scalar-payload Error is excluded by its precondition.
- Api.ApiController.SetResultFields: a named target that is a string, number or true (PHP raises an Error when writing a key into it) is excluded by its precondition.
- PhpValues.AsText: an array returned where a `?string` or `string` is declared raises a TypeError in PHP. The model reads it as no text.
- Multilanguage.GetMessage: an array entry (exact or at the dot path) raises a TypeError in PHP. The model gives no message.
- Api.ApiController.GetMessage: the same array-entry TypeError gives no message in the model.
- Pages.Controller.GetMessage: the same array-entry TypeError gives no message in the model.
- Api.ApiController.MessageText: an array entry raises a TypeError in PHP. The model stores the name.
- Multilanguage.PageLanguage: a non-empty array data language raises a TypeError in PHP. The model falls through to the cookie, session or default.
- Api.ApiController.GetPageLanguage: the same array data language falls through in the model.
- Pages.Controller.GetPageLanguage: the same array data language falls through in the model.
- Pages.Controller.PageLoad: data that is a collection object is taken in its array form.

=== FILE: actions.dfy ===
/** The action runner: runs a packaged action and copies its outcome into the envelope. */
module Actions {
  import opened PhpValues
  import opened Api

  /**
   * What the created action reports: the error it has before running (None when it has none),
   * the error it has after running, its 'message' value, and its result array.
   */
  datatype Action = Action(setupError: Option<string>, runError: Option<string>, message: Option<string>,
                           result: map<string, Value>)

  /** The message `runAction` shows: the action's own, else 'Action executed successfully'. */
  function ActionMessage(a: Action): (r: string)
    ensures a.message.None? ==> r == "Action executed successfully"
    ensures a.message.Some? ==> r == a.message.value
  {
    a.message.GetOr("Action executed successfully")
  }

  /**
   * `runAction`: an action with an error before running is not run and adds that error; an
   * error after running adds that error; otherwise the message is stored and then every result
   * entry written as a field, later writes winning. Returns whether the action was run.
   */
  method RunAction(c: ApiController, a: Action) returns (ran: bool)
    requires Writable(c.payload)
    modifies c`payload, c`errors
    ensures ran <==> a.setupError.None?
    ensures a.setupError.Some? ==>
              c.payload == old(c.payload) && c.errors == old(c.errors) + [VStr(c.ErrorMessage(a.setupError.value, None, EmptyArray))]
    ensures a.setupError.None? && a.runError.Some? ==>
              c.payload == old(c.payload) && c.errors == old(c.errors) + [VStr(c.ErrorMessage(a.runError.value, None, EmptyArray))]
    ensures a.setupError.None? && a.runError.None? ==>
              c.errors == old(c.errors) &&
              c.payload == VArr(Entries(WithKey(old(c.payload), "message", VStr(c.MessageText(ActionMessage(a))))) + a.result)
  {
    if a.setupError.Some? {
      c.Error(a.setupError.value, None, EmptyArray);
      return false;
    }
    ran := true;
    if a.runError.Some? {
      c.Error(a.runError.value, None, EmptyArray);
      return;
    }
    c.Message(ActionMessage(a));
    ghost var base := c.payload;
    var remaining := a.result.Keys;
    ghost var done: map<string, Value> := map[];
    assert Entries(base) + done == Entries(base);
    while remaining != {}
      invariant remaining <= a.result.Keys
      invariant done.Keys == a.result.Keys - remaining
      invariant forall k :: k in done ==> done[k] == a.result[k]
      invariant base.VArr? && c.payload == VArr(Entries(base) + done)
      invariant c.errors == old(c.errors)
      decreases remaining
    {
      var key :| key in remaining;
      WithKeyExtends(base, done, key, a.result[key]);
      c.Field(key, a.result[key]);
      remaining := remaining - {key};
      done := done[key := a.result[key]];
    }
    assert done == a.result;
  }
}

=== FILE: api_controller.dfy ===
/**
 * The API controller: the result envelope, the error list and everything the base traits merge
 * onto it (messages, route state, callback slots, and the fields of the captcha and task
 * progress traits).
 */
module Api {
  import opened PhpValues
  import opened Services
  import Multilanguage
  import Errors
  import BaseController

  /** A registered closure, named by what it does. */
  datatype Callback = DefaultValidationError | Handler(name: string)

  /** What `setResponse` is given for either branch: a closure, an array, a string or anything else. */
  datatype Branch = Closure | ArrayData(items: Value) | Text(s: string) | Other

  /** The envelope as the array json_encode receives (the execution time is not modelled). */
  function EnvelopeValue(payload: Value, status: string, code: int, errors: seq<Value>): Value {
    VArr(map["result" := payload, "status" := VStr(status), "code" := VInt(code), "errors" := ListValue(errors)])
  }

  /**
   * The framing `ApiController::getResponseJson` adds: a payload whose `progress_end` is truthy
   * closes a progress stream with ',' before and ']' after the JSON, unless the output is raw.
   */
  function Framed(json: string, payload: Value, raw: bool): (r: string)
    ensures !raw && !Empty(Get(payload, "progress_end")) ==> r == "," + json + "]"
    ensures raw || Empty(Get(payload, "progress_end")) ==> r == json
  {
    if !raw && !Empty(Get(payload, "progress_end")) then "," + json + "]" else json
  }

  /**
   * The payload after `setResultFields` has gone through the entries `done` of its values: unchanged
   * before the first, the values themselves without a field name, else those entries written under
   * the field name over what it held.
   */
  ghost function FieldsWritten(start: Value, values: Value, fieldName: Option<string>, done: map<string, Value>): Value
    requires !EmptyText(fieldName) && done != map[] ==> Writable(start)
  {
    if done == map[] then start
    else if EmptyText(fieldName) then values
    else WithKey(start, fieldName.value, VArr(Entries(Get(start, fieldName.value)) + done))
  }

  class ApiController {
    /** The container the controller was built with. */
    const services: Container

    /** The `$result` array: its 'result', 'status', 'code' and 'errors' entries. */
    var payload: Value
    var status: string
    var code: int
    var listedErrors: seq<Value>

    /** The error list. */
    var errors: seq<Value>
    var prettyFormat: bool
    var modelClass: Option<string>
    var messages: Value
    var validationErrorMessages: Value
    var extensionName: Option<string>
    var pageName: Option<string>
    var params: Value
    var dataValidCallback: Option<Callback>
    var dataErrorCallback: Option<Callback>

    /** Field of the captcha trait. */
    var captchaErrors: Value

    /** Fields of the task progress trait, and the text echoed to the client. */
    var progressStep: int
    var totalProgressSteps: Value
    var progressSleep: Value
    var output: seq<string>

    /** The cleared envelope. */
    predicate Cleared()
      reads this`payload, this`status, this`code, this`listedErrors
    {
      payload == VNull && status == "ok" && code == 200 && listedErrors == []
    }

    /** Builds the controller: the default validation-error callback is installed and the envelope cleared. */
    constructor (services: Container)
      ensures this.services == services
      ensures Cleared() && errors == []
      ensures !prettyFormat && modelClass.None?
      ensures messages == EmptyArray && validationErrorMessages == VNull
      ensures extensionName == Some("") && pageName.None? && params == EmptyArray
      ensures dataErrorCallback == Some(DefaultValidationError) && dataValidCallback.None?
      ensures captchaErrors == VNull && progressStep == 0 && totalProgressSteps == VNull && progressSleep == VNull
      ensures output == []
    {
      this.services := services;
      errors := [];
      prettyFormat := false;
      modelClass := None;
      messages := EmptyArray;
      validationErrorMessages := VNull;
      extensionName := Some("");
      pageName := None;
      params := EmptyArray;
      dataValidCallback := None;
      dataErrorCallback := Some(DefaultValidationError);
      captchaErrors := VNull;
      progressStep := 0;
      totalProgressSteps := VNull;
      progressSleep := VNull;
      output := [];
      payload := VNull;
      status := "ok";
      code := 200;
      listedErrors := [];
    }

    /** `clearResult`: resets the envelope; the error list itself is left alone. */
    method ClearResult()
      modifies this`payload, this`status, this`code, this`listedErrors
      ensures Cleared()
    {
      payload := VNull;
      status := "ok";
      code := 200;
      listedErrors := [];
    }

    /** `dispatch`: the event service's answer, or false without one. */
    function Dispatch(eventName: string, eventParams: Value): (r: Value)
      ensures !services.Has("event") ==> r == VBool(false)
      ensures services.Has("event") ==> r == services.dispatch(eventName, eventParams)
    {
      if services.Has("event") then services.dispatch(eventName, eventParams) else VBool(false)
    }

    method SetModelClass(modelClassName: string)
      modifies this`modelClass
      ensures GetModelClass() == Some(modelClassName)
    {
      modelClass := Some(modelClassName);
    }

    /** `getModelClass`: the class last set, none before any. */
    function GetModelClass(): (r: Option<string>)
      reads this`modelClass
      ensures r.Some? <==> modelClass.Some?
      ensures r.Some? ==> r == modelClass
    {
      modelClass
    }

    // ----- messages (Multilanguage trait) -----

    /** `getMessage` on the loaded table. */
    function GetMessage(name: string): (r: Option<string>)
      reads this`messages
      ensures Get(messages, name).VStr? ==> r == Some(Get(messages, name).s)
      ensures Get(messages, name).VInt? ==> r == Some(IntText(Get(messages, name).i))
      ensures Get(messages, name).VBool? ==> r == Some(if Get(messages, name).b then "1" else "")
      ensures Get(messages, name) == VNull ==> r == AsText(GetPath(messages, Split(name, '.')))
    {
      Multilanguage.GetMessage(messages, name)
    }

    /** The text `message($name)` stores: the looked-up message, else the name itself. */
    function MessageText(name: string): (r: string)
      reads this`messages
      ensures GetMessage(name).None? ==> r == name
      ensures GetMessage(name).Some? ==> r == GetMessage(name).value
      ensures Get(messages, name).VInt? ==> r == IntText(Get(messages, name).i)
    {
      GetMessage(name).GetOr(name)
    }

    /** `loadMessages`: replaces the table by the component's properties for the given or default language. */
    method LoadMessages(componentName: string, language: Option<string>, component: (string, string) -> Value)
      modifies this`messages
      ensures messages == Multilanguage.LoadedMessages(
                component(componentName, Multilanguage.LoadLanguage(language, GetDefaultLanguage())))
    {
      var lang := Multilanguage.LoadLanguage(language, GetDefaultLanguage());
      messages := Multilanguage.LoadedMessages(component(componentName, lang));
    }

    /** `getDefaultLanguage`: the configured default language, 'en' when unset. */
    function GetDefaultLanguage(): (r: string)
      ensures services.configuredLanguage.None? ==> r == "en"
      ensures services.configuredLanguage.Some? ==> r == services.configuredLanguage.value
    {
      Multilanguage.DefaultLanguage(services.configuredLanguage)
    }

    /** `getPageLanguage`: data, then cookie, then session, then the default language. */
    function GetPageLanguage(data: Value, client: Multilanguage.Client): (r: string)
      ensures Multilanguage.DataLanguage(data).Some? ==> r == Multilanguage.DataLanguage(data).value
      ensures Multilanguage.DataLanguage(data).None? && !EmptyText(client.cookieLanguage) ==>
                r == client.cookieLanguage.value
      ensures Multilanguage.DataLanguage(data).None? && EmptyText(client.cookieLanguage) ==>
                r == client.sessionLanguage.GetOr(GetDefaultLanguage())
      ensures Get(data, "language").VInt? && Get(data, "language").i != 0 ==>
                r == IntText(Get(data, "language").i)
      ensures Get(data, "language") == VBool(true) ==> r == "1"
    {
      Multilanguage.PageLanguage(data, client, GetDefaultLanguage())
    }

    /** `isLanguageChange`: false without a data language, else whether the session's entry loosely differs. */
    function IsLanguageChange(data: Value, client: Multilanguage.Client): (r: bool)
      ensures Get(data, "language") == VNull ==> !r
      ensures Get(data, "language").VStr? && client.sessionLanguage.Some? ==>
                (r <==> client.sessionLanguage.value != Get(data, "language").s &&
                        (IntegerText(client.sessionLanguage.value).None? ||
                         IntegerText(client.sessionLanguage.value) != IntegerText(Get(data, "language").s)))
      ensures Get(data, "language").VStr? && client.sessionLanguage.None? ==> (r <==> Get(data, "language").s != "")
      ensures Get(data, "language").VInt? && client.sessionLanguage.Some? ==>
                (r <==> IntegerText(client.sessionLanguage.value) != Some(Get(data, "language").i))
      ensures Get(data, "language").VInt? && client.sessionLanguage.None? ==> (r <==> Get(data, "language").i != 0)
    {
      Multilanguage.IsLanguageChange(data, client.sessionLanguage)
    }

    // ----- the envelope (ApiController / ApiResponse) -----

    /** `setResultField`: writes one payload key and leaves every other key as it was. */
    method SetResultField(name: string, value: Value)
      requires Writable(payload)
      modifies this`payload
      ensures payload == WithKey(old(payload), name, value)
      ensures Get(payload, name) == value && forall k :: k != name ==> Get(payload, k) == Get(old(payload), k)
    {
      payload := WithKey(payload, name, value);
    }

    /** `field`: the chaining form of `setResultField`. */
    method Field(name: string, value: Value)
      requires Writable(payload)
      modifies this`payload
      ensures payload == WithKey(old(payload), name, value)
    {
      SetResultField(name, value);
    }

    /** `message($name)`: stores the looked-up message, or the name itself, under 'message'. */
    method Message(name: string)
      requires Writable(payload)
      modifies this`payload
      ensures payload == WithKey(old(payload), "message", VStr(MessageText(name)))
    {
      Field("message", VStr(MessageText(name)));
    }

    /**
     * `setResultFields`: without a field name a non-empty array replaces the whole payload; with
     * one, its entries are written under that key, keeping the entries already there. An empty
     * array changes nothing.
     */
    method SetResultFields(values: Value, fieldName: Option<string>)
      requires values.VArr?
      requires !EmptyText(fieldName) && Entries(values) != map[] ==>
                 Writable(payload) && Writable(Get(payload, fieldName.value))
      modifies this`payload
      ensures Entries(values) == map[] ==> payload == old(payload)
      ensures EmptyText(fieldName) && Entries(values) != map[] ==> payload == values
      ensures !EmptyText(fieldName) && Entries(values) != map[] ==>
                payload == WithKey(old(payload), fieldName.value,
                                   VArr(Entries(Get(old(payload), fieldName.value)) + Entries(values)))
    {
      var entries := Entries(values);
      var remaining := entries.Keys;
      ghost var done: map<string, Value> := map[];
      while remaining != {}
        invariant remaining <= entries.Keys
        invariant done.Keys == entries.Keys - remaining
        invariant forall k :: k in done ==> done[k] == entries[k]
        invariant payload == FieldsWritten(old(payload), values, fieldName, done)
        decreases remaining
      {
        var key :| key in remaining;
        if EmptyText(fieldName) {
          payload := values;
        } else {
          var name := fieldName.value;
          WriteNestedEntry(old(payload), name, done, payload, key, entries[key]);
          var nested := WithKey(Get(payload, name), key, entries[key]);
          payload := WithKey(payload, name, nested);
        }
        remaining := remaining - {key};
        done := done[key := entries[key]];
      }
      assert done == entries;
    }

    /** `fields`: the chaining form of `setResultFields`. */
    method Fields(values: Value, fieldName: Option<string>)
      requires values.VArr?
      requires !EmptyText(fieldName) && Entries(values) != map[] ==>
                 Writable(payload) && Writable(Get(payload, fieldName.value))
      modifies this`payload
      ensures Entries(values) == map[] ==> payload == old(payload)
      ensures EmptyText(fieldName) && Entries(values) != map[] ==> payload == values
      ensures !EmptyText(fieldName) && Entries(values) != map[] ==>
                payload == WithKey(old(payload), fieldName.value,
                                   VArr(Entries(Get(old(payload), fieldName.value)) + Entries(values)))
    {
      SetResultFields(values, fieldName);
    }

    /** `setResult`: replaces the whole payload. */
    method SetResult(data: Value)
      modifies this`payload
      ensures payload == data
    {
      payload := data;
    }

    /** `useJsonPrettyformat`: switches pretty printing on; nothing switches it off. */
    method UseJsonPrettyformat()
      modifies this`prettyFormat
      ensures prettyFormat
    {
      prettyFormat := true;
    }

    /**
     * `setResponse`: on a true condition runs the data closure, stores an array as the payload or
     * a string as the message; on a false one runs the error closure or records the error string.
     * Running a closure is left to the caller, which is told so by `runClosure`.
     */
    method SetResponse(condition: bool, data: Branch, error: Branch) returns (runClosure: bool)
      requires error.Closure? || error.Text?
      requires condition && data.Text? ==> Writable(payload)
      modifies this`payload, this`errors
      ensures runClosure <==> (condition && data.Closure?) || (!condition && error.Closure?)
      ensures condition ==> errors == old(errors)
      ensures condition && data.ArrayData? ==> payload == data.items
      ensures condition && data.Text? ==> payload == WithKey(old(payload), "message", VStr(MessageText(data.s)))
      ensures condition && (data.Closure? || data.Other?) ==> payload == old(payload)
      ensures !condition ==> payload == old(payload)
      ensures !condition && error.Text? ==> errors == old(errors) + [VStr(ErrorMessage(error.s, None, EmptyArray))]
      ensures !condition && error.Closure? ==> errors == old(errors)
    {
      runClosure := false;
      if condition {
        match data
        case Closure => runClosure := true;
        case ArrayData(items) => SetResult(items);
        case Text(s) => Message(s);
        case Other =>
      } else {
        if error.Closure? {
          runClosure := true;
        } else {
          Error(error.s, None, EmptyArray);
        }
      }
    }

    /** Writes the error list, status and code into the envelope, as the JSON builders do first. */
    method Seal()
      modifies this`status, this`code, this`listedErrors
      ensures listedErrors == errors
      ensures status == (if HasError() then "error" else "ok")
      ensures code == (if HasError() then 400 else 200)
    {
      listedErrors := errors;
      status := if HasError() then "error" else "ok";
      code := if HasError() then 400 else 200;
    }

    /** The JSON of the payload alone (raw) or of the whole envelope, in the chosen format. */
    function Encoded(raw: bool): string
      reads this`payload, this`status, this`code, this`listedErrors, this`prettyFormat
    {
      var v := if raw then payload else EnvelopeValue(payload, status, code, listedErrors);
      if prettyFormat then services.encodePretty(v) else services.encode(v)
    }

    /**
     * `ApiResponse::getResponseJson`: status 'error' and code 400 exactly when there are errors,
     * the error list copied into the envelope, and the payload alone when raw.
     */
    method PlainResponseJson(raw: bool) returns (json: string)
      modifies this`status, this`code, this`listedErrors
      ensures listedErrors == errors
      ensures status == (if |errors| > 0 then "error" else "ok")
      ensures code == (if |errors| > 0 then 400 else 200)
      ensures json == Encoded(raw)
      ensures raw ==> json == (if prettyFormat then services.encodePretty(payload) else services.encode(payload))
    {
      Seal();
      json := Encoded(raw);
    }

    /** `ApiController::getResponseJson`: the same JSON, framed when the payload ends a progress stream. */
    method GetResponseJson(raw: bool) returns (json: string)
      modifies this`status, this`code, this`listedErrors
      ensures listedErrors == errors
      ensures status == (if |errors| > 0 then "error" else "ok")
      ensures code == (if |errors| > 0 then 400 else 200)
      ensures json == Framed(Encoded(raw), payload, raw)
    {
      var plain := PlainResponseJson(raw);
      json := Framed(plain, payload, raw);
    }

    /** `ApiController::getResponse`: a new JSON response carrying the derived code as its status. */
    method GetResponse(raw: bool) returns (response: HttpResponse)
      modifies this`status, this`code, this`listedErrors
      ensures code == (if |errors| > 0 then 400 else 200) && listedErrors == errors
      ensures response == NewResponse.Write(Framed(Encoded(raw), payload, raw))
                                     .WithStatus(code).WithHeader("Content-Type", "application/json")
    {
      var json := GetResponseJson(raw);
      response := NewResponse.Write(json).WithStatus(code).WithHeader("Content-Type", "application/json");
    }

    /**
     * `ApiResponse::getResponse`: writes the unframed JSON, followed by ',' for a progress step, to
     * the given response (else the controller's own) and drops both callback slots.
     */
    method StreamResponse(raw: bool, given: Option<HttpResponse>, own: HttpResponse, progress: bool) returns (response: HttpResponse)
      modifies this`status, this`code, this`listedErrors, this`dataValidCallback, this`dataErrorCallback
      ensures code == (if |errors| > 0 then 400 else 200) && listedErrors == errors
      ensures response == given.GetOr(own).Write(Encoded(raw) + (if progress then "," else ""))
                                           .WithStatus(code).WithHeader("Content-Type", "application/json")
      ensures dataValidCallback.None? && dataErrorCallback.None?
    {
      var json := PlainResponseJson(raw);
      json := json + (if progress then "," else "");
      dataErrorCallback := None;
      dataValidCallback := None;
      response := given.GetOr(own).Write(json).WithStatus(code).WithHeader("Content-Type", "application/json");
    }

    // ----- errors (Errors trait) -----

    /** The text `error($name, $default, $params)` appends. */
    function ErrorMessage(name: string, default: Option<string>, errorParams: Value): string
      reads this`messages
    {
      Errors.ErrorText(GetMessage(name), services.errors.getError(name, errorParams, default), default, name)
    }

    /** `error`: appends exactly one entry, the text of the message fallback chain. */
    method Error(name: string, default: Option<string>, errorParams: Value)
      modifies this`errors
      ensures errors == old(errors) + [VStr(ErrorMessage(name, default, errorParams))]
    {
      var local := GetMessage(name);
      var text: string;
      if EmptyText(local) {
        text := Errors.ErrorText(local, services.errors.getError(name, errorParams, default), default, name);
      } else {
        text := local.value;
      }
      SetError(text, true);
    }

    /** `addError`: appends the controller's message for the code, else the code; the registry is not asked. */
    method AddError(errorCode: string)
      modifies this`errors
      ensures errors == old(errors) + [VStr(Errors.AddErrorText(GetMessage(errorCode), errorCode))]
    {
      errors := errors + [VStr(Errors.AddErrorText(GetMessage(errorCode), errorCode))];
    }

    /** `addErrors`: appends the list in order, duplicates included. */
    method AddErrors(list: seq<Value>)
      modifies this`errors
      ensures errors == old(errors) + list
      ensures GetErrorCount() == old(GetErrorCount()) + |list|
    {
      errors := errors + list;
    }

    /** `setErrors`: replaces the list. */
    method SetErrors(list: seq<Value>)
      modifies this`errors
      ensures errors == list
    {
      errors := list;
    }

    /** `clearErrors`: empties the list. */
    method ClearErrors()
      modifies this`errors
      ensures errors == [] && !HasError()
    {
      errors := [];
    }

    function GetErrorCount(): (r: nat)
      reads this`errors
      ensures r == |errors|
    {
      |errors|
    }

    /** `hasError`: whether the list is non-empty. */
    function HasError(): (r: bool)
      reads this`errors
      ensures r <==> GetErrorCount() > 0
    {
      |errors| > 0
    }

    /** `setError`: appends the message exactly when the condition holds. */
    method SetError(errorMessage: string, condition: bool)
      modifies this`errors
      ensures condition ==> errors == old(errors) + [VStr(errorMessage)]
      ensures !condition ==> errors == old(errors)
    {
      if condition {
        errors := errors + [VStr(errorMessage)];
      }
    }

    /** `withError`: the chaining form of `setError`. */
    method WithError(errorMessage: string, condition: bool)
      modifies this`errors
      ensures condition ==> errors == old(errors) + [VStr(errorMessage)]
      ensures !condition ==> errors == old(errors)
    {
      SetError(errorMessage, condition);
    }

    /** `loadValidationErrors`: fills the validation table once, from the system table and the controller's messages. */
    method LoadValidationErrors()
      modifies this`validationErrorMessages
      ensures validationErrorMessages ==
              Errors.LoadedValidationTable(old(validationErrorMessages), services.errors.validationErrors, messages)
    {
      if Empty(validationErrorMessages) {
        validationErrorMessages := Errors.MergedValidationTable(services.errors.validationErrors, messages);
      }
    }

    /** `resolveValidationErrors`: one {field_name, message} entry per failure, after loading the table. */
    method ResolveValidationErrors(failures: seq<Errors.ValidationFailure>) returns (r: seq<Value>)
      modifies this`validationErrorMessages
      ensures validationErrorMessages ==
              Errors.LoadedValidationTable(old(validationErrorMessages), services.errors.validationErrors, messages)
      ensures r == Errors.ResolveValidationErrors(validationErrorMessages, failures, services.render)
    {
      LoadValidationErrors();
      r := Errors.ResolveValidationErrors(validationErrorMessages, failures, services.render);
    }

    /** The callback the constructor installs: the translated failures replace the error list. */
    method DefaultValidationErrorCallback(failures: seq<Errors.ValidationFailure>)
      modifies this`validationErrorMessages, this`errors
      ensures validationErrorMessages ==
              Errors.LoadedValidationTable(old(validationErrorMessages), services.errors.validationErrors, messages)
      ensures errors == Errors.ResolveValidationErrors(validationErrorMessages, failures, services.render)
      ensures |errors| == |failures|
    {
      var resolved := ResolveValidationErrors(failures);
      SetErrors(resolved);
    }

    /** The validator reporting failures: runs the registered validation-error callback, if it is the default one. */
    method ValidationFailed(failures: seq<Errors.ValidationFailure>)
      modifies this`validationErrorMessages, this`errors
      ensures dataErrorCallback == Some(DefaultValidationError) ==>
                errors == Errors.ResolveValidationErrors(validationErrorMessages, failures, services.render)
      ensures dataErrorCallback != Some(DefaultValidationError) ==>
                errors == old(errors) && validationErrorMessages == old(validationErrorMessages)
    {
      if dataErrorCallback == Some(DefaultValidationError) {
        DefaultValidationErrorCallback(failures);
      }
    }

    // ----- callback slots -----

    method OnValidationError(callback: Callback)
      modifies this`dataErrorCallback
      ensures GetValidationErrorCallback() == Some(callback)
    {
      dataErrorCallback := Some(callback);
    }

    method OnDataValid(callback: Callback)
      modifies this`dataValidCallback
      ensures GetDataValidCallback() == Some(callback)
    {
      dataValidCallback := Some(callback);
    }

    function GetDataValidCallback(): (r: Option<Callback>)
      reads this`dataValidCallback
      ensures r == dataValidCallback
    {
      dataValidCallback
    }

    function GetValidationErrorCallback(): (r: Option<Callback>)
      reads this`dataErrorCallback
      ensures r == dataErrorCallback
    {
      dataErrorCallback
    }

    // ----- route state and parameters (BaseController trait) -----

    function GetParams(): (r: Value)
      reads this`params
      ensures r != VNull
      ensures params != VNull ==> r == params
    {
      BaseController.GetParams(params)
    }

    function GetParam(key: string, default: Value): (r: Value)
      reads this`params
      ensures Get(params, key) != VNull ==> r == Get(params, key)
      ensures Get(params, key) == VNull ==> r == default
    {
      BaseController.GetParam(params, key, default)
    }

    function RouteState(): BaseController.RouteState
      reads this`pageName, this`extensionName, this`params
    {
      BaseController.RouteState(pageName, extensionName, params)
    }

    /** `resolveRouteParams`: without a route nothing changes and false is returned; with one its arguments apply. */
    method ResolveRouteParams(request: BaseController.Request) returns (resolved: bool)
      modifies this`pageName, this`extensionName, this`params
      ensures resolved <==> request.route.Some?
      ensures !resolved ==> RouteState() == old(RouteState())
      ensures resolved ==> RouteState() == BaseController.ApplyRoute(old(RouteState()), request.route.value, services.decode)
    {
      if request.route.None? {
        return false;
      }
      var next := BaseController.ApplyRoute(RouteState(), request.route.value, services.decode);
      pageName := next.pageName;
      extensionName := next.extensionName;
      params := next.params;
      return true;
    }

    function GetPageName(): (r: Option<string>)
      reads this`pageName, this`extensionName, this`params
      ensures r == RouteState().pageName
    {
      pageName
    }

    method SetExtensionName(name: Option<string>)
      modifies this`extensionName
      ensures extensionName == name
    {
      extensionName := name;
    }

    function GetExtensionName(): (r: Option<string>)
      reads this`extensionName
      ensures r != Some("core")
      ensures extensionName != Some("core") ==> r == extensionName
    {
      BaseController.ExtensionName(extensionName)
    }

    /** `getError`: the controller's own message when non-empty, else the 'error' service's. */
    function GetError(errorCode: string, errorParams: Value): (r: Option<string>)
      reads this`messages
      ensures !EmptyText(GetMessage(errorCode)) ==> r == GetMessage(errorCode)
      ensures EmptyText(GetMessage(errorCode)) ==> r == services.errorText(errorCode, errorParams)
    {
      Errors.LookupErrorText(GetMessage(errorCode), services.errorText(errorCode, errorParams))
    }
  }
}

=== FILE: api_paginator.dfy ===
/** The paginator helper: puts one page of a data source into the envelope. */
module ApiPaginator {
  import opened PhpValues
  import opened Api

  /** A page's items: a plain array, or a collection whose array form is given. */
  datatype Items = PlainItems(items: Value) | CollectionItems(asArray: Value)

  /** What a paginator built for one page reports. */
  datatype Page = Page(lastPage: int, paginatorData: Value, items: Items)

  /** The items as the envelope receives them: collections are turned into arrays. */
  function ItemsValue(items: Items): Value {
    match items
    case PlainItems(v) => v
    case CollectionItems(v) => v
  }

  /** The page asked for the second time: the requested one, else the last one when it lies beyond. */
  function EffectivePage(requested: int, first: Page): (r: int)
    ensures requested <= first.lastPage ==> r == requested
    ensures requested > first.lastPage ==> r == first.lastPage
  {
    if requested > first.lastPage then first.lastPage else requested
  }

  /**
   * `paginate`: builds the paginator for the requested page and, when that page lies beyond the
   * last, again for the last page; stores its data under 'paginagtor' (the key as the helper
   * spells it) and its items under 'items'.
   */
  method Paginate(c: ApiController, create: (int, int) -> Page, page: int, perPage: int)
    requires Writable(c.payload)
    modifies c`payload
    ensures var shown := create(EffectivePage(page, create(page, perPage)), perPage);
            c.payload == WithKey(WithKey(old(c.payload), "paginagtor", shown.paginatorData), "items", ItemsValue(shown.items))
  {
    var paginator := create(page, perPage);
    if page > paginator.lastPage {
      paginator := create(paginator.lastPage, perPage);
    }
    c.Field("paginagtor", paginator.paginatorData);
    c.Field("items", ItemsValue(paginator.items));
  }
}

=== FILE: base_controller.dfy ===
/** Route and request parameters, extension names and controller parameters. */
module BaseController {
  import opened PhpValues

  /** A PHP array key: an integer, or a string that does not read as one. */
  datatype Key = IntKey(n: int) | StrKey(s: string)

  const MaxInt: int := 0x7FFF_FFFF_FFFF_FFFF

  /**
   * The key PHP stores for a string key: an integer when the string is the canonical decimal
   * text of a 64-bit integer (no sign '+', no leading zero, not "-0"), else the string itself.
   */
  function ArrayKey(s: string): (r: Key)
    ensures r.IntKey? ==> IntText(r.n) == s && -MaxInt - 1 <= r.n <= MaxInt
    ensures r.StrKey? ==> r.s == s
  {
    var n := IntegerText(s);
    if n.Some? && IntText(n.value) == s && -MaxInt - 1 <= n.value <= MaxInt then IntKey(n.value) else StrKey(s)
  }

  /** Every 64-bit integer's text is stored as that integer. */
  lemma IntegerKeys(n: int)
    requires -MaxInt - 1 <= n <= MaxInt
    ensures ArrayKey(IntText(n)) == IntKey(n)
  {
    IntTextRoundTrip(n);
  }

  /**
   * The request attributes the controllers read: the matched route's arguments (None when the
   * request carries no route), the 'route_params' attribute, the 'params' path and the query
   * parameters, in order, under the keys PHP stores them with.
   */
  datatype Request = Request(
    route: Option<Value>,
    routeParams: Value,
    paramsPath: string,
    query: seq<(Key, Value)>,
    currentPath: Value
  )

  /** The fields route resolution writes. */
  datatype RouteState = RouteState(pageName: Option<string>, extensionName: Option<string>, params: Value)

  /**
   * Applies one set of route arguments: the page name and the parameters always come from the
   * route; the extension name only when it is set and is not "core".
   */
  function ApplyRoute(s: RouteState, args: Value, decode: Value -> Value): (r: RouteState)
    ensures r.pageName == AsText(Get(args, "route_page_name"))
    ensures s.extensionName.None? || s.extensionName == Some("core") ==> r.extensionName == s.extensionName
    ensures s.extensionName.Some? && s.extensionName != Some("core") ==>
              r.extensionName == AsText(Get(args, "route_extension_name"))
    ensures Empty(Get(args, "route_options")) ==> r.params == EmptyArray
    ensures !Empty(Get(args, "route_options")) ==> r.params == decode(Get(args, "route_options"))
  {
    var options := Get(args, "route_options");
    RouteState(
      AsText(Get(args, "route_page_name")),
      if s.extensionName.Some? && s.extensionName != Some("core") then AsText(Get(args, "route_extension_name"))
      else s.extensionName,
      if Empty(options) then EmptyArray else decode(options))
  }

  /** Resolving the same route twice leaves the fields as resolving it once. */
  lemma ApplyRouteIdempotent(s: RouteState, args: Value, decode: Value -> Value)
    ensures ApplyRoute(ApplyRoute(s, args, decode), args, decode) == ApplyRoute(s, args, decode)
  {
  }

  /** `getExtensionName`: the stored name, except that "core" reads as no extension. */
  function ExtensionName(stored: Option<string>): (r: Option<string>)
    ensures r != Some("core")
    ensures stored != Some("core") ==> r == stored
    ensures stored == Some("core") ==> r.None?
  {
    if stored == Some("core") then None else stored
  }

  /** `getParams`: the parameters, never null. */
  function GetParams(params: Value): (r: Value)
    ensures r != VNull
    ensures params != VNull ==> r == params
  {
    if params == VNull then EmptyArray else params
  }

  /** `getParam`: the parameter stored under the key, or the default when there is none. */
  function GetParam(params: Value, key: string, default: Value): (r: Value)
    ensures Get(params, key) != VNull ==> r == Get(params, key)
    ensures Get(params, key) == VNull ==> r == default
  {
    GetOr(params, key, default)
  }

  /**
   * The request parameters: the integer-keyed ones renumbered from 0 (the path segments, then the
   * integer-keyed query parameters) and the string-keyed query parameters by name.
   */
  datatype RequestParams = RequestParams(positional: seq<Value>, named: map<string, Value>)

  /** PHP's `array_filter` on path segments: drops the empty ones ("" and "0"), keeping the order. */
  function Segments(pieces: seq<string>): (r: seq<string>)
    ensures |r| <= |pieces|
    ensures forall i :: 0 <= i < |r| ==> r[i] != "" && r[i] != "0"
  {
    if pieces == [] then []
    else (if pieces[0] == "" || pieces[0] == "0" then [] else [pieces[0]]) + Segments(pieces[1..])
  }

  /** The kept pieces are pieces of the input, and every piece that is neither "" nor "0" is kept. */
  lemma {:induction false} SegmentsMembers(pieces: seq<string>)
    ensures forall p :: p in Segments(pieces) ==> p in pieces
    ensures forall p :: p in pieces && p != "" && p != "0" ==> p in Segments(pieces)
    decreases |pieces|
  {
    if pieces != [] {
      SegmentsMembers(pieces[1..]);
      assert pieces == [pieces[0]] + pieces[1..];
    }
  }

  /** One piece is kept exactly when it is non-empty. */
  lemma SegmentsSingle(p: string)
    ensures Segments([p]) == if p == "" || p == "0" then [] else [p]
  {
    assert [p][1..] == [];
  }

  /** Filtering a path piece by piece: the kept pieces of a concatenation, in order. */
  lemma {:induction false} SegmentsAppend(a: seq<string>, b: seq<string>)
    ensures Segments(a + b) == Segments(a) + Segments(b)
    decreases |a|
  {
    if a == [] {
      assert a + b == b;
    } else {
      SegmentsAppend(a[1..], b);
      assert (a + b)[1..] == a[1..] + b;
    }
  }

  /** Segments that are all non-empty are kept as they are. */
  lemma {:induction false} SegmentsKeepNonEmpty(pieces: seq<string>)
    requires forall i :: 0 <= i < |pieces| ==> pieces[i] != "" && pieces[i] != "0"
    ensures Segments(pieces) == pieces
  {
    if pieces != [] {
      SegmentsKeepNonEmpty(pieces[1..]);
      assert [pieces[0]] + pieces[1..] == pieces;
    }
  }

  /** The kept segments of a 'params' path. */
  function PathSegments(path: string): (r: seq<string>)
    ensures forall i :: 0 <= i < |r| ==> r[i] != "" && r[i] != "0" && '/' !in r[i]
  {
    var pieces := Split(path, '/');
    SegmentsMembers(pieces);
    assert forall p :: p in pieces ==> '/' !in p;
    Segments(pieces)
  }

  /** Strings as PHP values. */
  function Texts(pieces: seq<string>): (r: seq<Value>)
    ensures |r| == |pieces| && forall i :: 0 <= i < |pieces| ==> r[i] == VStr(pieces[i])
  {
    seq(|pieces|, i requires 0 <= i < |pieces| => VStr(pieces[i]))
  }

  /** The values of the integer-keyed entries, in order. */
  function IntKeyed(entries: seq<(Key, Value)>): (r: seq<Value>)
    ensures |r| <= |entries|
    ensures forall j :: 0 <= j < |entries| && entries[j].0.IntKey? ==> entries[j].1 in r
    ensures (forall j :: 0 <= j < |entries| ==> entries[j].0.StrKey?) ==> r == []
  {
    if entries == [] then []
    else (if entries[0].0.IntKey? then [entries[0].1] else []) + IntKeyed(entries[1..])
  }

  /** The string-keyed entries, a later entry replacing an earlier one under the same key. */
  function StrKeyed(entries: seq<(Key, Value)>): (r: map<string, Value>)
    ensures forall k :: k in r <==> StrKey(k) in KeysOf(entries)
  {
    if entries == [] then map[]
    else
      var front := StrKeyed(entries[..|entries| - 1]);
      var last := entries[|entries| - 1];
      assert KeysOf(entries) == KeysOf(entries[..|entries| - 1]) + [last.0];
      if last.0.StrKey? then front[last.0.s := last.1] else front
  }

  /** Picking the integer-keyed values distributes over concatenation, so their order is kept. */
  lemma {:induction false} IntKeyedAppend(a: seq<(Key, Value)>, b: seq<(Key, Value)>)
    ensures IntKeyed(a + b) == IntKeyed(a) + IntKeyed(b)
  {
    if a == [] {
      assert a + b == b;
    } else {
      assert (a + b)[0] == a[0];
      assert (a + b)[1..] == a[1..] + b;
      IntKeyedAppend(a[1..], b);
    }
  }

  /** Every picked value is the value of some integer-keyed entry. */
  lemma {:induction false} IntKeyedMembers(entries: seq<(Key, Value)>)
    ensures forall v :: v in IntKeyed(entries) ==>
              exists j :: 0 <= j < |entries| && entries[j].0.IntKey? && entries[j].1 == v
  {
    if entries != [] {
      IntKeyedMembers(entries[1..]);
      forall v | v in IntKeyed(entries)
        ensures exists j :: 0 <= j < |entries| && entries[j].0.IntKey? && entries[j].1 == v
      {
        if !(entries[0].0.IntKey? && v == entries[0].1) {
          assert v in IntKeyed(entries[1..]);
          var j :| 0 <= j < |entries[1..]| && entries[1..][j].0.IntKey? && entries[1..][j].1 == v;
          assert entries[j + 1] == entries[1..][j];
        }
      }
    }
  }

  /** A string key holds the value of its last entry. */
  lemma {:induction false} StrKeyedLast(entries: seq<(Key, Value)>, k: string, j: int)
    requires 0 <= j < |entries| && entries[j].0 == StrKey(k)
    requires forall l :: j < l < |entries| ==> entries[l].0 != StrKey(k)
    ensures k in StrKeyed(entries) && StrKeyed(entries)[k] == entries[j].1
    decreases |entries|
  {
    var n := |entries| - 1;
    if j < n {
      StrKeyedLast(entries[..n], k, j);
      assert entries[n].0 != StrKey(k);
    }
  }

  /** The keys of the entries, in order. */
  function KeysOf(entries: seq<(Key, Value)>): (r: seq<Key>)
    ensures |r| == |entries| && forall j :: 0 <= j < |entries| ==> r[j] == entries[j].0
  {
    seq(|entries|, j requires 0 <= j < |entries| => entries[j].0)
  }

  /**
   * `getRequestParams`: `array_merge` of the kept path segments and the query. The merge
   * renumbers every integer key, so the segments take 0, 1, ... and the integer-keyed query
   * parameters follow them in order; string keys are kept, a later one replacing an earlier one.
   */
  function GetRequestParams(request: Request): (r: RequestParams)
    ensures r.named == StrKeyed(request.query)
    ensures |r.positional| == |PathSegments(request.paramsPath)| + |IntKeyed(request.query)|
    ensures forall i :: 0 <= i < |PathSegments(request.paramsPath)| ==>
              r.positional[i] == VStr(PathSegments(request.paramsPath)[i])
    ensures forall j :: 0 <= j < |IntKeyed(request.query)| ==>
              r.positional[|PathSegments(request.paramsPath)| + j] == IntKeyed(request.query)[j]
  {
    RequestParams(Texts(PathSegments(request.paramsPath)) + IntKeyed(request.query), StrKeyed(request.query))
  }

  /** A path made only of non-empty segments is recovered by joining its kept segments. */
  lemma RequestParamsRoundTrip(request: Request)
    requires forall i :: 0 <= i < |Split(request.paramsPath, '/')| ==>
               Split(request.paramsPath, '/')[i] != "" && Split(request.paramsPath, '/')[i] != "0"
    ensures Join(PathSegments(request.paramsPath), '/') == request.paramsPath
  {
    SegmentsKeepNonEmpty(Split(request.paramsPath, '/'));
    JoinSplit(request.paramsPath, '/');
  }

  /** The pieces of "/a//b": an empty one before each separator that starts the path or follows another. */
  lemma SplitWithEmptyPieces()
    ensures Split("/a//b", '/') == ["", "a", "", "b"]
  {
    assert "/a//b" == "" + ['/'] + "a//b";
    SplitFirst("", "a//b", '/');
    assert "a//b" == "a" + ['/'] + "/b";
    SplitFirst("a", "/b", '/');
    assert "/b" == "" + ['/'] + "b";
    SplitFirst("", "b", '/');
    SplitNoSeparator("b", '/');
  }

  /** Empty segments are dropped and the rest renumbered from 0: "/a//b" gives "a" and "b". */
  lemma EmptySegmentsDropped(request: Request)
    requires request.paramsPath == "/a//b"
    ensures PathSegments(request.paramsPath) == ["a", "b"]
  {
    SplitWithEmptyPieces();
    KeptOfEmptyThen("a");
    KeptOfEmptyThen("b");
    SegmentsAppend(["", "a"], ["", "b"]);
    assert ["", "a", "", "b"] == ["", "a"] + ["", "b"];
  }

  /** An empty piece followed by a non-empty one keeps only the latter. */
  lemma KeptOfEmptyThen(p: string)
    requires p != "" && p != "0"
    ensures Segments(["", p]) == [p]
  {
    SegmentsAppend([""], [p]);
    SegmentsSingle("");
    SegmentsSingle(p);
    assert ["", p] == [""] + [p];
  }

  /** The pieces of "/a": an empty one, then "a". */
  lemma SplitLeadingSeparator()
    ensures Split("/a", '/') == ["", "a"]
  {
    SplitNoSeparator("a", '/');
    assert "/a" == "" + ['/'] + "a";
    SplitFirst("", "a", '/');
  }

  /** PHP stores the key "0" as the integer 0. */
  lemma ZeroKey()
    ensures ArrayKey("0") == IntKey(0)
  {
    IntegerKeys(0);
    assert IntText(0) == "0";
  }

  /** One integer-keyed entry: one positional value and no names. */
  lemma OneIntKeyed(n: int, v: Value)
    ensures IntKeyed([(IntKey(n), v)]) == [v]
    ensures StrKeyed([(IntKey(n), v)]) == map[]
  {
    assert [(IntKey(n), v)][1..] == [];
    assert [(IntKey(n), v)][..0] == [];
  }

  /**
   * The query `?0=x` on the path "/a": PHP stores the key "0" as the integer 0, and the merge
   * renumbers it after the one segment, so it is the second positional parameter.
   */
  lemma NumericQueryKeyFollowsPath(request: Request)
    requires request.paramsPath == "/a" && request.query == [(ArrayKey("0"), VStr("x"))]
    ensures GetRequestParams(request).positional == [VStr("a"), VStr("x")]
    ensures GetRequestParams(request).named == map[]
  {
    SplitLeadingSeparator();
    KeptOfEmptyThen("a");
    ZeroKey();
    OneIntKeyed(0, VStr("x"));
    assert Texts(["a"]) == [VStr("a")];
  }

  /** `$params[$index] ?? null` on the merged request parameters: only integer keys are read. */
  function Positional(p: RequestParams, index: nat): Value {
    if index < |p.positional| then p.positional[index] else VNull
  }

  /** Whether no later key repeats the key at `i` (a later key overwrites an earlier one). */
  predicate LastOccurrence(keys: seq<string>, i: int)
    requires 0 <= i < |keys|
  {
    forall j :: i < j < |keys| ==> keys[j] != keys[i]
  }

  /** The names given to the first `n` positional parameters, each key written in turn. */
  function Named(keys: seq<string>, p: RequestParams, n: nat): map<string, Value>
    requires n <= |keys|
  {
    if n == 0 then map[] else Named(keys, p, n - 1)[keys[n - 1] := Positional(p, n - 1)]
  }

  /** The first `n` keys are exactly the named ones. */
  lemma {:induction false} NamedKeys(keys: seq<string>, p: RequestParams, n: nat)
    requires n <= |keys|
    ensures forall k :: k in Named(keys, p, n) <==> k in keys[..n]
  {
    if n > 0 {
      NamedKeys(keys, p, n - 1);
      assert keys[..n] == keys[..n - 1] + [keys[n - 1]];
    }
  }

  /** A key not written again later holds the parameter at its own position. */
  lemma {:induction false} NamedLast(keys: seq<string>, p: RequestParams, n: nat, j: nat)
    requires j < n <= |keys|
    requires forall m :: j < m < n ==> keys[m] != keys[j]
    ensures keys[j] in Named(keys, p, n) && Named(keys, p, n)[keys[j]] == Positional(p, j)
  {
    if j < n - 1 {
      NamedLast(keys, p, n - 1, j);
    }
  }

  /** Once every key is written: the names are exactly the keys, each last one holding its own position's parameter. */
  lemma NamedLastAll(keys: seq<string>, p: RequestParams)
    ensures forall k :: k in Named(keys, p, |keys|) <==> k in keys
    ensures forall j :: 0 <= j < |keys| && LastOccurrence(keys, j) ==>
              keys[j] in Named(keys, p, |keys|) && Named(keys, p, |keys|)[keys[j]] == Positional(p, j)
  {
    NamedKeys(keys, p, |keys|);
    assert keys[..|keys|] == keys;
    forall j | 0 <= j < |keys| && LastOccurrence(keys, j)
      ensures keys[j] in Named(keys, p, |keys|) && Named(keys, p, |keys|)[keys[j]] == Positional(p, j)
    {
      NamedLast(keys, p, |keys|, j);
    }
  }

  /**
   * `resolveRequestParams`: names the positional request parameters. The i-th key receives the
   * i-th integer-keyed request parameter (a path segment, then an integer-keyed query parameter),
   * or null when there are fewer; no keys give null.
   */
  method ResolveRequestParams(request: Request, keys: seq<string>) returns (r: Value)
    ensures keys == [] ==> r == VNull
    ensures keys != [] ==> r.VArr? && forall k :: k in r.entries <==> k in keys
    ensures keys != [] ==> forall i :: 0 <= i < |keys| && LastOccurrence(keys, i) ==>
              r.entries[keys[i]] == Positional(GetRequestParams(request), i)
  {
    if keys == [] {
      return VNull;
    }
    var params := GetRequestParams(request);
    var entries := NameParams(params, keys);
    NamedLastAll(keys, params);
    r := VArr(entries);
  }

  /** The loop of `resolveRequestParams`: each key in turn receives the parameter at its position. */
  method NameParams(params: RequestParams, keys: seq<string>) returns (entries: map<string, Value>)
    ensures entries == Named(keys, params, |keys|)
  {
    entries := map[];
    var i := 0;
    while i < |keys|
      invariant 0 <= i <= |keys|
      invariant entries == Named(keys, params, i)
    {
      assert Named(keys, params, i + 1) == Named(keys, params, i)[keys[i] := Positional(params, i)];
      entries := entries[keys[i] := Positional(params, i)];
      i := i + 1;
    }
  }
}

=== FILE: captcha.dfy ===
/** The captcha check: verifies a request with the configured driver and keeps the driver's errors. */
module Captcha {
  import opened PhpValues
  import opened Api

  /**
   * `verifyCaptcha`: the driver's answer decides. A loosely false answer stores the driver's
   * errors and adds 'errors.captcha'; any other clears the stored errors.
   */
  method VerifyCaptcha(c: ApiController, answer: Value, driverErrors: Value) returns (ok: bool)
    modifies c`captchaErrors, c`errors
    ensures ok <==> !Empty(answer)
    ensures ok ==> GetCaptchaErrors(c) == VNull && c.errors == old(c.errors)
    ensures !ok ==> GetCaptchaErrors(c) == driverErrors &&
                    c.errors == old(c.errors) + [VStr(c.ErrorMessage("errors.captcha", None, EmptyArray))]
  {
    c.captchaErrors := VNull;
    if Empty(answer) {
      c.captchaErrors := driverErrors;
      c.Error("errors.captcha", None, EmptyArray);
      return false;
    }
    return true;
  }

  /** `getCaptchaErrors`: the errors of the last failed check, null after a passed one. */
  function GetCaptchaErrors(c: ApiController): (r: Value)
    reads c`captchaErrors
    ensures r == c.captchaErrors
  {
    c.captchaErrors
  }
}

=== FILE: controller.dfy ===
/**
 * The page controller base class: route state, callback slots, messages, the access gate with
 * the current user id, the page-name and language choice of a page load, and the redirect and
 * no-cache header builders.
 */
module Pages {
  import opened PhpValues
  import opened Services
  import Multilanguage
  import Errors
  import BaseController
  import UserAccess
  import Api

  /** What a page load renders: the not-found page, or the chosen page with its language and data. */
  datatype PageView = NotFound(language: string) | Rendered(name: Value, language: string, data: Value)

  const NoCache := "no-store, no-cache, must-revalidate, max-age=0"
  const Expired := "Sat, 26 Jul 1997 05:00:00 GMT"

  /** PHP's `is_array`. */
  predicate IsArray(v: Value) {
    v.VArr?
  }

  /**
   * The page name `pageLoad` settles on: the argument unless it is empty or an array, else the
   * data's 'page_name' when set, else the controller's route page name.
   */
  function ChosenPageName(pageName: Value, data: Value, current: Option<string>): (r: Value)
    ensures !Empty(pageName) && !IsArray(pageName) ==> r == pageName
    ensures (Empty(pageName) || IsArray(pageName)) && Get(data, "page_name") != VNull ==> r == Get(data, "page_name")
    ensures (Empty(pageName) || IsArray(pageName)) && Get(data, "page_name") == VNull ==> r == TextValue(current)
  {
    if !Empty(pageName) && !IsArray(pageName) then pageName else GetOr(data, "page_name", TextValue(current))
  }

  /** A usable page name is always found when the controller's route named a non-empty page. */
  lemma RoutePageSuffices(pageName: Value, data: Value, current: Option<string>)
    requires !EmptyText(current) && Get(data, "page_name") == VNull
    ensures !Empty(ChosenPageName(pageName, data, current))
  {
  }

  /**
   * `noCacheHeaders`: any Cache-Control header is replaced by the no-store one, and Pragma and
   * Expires are set; every other header, the status and the body are kept.
   */
  function NoCacheHeaders(response: HttpResponse): (r: HttpResponse)
    ensures r.status == response.status && r.body == response.body
    ensures r.headers.Keys == response.headers.Keys + {"Cache-Control", "Pragma", "Expires"}
    ensures r.headers["Cache-Control"] == NoCache && r.headers["Pragma"] == "no-cache" && r.headers["Expires"] == Expired
    ensures forall h :: h in response.headers && h !in {"Cache-Control", "Pragma", "Expires"} ==>
              r.headers[h] == response.headers[h]
  {
    response.WithoutHeader("Cache-Control").WithHeader("Cache-Control", NoCache)
            .WithHeader("Pragma", "no-cache").WithHeader("Expires", Expired)
  }

  /** `withRedirect`: the no-cache headers, a Location header with the url, and status 307. */
  function WithRedirect(response: HttpResponse, url: string): (r: HttpResponse)
    ensures r.status == 307 && r.body == response.body
    ensures r.headers.Keys == response.headers.Keys + {"Cache-Control", "Pragma", "Expires", "Location"}
    ensures r.headers["Location"] == url
    ensures r.headers["Cache-Control"] == NoCache && r.headers["Pragma"] == "no-cache" && r.headers["Expires"] == Expired
    ensures forall h :: h in response.headers && h !in {"Cache-Control", "Pragma", "Expires", "Location"} ==>
              r.headers[h] == response.headers[h]
  {
    NoCacheHeaders(response).WithHeader("Location", url).WithStatus(307)
  }

  /** Redirecting twice to the same url gives the same response as redirecting once. */
  lemma {:induction false} RedirectIdempotent(response: HttpResponse, url: string)
    ensures WithRedirect(WithRedirect(response, url), url) == WithRedirect(response, url)
  {
    var once := WithRedirect(response, url);
    var twice := WithRedirect(once, url);
    assert twice.headers.Keys == once.headers.Keys;
    assert forall h :: h in twice.headers ==> twice.headers[h] == once.headers[h];
  }

  class Controller {
    const services: Container

    var extensionName: Option<string>
    var messages: Value
    var validationErrorMessages: Value
    var pageName: Option<string>
    var params: Value
    var dataValidCallback: Option<Api.Callback>
    var dataErrorCallback: Option<Api.Callback>

    /** Both callback slots start empty; no default validation-error callback is installed. */
    constructor (services: Container)
      ensures this.services == services
      ensures extensionName == Some("") && messages == EmptyArray && validationErrorMessages == VNull
      ensures pageName.None? && params == EmptyArray
      ensures GetDataValidCallback().None? && GetValidationErrorCallback().None?
    {
      this.services := services;
      extensionName := Some("");
      messages := EmptyArray;
      validationErrorMessages := VNull;
      pageName := None;
      params := EmptyArray;
      dataValidCallback := None;
      dataErrorCallback := None;
    }

    function RouteState(): BaseController.RouteState
      reads this`pageName, this`extensionName, this`params
    {
      BaseController.RouteState(pageName, extensionName, params)
    }

    /** `getParams`: the route parameters, never null. */
    function GetParams(): (r: Value)
      reads this`params
      ensures r != VNull
      ensures params != VNull ==> r == params
    {
      BaseController.GetParams(params)
    }

    /** `getParam`: the parameter under the key, else the default. */
    function GetParam(key: string, default: Value): (r: Value)
      reads this`params
      ensures Get(params, key) != VNull ==> r == Get(params, key)
      ensures Get(params, key) == VNull ==> r == default
    {
      BaseController.GetParam(params, key, default)
    }

    /** `getPageName`: the page name route resolution stored. */
    function GetPageName(): (r: Option<string>)
      reads this`pageName, this`extensionName, this`params
      ensures r == RouteState().pageName
    {
      pageName
    }

    /** `getExtensionName`: the stored name, 'core' reading as none. */
    function GetExtensionName(): (r: Option<string>)
      reads this`extensionName
      ensures r != Some("core")
      ensures extensionName != Some("core") ==> r == extensionName
    {
      BaseController.ExtensionName(extensionName)
    }

    method SetExtensionName(name: Option<string>)
      modifies this`extensionName
      ensures extensionName == name
      ensures GetExtensionName() == (if name == Some("core") then None else name)
    {
      extensionName := name;
    }

    // ----- messages -----

    /** `getMessage`: the string under the exact name, else the string at the dot path. */
    function GetMessage(name: string): (r: Option<string>)
      reads this`messages
      ensures Get(messages, name).VStr? ==> r == Some(Get(messages, name).s)
      ensures Get(messages, name).VInt? ==> r == Some(IntText(Get(messages, name).i))
      ensures Get(messages, name).VBool? ==> r == Some(if Get(messages, name).b then "1" else "")
      ensures Get(messages, name) == VNull ==> r == AsText(GetPath(messages, Split(name, '.')))
    {
      Multilanguage.GetMessage(messages, name)
    }

    /** `getError`: the controller's own non-empty message, else the error service's text. */
    function GetError(errorCode: string, errorParams: Value): (r: Option<string>)
      reads this`messages
      ensures !EmptyText(GetMessage(errorCode)) ==> r == GetMessage(errorCode)
      ensures EmptyText(GetMessage(errorCode)) ==> r == services.errorText(errorCode, errorParams)
    {
      Errors.LookupErrorText(GetMessage(errorCode), services.errorText(errorCode, errorParams))
    }

    /** `getDefaultLanguage`: the configured language, 'en' when unset or without a config service. */
    function GetDefaultLanguage(): (r: string)
      ensures !services.Has("config") ==> r == "en"
      ensures services.Has("config") ==> r == Multilanguage.DefaultLanguage(services.configuredLanguage)
    {
      if services.Has("config") then Multilanguage.DefaultLanguage(services.configuredLanguage) else "en"
    }

    /** `getPageLanguage`: data, then cookie, then session, then the default language. */
    function GetPageLanguage(data: Value, client: Multilanguage.Client): (r: string)
      ensures Multilanguage.DataLanguage(data).Some? ==> r == Multilanguage.DataLanguage(data).value
      ensures Multilanguage.DataLanguage(data).None? && !EmptyText(client.cookieLanguage) ==>
                r == client.cookieLanguage.value
      ensures Multilanguage.DataLanguage(data).None? && EmptyText(client.cookieLanguage) ==>
                r == client.sessionLanguage.GetOr(GetDefaultLanguage())
      ensures Get(data, "language").VInt? && Get(data, "language").i != 0 ==>
                r == IntText(Get(data, "language").i)
      ensures Get(data, "language") == VBool(true) ==> r == "1"
    {
      Multilanguage.PageLanguage(data, client, GetDefaultLanguage())
    }

    /** `isLanguageChange`: false without a data language, else whether the session's entry loosely differs. */
    function IsLanguageChange(data: Value, client: Multilanguage.Client): (r: bool)
      ensures Get(data, "language") == VNull ==> !r
      ensures Get(data, "language").VStr? && client.sessionLanguage.Some? ==>
                (r <==> client.sessionLanguage.value != Get(data, "language").s &&
                        (IntegerText(client.sessionLanguage.value).None? ||
                         IntegerText(client.sessionLanguage.value) != IntegerText(Get(data, "language").s)))
      ensures Get(data, "language").VStr? && client.sessionLanguage.None? ==> (r <==> Get(data, "language").s != "")
      ensures Get(data, "language").VInt? && client.sessionLanguage.Some? ==>
                (r <==> IntegerText(client.sessionLanguage.value) != Some(Get(data, "language").i))
      ensures Get(data, "language").VInt? && client.sessionLanguage.None? ==> (r <==> Get(data, "language").i != 0)
    {
      Multilanguage.IsLanguageChange(data, client.sessionLanguage)
    }

    /** `loadMessages`: replaces the table by the component's properties for the given or default language. */
    method LoadMessages(componentName: string, language: Option<string>, component: (string, string) -> Value)
      modifies this`messages
      ensures messages == Multilanguage.LoadedMessages(
                component(componentName, Multilanguage.LoadLanguage(language, GetDefaultLanguage())))
    {
      var lang := Multilanguage.LoadLanguage(language, GetDefaultLanguage());
      messages := Multilanguage.LoadedMessages(component(componentName, lang));
    }

    /** `loadValidationErrors`: fills the table once, from the system table and the controller's overrides. */
    method LoadValidationErrors()
      modifies this`validationErrorMessages
      ensures validationErrorMessages ==
                Errors.LoadedValidationTable(old(validationErrorMessages), services.errors.validationErrors, messages)
    {
      if Empty(validationErrorMessages) {
        validationErrorMessages := Errors.MergedValidationTable(services.errors.validationErrors, messages);
      }
    }

    // ----- access -----

    /** `user`: the access service's user, false without an access service. */
    function User(): (r: Value)
      ensures !services.Has("access") ==> r == VBool(false)
      ensures services.Has("access") ==> r == services.access.user
    {
      if services.Has("access") then services.access.user else VBool(false)
    }

    /** `getUserId`: the access service's user id, null without an access service. */
    function GetUserId(): (r: Option<int>)
      ensures !services.Has("access") ==> r.None?
      ensures services.Has("access") ==> r == services.access.id
    {
      if services.Has("access") then services.access.id else None
    }

    /** `hasAccess`: false without an access service, else its verdict for the current user id. */
    function HasAccess(name: string, permissionType: Value): (r: bool)
      ensures !services.Has("access") ==> !r
      ensures services.Has("access") ==> r == services.access.grants(name, permissionType, services.access.id)
    {
      services.Has("access") && services.access.grants(name, permissionType, GetUserId())
    }

    /**
     * `requireAccess`: granted exactly when `hasAccess` holds; otherwise the request halts on a
     * newly created response.
     */
    function RequireAccess(name: string, permissionType: Value): (r: UserAccess.Gate)
      ensures r.Granted? <==> HasAccess(name, permissionType)
      ensures r.Halted? ==> r.response == NewResponse
    {
      if HasAccess(name, permissionType) then UserAccess.Granted else UserAccess.Halted(NewResponse)
    }

    function RequireControlPanelPermission(): (r: UserAccess.Gate)
      ensures r == RequireAccess(services.access.controlPanelPermission, services.access.fullPermissions)
    {
      RequireAccess(services.access.controlPanelPermission, services.access.fullPermissions)
    }

    /** `hasControlPanelAccess`: `hasAccess` for the control-panel permission with full rights. */
    function HasControlPanelAccess(): (r: bool)
      ensures r == HasAccess(services.access.controlPanelPermission, services.access.fullPermissions)
      ensures r ==> services.Has("access")
    {
      HasAccess(services.access.controlPanelPermission, services.access.fullPermissions)
    }

    /** The control-panel check and the control-panel requirement agree. */
    lemma ControlPanelGateAgrees()
      ensures HasControlPanelAccess() <==> RequireControlPanelPermission().Granted?
    {
    }

    // ----- callback slots -----

    method OnValidationError(callback: Api.Callback)
      modifies this`dataErrorCallback
      ensures GetValidationErrorCallback() == Some(callback)
    {
      dataErrorCallback := Some(callback);
    }

    method OnDataValid(callback: Api.Callback)
      modifies this`dataValidCallback
      ensures GetDataValidCallback() == Some(callback)
    {
      dataValidCallback := Some(callback);
    }

    function GetDataValidCallback(): (r: Option<Api.Callback>)
      reads this`dataValidCallback
      ensures r == dataValidCallback
    {
      dataValidCallback
    }

    function GetValidationErrorCallback(): (r: Option<Api.Callback>)
      reads this`dataErrorCallback
      ensures r == dataErrorCallback
    {
      dataErrorCallback
    }

    // ----- route state -----

    /**
     * `resolveRouteParams`: a 'route_params' attribute that is exactly false changes nothing and
     * gives false; any other value (null included) is applied as the route's arguments.
     */
    method ResolveRouteParams(request: BaseController.Request) returns (resolved: bool)
      modifies this`pageName, this`extensionName, this`params
      ensures resolved <==> request.routeParams != VBool(false)
      ensures !resolved ==> RouteState() == old(RouteState())
      ensures resolved ==> RouteState() == BaseController.ApplyRoute(old(RouteState()), request.routeParams, services.decode)
    {
      if request.routeParams == VBool(false) {
        return false;
      }
      var next := BaseController.ApplyRoute(RouteState(), request.routeParams, services.decode);
      pageName := next.pageName;
      extensionName := next.extensionName;
      params := next.params;
      return true;
    }

    /**
     * `resolveRouteParam`: one route argument as the `?string` return gives it; null when absent
     * or when there are no route arguments.
     */
    function ResolveRouteParam(request: BaseController.Request, paramName: string): (r: Option<string>)
      ensures paramName !in Entries(request.routeParams) ==> r.None?
      ensures !request.routeParams.VArr? ==> r.None?
      ensures Get(request.routeParams, paramName).VStr? ==> r == Some(Get(request.routeParams, paramName).s)
      ensures Get(request.routeParams, paramName).VInt? ==> r == Some(IntText(Get(request.routeParams, paramName).i))
      ensures Get(request.routeParams, paramName).VBool? ==> r == Some(if Get(request.routeParams, paramName).b then "1" else "")
    {
      AsText(Get(request.routeParams, paramName))
    }

    /**
     * `pageLoad`'s decisions: optionally resolves the route, settles the page name and, when it
     * is empty, renders not-found in the page language; otherwise renders the page in the given
     * language (else the page language) with the current path added to the data, and stores
     * that language in the session.
     */
    method PageLoad(request: BaseController.Request, data: Value, pageNameArg: Value, language: Option<string>,
                    resolveParams: bool, client: Multilanguage.Client) returns (view: PageView, session: Option<string>)
      requires Writable(data)
      modifies this`pageName, this`extensionName, this`params
      ensures !resolveParams || request.routeParams == VBool(false) ==> RouteState() == old(RouteState())
      ensures resolveParams && request.routeParams != VBool(false) ==>
                RouteState() == BaseController.ApplyRoute(old(RouteState()), request.routeParams, services.decode)
      ensures var name := ChosenPageName(pageNameArg, data, pageName);
              (Empty(name) ==> view == NotFound(GetPageLanguage(data, client)) && session == client.sessionLanguage) &&
              (!Empty(name) ==>
                 var lang := if EmptyText(language) then GetPageLanguage(data, client) else language.value;
                 view == Rendered(name, lang, WithKey(data, "current_path", request.currentPath)) && session == Some(lang))
    {
      if resolveParams {
        var _ := ResolveRouteParams(request);
      }
      var name := ChosenPageName(pageNameArg, data, pageName);
      if Empty(name) {
        return NotFound(GetPageLanguage(data, client)), client.sessionLanguage;
      }
      var lang := if EmptyText(language) then GetPageLanguage(data, client) else language.value;
      view := Rendered(name, lang, WithKey(data, "current_path", request.currentPath));
      session := Some(lang);
    }
  }
}

=== FILE: crud.dfy ===
/** The create/read/update/delete handlers and the unique-column pre-check. */
module Crud {
  import opened PhpValues
  import opened Orm
  import opened Validation
  import opened Handlers
  import opened Api
  import UserAccess
  import Errors

  /** The optional properties a controller using the trait may declare. */
  datatype CrudSettings = CrudSettings(
    uniqueColumns: Option<seq<string>>,
    deleteMessage: Option<string>,
    updateMessage: Option<string>,
    createMessage: Option<string>,
    readMessage: Option<string>)

  function UniqueColumns(s: CrudSettings): (r: seq<string>)
    ensures s.uniqueColumns.None? ==> r == []
    ensures s.uniqueColumns.Some? ==> r == s.uniqueColumns.value
  {
    s.uniqueColumns.GetOr([])
  }

  function DeleteMessage(s: CrudSettings): (r: string)
    ensures s.deleteMessage.None? ==> r == "delete"
    ensures s.deleteMessage.Some? ==> r == s.deleteMessage.value
  {
    s.deleteMessage.GetOr("delete")
  }

  function UpdateMessage(s: CrudSettings): (r: string)
    ensures s.updateMessage.None? ==> r == "update"
    ensures s.updateMessage.Some? ==> r == s.updateMessage.value
  {
    s.updateMessage.GetOr("update")
  }

  function CreateMessage(s: CrudSettings): (r: string)
    ensures s.createMessage.None? ==> r == "create"
    ensures s.createMessage.Some? ==> r == s.createMessage.value
  {
    s.createMessage.GetOr("create")
  }

  function ReadMessage(s: CrudSettings): (r: string)
    ensures s.readMessage.None? ==> r == "read"
    ensures s.readMessage.Some? ==> r == s.readMessage.value
  {
    s.readMessage.GetOr("read")
  }

  /** PHP's `empty($excludeId)` on an `?int`. */
  predicate NoExclusion(excludeId: Option<int>) {
    excludeId.None? || excludeId.value == 0
  }

  /**
   * Whether a unique column stops the write: the data holds a non-empty value for it, some row
   * already holds that value, and that first such row is not the excluded one.
   */
  predicate Blocks(rows: seq<Record>, data: Value, column: string, excludeId: Option<int>) {
    var value := Get(data, column);
    var found := FirstWhere(rows, column, value);
    !Empty(value) && found.Some? && (NoExclusion(excludeId) || found.value.id != excludeId.value)
  }

  /** Whether no unique column stops the write. */
  predicate ColumnsFree(columns: seq<string>, rows: seq<Record>, data: Value, excludeId: Option<int>) {
    forall i :: 0 <= i < |columns| ==> !Blocks(rows, data, columns[i], excludeId)
  }

  /** `checkColumn`: scans the unique columns and stops at the first one that blocks the write. */
  method CheckColumn(columns: seq<string>, rows: seq<Record>, data: Value, excludeId: Option<int>) returns (ok: bool)
    ensures ok <==> ColumnsFree(columns, rows, data, excludeId)
    ensures !ok ==> exists i :: 0 <= i < |columns| && Blocks(rows, data, columns[i], excludeId)
  {
    var i := 0;
    while i < |columns|
      invariant 0 <= i <= |columns|
      invariant forall j :: 0 <= j < i ==> !Blocks(rows, data, columns[j], excludeId)
    {
      var column := columns[i];
      var value := Get(data, column);
      if !Empty(value) {
        var found := FirstWhere(rows, column, value);
        if found.Some? {
          if NoExclusion(excludeId) {
            assert Blocks(rows, data, column, excludeId);
            return false;
          } else if found.value.id != excludeId.value {
            assert Blocks(rows, data, column, excludeId);
            return false;
          }
        }
      }
      assert !Blocks(rows, data, column, excludeId);
      i := i + 1;
    }
    return true;
  }

  /** With no exclusion, a passing check means no row holds any non-empty unique value of the data. */
  lemma {:induction false} FreeMeansNoDuplicate(columns: seq<string>, rows: seq<Record>, data: Value, i: int, row: Record)
    requires ColumnsFree(columns, rows, data, None)
    requires 0 <= i < |columns| && row in rows && !Empty(Get(data, columns[i]))
    ensures !Matches(row, columns[i], Get(data, columns[i]))
  {
    assert !Blocks(rows, data, columns[i], None);
    var k :| 0 <= k < |rows| && rows[k] == row;
  }

  /** With an exclusion, a passing check means the first row holding each value is the excluded row. */
  lemma {:induction false} FreeMeansOnlySelf(columns: seq<string>, rows: seq<Record>, data: Value, id: int, i: int)
    requires id != 0 && ColumnsFree(columns, rows, data, Some(id))
    requires 0 <= i < |columns| && !Empty(Get(data, columns[i]))
    ensures FirstWhere(rows, columns[i], Get(data, columns[i])).Some? ==>
              FirstWhere(rows, columns[i], Get(data, columns[i])).value.id == id
  {
    assert !Blocks(rows, data, columns[i], Some(id));
  }

  /** `readController`: the entity's columns become the payload, or one 'errors.<read>' entry. */
  method ReadController(c: ApiController, s: CrudSettings, store: Store, verdict: Verdict) returns (run: Run)
    requires Writable(c.payload)
    modifies c`payload, c`errors, c`dataValidCallback, c`validationErrorMessages
    ensures run.gate == UserAccess.RequireControlPanelPermission(c.services, None) && run.write.None?
    ensures run.gate.Halted? ==> Untouched(old(c.payload), old(c.errors), c.payload, c.errors) && run.rules == []
    ensures run.gate.Granted? ==> run.rules == [Rule("text:min=2|required", "uuid")]
    ensures run.gate.Granted? && verdict.Invalid? ==> Rejected(c, verdict.failures, old(c.payload))
    ensures run.crashed <==> run.gate.Granted? && verdict.Valid? && !store.resolvable
    ensures run.crashed ==> Untouched(old(c.payload), old(c.errors), c.payload, c.errors)
    ensures run.gate.Granted? && verdict.Valid? && store.resolvable ==>
              var found := FindById(store.rows, Get(verdict.data, "uuid"));
              (found.Some? && found.value.columns == map[] ==>
                 Succeeded(old(c.payload), old(c.errors), c.payload, c.errors, c.MessageText(ReadMessage(s)), [])) &&
              (found.Some? && found.value.columns != map[] ==>
                 c.errors == old(c.errors) && c.payload == found.value.ToArray()) &&
              (found.None? ==>
                 Failed(old(c.payload), old(c.errors), c.payload, c.errors,
                        c.ErrorMessage("errors." + ReadMessage(s), None, EmptyArray)))
  {
    var gate := UserAccess.RequireControlPanelPermission(c.services, None);
    if gate.Halted? {
      return Run(gate, [], None, false);
    }
    c.OnDataValid(Handler("read"));
    var rules := [Rule("text:min=2|required", "uuid")];
    match verdict
    case Invalid(failures) =>
      c.ValidationFailed(failures);
      run := Run(gate, rules, None, false);
    case Valid(data) =>
      if !store.resolvable {
        return Run(gate, rules, None, true);
      }
      var found := FindById(store.rows, Get(data, "uuid"));
      var runClosure := c.SetResponse(found.Some?, Closure, Text("errors." + ReadMessage(s)));
      if runClosure {
        c.Message(ReadMessage(s));
        c.SetResultFields(found.value.ToArray(), None);
      }
      run := Run(gate, rules, None, false);
  }

  /**
   * `updateController`: the entity is updated only when it exists and its unique columns are free
   * of other rows; success gives the message and the uuid, anything else one 'errors.<update>'.
   */
  method UpdateController(c: ApiController, s: CrudSettings, store: Store, verdict: Verdict, updated: bool) returns (run: Run)
    requires Writable(c.payload)
    modifies c`payload, c`errors, c`dataValidCallback, c`validationErrorMessages
    ensures run.gate == UserAccess.RequireControlPanelPermission(c.services, None)
    ensures run.gate.Halted? ==> Untouched(old(c.payload), old(c.errors), c.payload, c.errors) && run.rules == []
    ensures run.gate.Granted? ==> run.rules == [Rule("text:min=2|required", "uuid")]
    ensures run.gate.Granted? && verdict.Invalid? ==> Rejected(c, verdict.failures, old(c.payload)) && run.write.None?
    ensures run.crashed <==> run.gate.Granted? && verdict.Valid? && !store.resolvable
    ensures run.crashed ==> Untouched(old(c.payload), old(c.errors), c.payload, c.errors) && run.write.None?
    ensures run.gate.Granted? && verdict.Valid? && store.resolvable ==>
              var uuid := Get(verdict.data, "uuid");
              var found := FindById(store.rows, uuid);
              var allowed := found.Some? && ColumnsFree(UniqueColumns(s), store.rows, verdict.data, Some(found.value.id));
              run.write == (if allowed then Some(UpdateRow(found.value, verdict.data)) else None) &&
              (allowed && updated ==>
                 Succeeded(old(c.payload), old(c.errors), c.payload, c.errors, c.MessageText(UpdateMessage(s)), [("uuid", uuid)])) &&
              (!(allowed && updated) ==>
                 Failed(old(c.payload), old(c.errors), c.payload, c.errors,
                        c.ErrorMessage("errors." + UpdateMessage(s), None, EmptyArray)))
  {
    var gate := UserAccess.RequireControlPanelPermission(c.services, None);
    if gate.Halted? {
      return Run(gate, [], None, false);
    }
    c.OnDataValid(Handler("update"));
    var rules := [Rule("text:min=2|required", "uuid")];
    match verdict
    case Invalid(failures) =>
      c.ValidationFailed(failures);
      run := Run(gate, rules, None, false);
    case Valid(data) =>
      if !store.resolvable {
        return Run(gate, rules, None, true);
      }
      var write := UpdateWrite(c, s, store.rows, data, updated);
      run := Run(gate, rules, write, false);
  }

  /** The validated part of `updateController`: the unique-column check, the update and its reply. */
  method UpdateWrite(c: ApiController, s: CrudSettings, rows: seq<Record>, data: Value, updated: bool)
    returns (write: Option<StoreCall>)
    requires Writable(c.payload)
    modifies c`payload, c`errors
    ensures var uuid := Get(data, "uuid");
            var found := FindById(rows, uuid);
            var allowed := found.Some? && ColumnsFree(UniqueColumns(s), rows, data, Some(found.value.id));
            write == (if allowed then Some(UpdateRow(found.value, data)) else None) &&
            (allowed && updated ==>
               Succeeded(old(c.payload), old(c.errors), c.payload, c.errors, c.MessageText(UpdateMessage(s)), [("uuid", uuid)])) &&
            (!(allowed && updated) ==>
               Failed(old(c.payload), old(c.errors), c.payload, c.errors,
                      c.ErrorMessage("errors." + UpdateMessage(s), None, EmptyArray)))
  {
    var uuid := Get(data, "uuid");
    var found := FindById(rows, uuid);
    var result := false;
    write := None;
    if found.Some? {
      result := CheckColumn(UniqueColumns(s), rows, data, Some(found.value.id));
      if result {
        write := Some(UpdateRow(found.value, data));
        result := updated;
      }
    }
    var runClosure := c.SetResponse(result, Closure, Text("errors." + UpdateMessage(s)));
    if runClosure {
      MessageThenField(c.payload, c.MessageText(UpdateMessage(s)), "uuid", uuid);
      c.Message(UpdateMessage(s));
      c.Field("uuid", uuid);
    }
  }

  /**
   * `createController`: a row is created only when the model class resolves and no unique column
   * value is taken; success gives the message and the created row's uuid.
   */
  method CreateController(c: ApiController, s: CrudSettings, store: Store, verdict: Verdict, created: Option<Record>) returns (run: Run)
    requires Writable(c.payload)
    modifies c`payload, c`errors, c`dataValidCallback, c`validationErrorMessages
    ensures run.gate == UserAccess.RequireControlPanelPermission(c.services, None) && !run.crashed
    ensures run.gate.Halted? ==> Untouched(old(c.payload), old(c.errors), c.payload, c.errors)
    ensures run.rules == []
    ensures run.gate.Granted? && verdict.Invalid? ==> Rejected(c, verdict.failures, old(c.payload)) && run.write.None?
    ensures run.gate.Granted? && verdict.Valid? ==>
              var allowed := store.resolvable && ColumnsFree(UniqueColumns(s), store.rows, verdict.data, None);
              run.write == (if allowed then Some(CreateRow(verdict.data)) else None) &&
              (allowed && created.Some? ==>
                 Succeeded(old(c.payload), old(c.errors), c.payload, c.errors, c.MessageText(CreateMessage(s)),
                           [("uuid", VStr(created.value.uuid))])) &&
              (!(allowed && created.Some?) ==>
                 Failed(old(c.payload), old(c.errors), c.payload, c.errors,
                        c.ErrorMessage("errors." + CreateMessage(s), None, EmptyArray)))
  {
    var gate := UserAccess.RequireControlPanelPermission(c.services, None);
    if gate.Halted? {
      return Run(gate, [], None, false);
    }
    c.OnDataValid(Handler("create"));
    match verdict
    case Invalid(failures) =>
      c.ValidationFailed(failures);
      run := Run(gate, [], None, false);
    case Valid(data) =>
      var createdModel: Option<Record> := None;
      var write: Option<StoreCall> := None;
      if store.resolvable {
        var result := CheckColumn(UniqueColumns(s), store.rows, data, None);
        if result {
          write := Some(CreateRow(data));
          createdModel := created;
        }
      }
      var runClosure := c.SetResponse(createdModel.Some?, Closure, Text("errors." + CreateMessage(s)));
      if runClosure {
        MessageThenField(c.payload, c.MessageText(CreateMessage(s)), "uuid", VStr(createdModel.value.uuid));
        c.Message(CreateMessage(s));
        c.Field("uuid", VStr(createdModel.value.uuid));
      }
      run := Run(gate, [], write, false);
  }

  /** `deleteController`: deletes the entity; success gives the message and the uuid, else 'errors.<delete>'. */
  method DeleteController(c: ApiController, s: CrudSettings, store: Store, verdict: Verdict, deleted: bool) returns (run: Run)
    requires Writable(c.payload)
    modifies c`payload, c`errors, c`dataValidCallback, c`validationErrorMessages
    ensures run.gate == UserAccess.RequireControlPanelPermission(c.services, None)
    ensures run.gate.Halted? ==> Untouched(old(c.payload), old(c.errors), c.payload, c.errors) && run.rules == []
    ensures run.gate.Granted? ==> run.rules == [Rule("text:min=2|required", "uuid")]
    ensures run.gate.Granted? && verdict.Invalid? ==> Rejected(c, verdict.failures, old(c.payload)) && run.write.None?
    ensures run.crashed <==> run.gate.Granted? && verdict.Valid? && !store.resolvable
    ensures run.crashed ==> Untouched(old(c.payload), old(c.errors), c.payload, c.errors) && run.write.None?
    ensures run.gate.Granted? && verdict.Valid? && store.resolvable ==>
              var uuid := Get(verdict.data, "uuid");
              var found := FindById(store.rows, uuid);
              run.write == (if found.Some? then Some(DeleteRow(found.value)) else None) &&
              (found.Some? && deleted ==>
                 Succeeded(old(c.payload), old(c.errors), c.payload, c.errors, c.MessageText(DeleteMessage(s)), [("uuid", uuid)])) &&
              (!(found.Some? && deleted) ==>
                 Failed(old(c.payload), old(c.errors), c.payload, c.errors,
                        c.ErrorMessage("errors." + DeleteMessage(s), None, EmptyArray)))
  {
    var gate := UserAccess.RequireControlPanelPermission(c.services, None);
    if gate.Halted? {
      return Run(gate, [], None, false);
    }
    c.OnDataValid(Handler("delete"));
    var rules := [Rule("text:min=2|required", "uuid")];
    match verdict
    case Invalid(failures) =>
      c.ValidationFailed(failures);
      run := Run(gate, rules, None, false);
    case Valid(data) =>
      if !store.resolvable {
        return Run(gate, rules, None, true);
      }
      var write := DeleteWrite(c, s, store.rows, data, deleted);
      run := Run(gate, rules, write, false);
  }

  /** The validated part of `deleteController`: the delete of the found row and its reply. */
  method DeleteWrite(c: ApiController, s: CrudSettings, rows: seq<Record>, data: Value, deleted: bool)
    returns (write: Option<StoreCall>)
    requires Writable(c.payload)
    modifies c`payload, c`errors
    ensures var uuid := Get(data, "uuid");
            var found := FindById(rows, uuid);
            write == (if found.Some? then Some(DeleteRow(found.value)) else None) &&
            (found.Some? && deleted ==>
               Succeeded(old(c.payload), old(c.errors), c.payload, c.errors, c.MessageText(DeleteMessage(s)), [("uuid", uuid)])) &&
            (!(found.Some? && deleted) ==>
               Failed(old(c.payload), old(c.errors), c.payload, c.errors,
                      c.ErrorMessage("errors." + DeleteMessage(s), None, EmptyArray)))
  {
    var uuid := Get(data, "uuid");
    var found := FindById(rows, uuid);
    write := if found.Some? then Some(DeleteRow(found.value)) else None;
    var result := found.Some? && deleted;
    var runClosure := c.SetResponse(result, Closure, Text("errors." + DeleteMessage(s)));
    if runClosure {
      MessageThenField(c.payload, c.MessageText(DeleteMessage(s)), "uuid", uuid);
      c.Message(DeleteMessage(s));
      c.Field("uuid", uuid);
    }
  }
}

=== FILE: delete.dfy ===
/** The stand-alone delete handler. */
module Delete {
  import opened PhpValues
  import opened Orm
  import opened Validation
  import opened Handlers
  import opened Api
  import UserAccess

  /**
   * `getDeleteMessage`: the declared message when the controller's `isset` hook says it is set,
   * else 'delete'. Controllers that do not define the hook reach the catch-all method handler,
   * whose null answer is not true, so `hookAnswer` is false for them.
   */
  function DeleteMessage(declared: Option<string>, hookAnswer: bool): (r: string)
    ensures !hookAnswer || declared.None? ==> r == "delete"
    ensures hookAnswer && declared.Some? ==> r == declared.value
  {
    if hookAnswer && declared.Some? then declared.value else "delete"
  }

  /**
   * `deleteController`: behind the control-panel gate, deletes the entity the uuid names; success
   * gives the message and the uuid, a missing entity or a refused delete one 'errors.delete'.
   */
  method DeleteController(c: ApiController, declared: Option<string>, hookAnswer: bool, store: Store,
                          verdict: Verdict, deleted: bool) returns (run: Run)
    requires Writable(c.payload)
    modifies c`payload, c`errors, c`dataValidCallback, c`validationErrorMessages
    ensures run.gate == UserAccess.RequireControlPanelPermission(c.services, None)
    ensures run.gate.Halted? ==> Untouched(old(c.payload), old(c.errors), c.payload, c.errors) && run.rules == []
    ensures run.gate.Granted? ==> run.rules == [Rule("text:min=2|required", "uuid")]
    ensures run.gate.Granted? && verdict.Invalid? ==> Rejected(c, verdict.failures, old(c.payload)) && run.write.None?
    ensures run.crashed <==> run.gate.Granted? && verdict.Valid? && !store.resolvable
    ensures run.crashed ==> Untouched(old(c.payload), old(c.errors), c.payload, c.errors) && run.write.None?
    ensures run.gate.Granted? && verdict.Valid? && store.resolvable ==>
              var uuid := Get(verdict.data, "uuid");
              var found := FindById(store.rows, uuid);
              run.write == (if found.Some? then Some(DeleteRow(found.value)) else None) &&
              (found.Some? && deleted ==>
                 Succeeded(old(c.payload), old(c.errors), c.payload, c.errors,
                           c.MessageText(DeleteMessage(declared, hookAnswer)), [("uuid", uuid)])) &&
              (!(found.Some? && deleted) ==>
                 Failed(old(c.payload), old(c.errors), c.payload, c.errors, c.ErrorMessage("errors.delete", None, EmptyArray)))
  {
    var gate := UserAccess.RequireControlPanelPermission(c.services, None);
    if gate.Halted? {
      return Run(gate, [], None, false);
    }
    c.OnDataValid(Handler("delete"));
    var rules := [Rule("text:min=2|required", "uuid")];
    match verdict
    case Invalid(failures) =>
      c.ValidationFailed(failures);
      run := Run(gate, rules, None, false);
    case Valid(data) =>
      if !store.resolvable {
        return Run(gate, rules, None, true);
      }
      var write := DeleteWrite(c, declared, hookAnswer, store.rows, data, deleted);
      run := Run(gate, rules, write, false);
  }

  /** The validated part of `delete`: the delete of the found row and its reply. */
  method DeleteWrite(c: ApiController, declared: Option<string>, hookAnswer: bool, rows: seq<Record>, data: Value, deleted: bool)
    returns (write: Option<StoreCall>)
    requires Writable(c.payload)
    modifies c`payload, c`errors
    ensures var uuid := Get(data, "uuid");
            var found := FindById(rows, uuid);
            write == (if found.Some? then Some(DeleteRow(found.value)) else None) &&
            (found.Some? && deleted ==>
               Succeeded(old(c.payload), old(c.errors), c.payload, c.errors,
                         c.MessageText(DeleteMessage(declared, hookAnswer)), [("uuid", uuid)])) &&
            (!(found.Some? && deleted) ==>
               Failed(old(c.payload), old(c.errors), c.payload, c.errors, c.ErrorMessage("errors.delete", None, EmptyArray)))
  {
    var uuid := Get(data, "uuid");
    var found := FindById(rows, uuid);
    write := if found.Some? then Some(DeleteRow(found.value)) else None;
    var runClosure := c.SetResponse(found.Some? && deleted, Closure, Text("errors.delete"));
    if runClosure {
      var message := DeleteMessage(declared, hookAnswer);
      MessageThenField(c.payload, c.MessageText(message), "uuid", uuid);
      c.Message(message);
      c.Field("uuid", uuid);
    }
  }
}

=== FILE: entity_permissions.dfy ===
/** The handlers that grant and revoke a user's permission on an entity. */
module EntityPermissions {
  import opened PhpValues
  import opened Orm
  import opened Validation
  import opened Handlers
  import opened Api
  import UserAccess

  /** The grant asked for: entity, user, and the permissions ('full' when absent). */
  function PermissionCall(data: Value): (r: StoreCall)
    ensures r.AddUserPermission? && r.entity == Get(data, "entity") && r.user == Get(data, "user")
    ensures Get(data, "permissions") == VNull ==> r.permissions == VStr("full")
    ensures Get(data, "permissions") != VNull ==> r.permissions == Get(data, "permissions")
  {
    AddUserPermission(Get(data, "entity"), Get(data, "user"), GetOr(data, "permissions", VStr("full")))
  }

  /**
   * `addUserPermissionController`: no rules and no gate; an unresolvable class gives 'errors.id';
   * otherwise a created permission row gives 'permission-add' with its uuid, no row
   * 'errors.permission-add'.
   */
  method AddUserPermissionController(c: ApiController, store: Store, verdict: Verdict, permission: Option<Record>)
    returns (run: Run)
    requires Writable(c.payload)
    modifies c`payload, c`errors, c`dataValidCallback, c`validationErrorMessages
    ensures run.gate.Granted? && !run.crashed && run.rules == []
    ensures verdict.Invalid? ==> Rejected(c, verdict.failures, old(c.payload)) && run.write.None?
    ensures verdict.Valid? && !store.resolvable ==>
              Failed(old(c.payload), old(c.errors), c.payload, c.errors, c.ErrorMessage("errors.id", None, EmptyArray)) &&
              run.write.None?
    ensures verdict.Valid? && store.resolvable ==>
              run.write == Some(PermissionCall(verdict.data)) &&
              (permission.Some? ==>
                 Succeeded(old(c.payload), old(c.errors), c.payload, c.errors, c.MessageText("permission-add"),
                           [("uuid", VStr(permission.value.uuid))])) &&
              (permission.None? ==>
                 Failed(old(c.payload), old(c.errors), c.payload, c.errors,
                        c.ErrorMessage("errors.permission-add", None, EmptyArray)))
  {
    c.OnDataValid(Handler("addUserPermission"));
    match verdict
    case Invalid(failures) =>
      c.ValidationFailed(failures);
      run := Run(UserAccess.Granted, [], None, false);
    case Valid(data) =>
      if !store.resolvable {
        c.Error("errors.id", None, EmptyArray);
        return Run(UserAccess.Granted, [], None, false);
      }
      var runClosure := c.SetResponse(permission.Some?, Closure, Text("errors.permission-add"));
      if runClosure {
        MessageThenField(c.payload, c.MessageText("permission-add"), "uuid", VStr(permission.value.uuid));
        c.Message("permission-add");
        c.Field("uuid", VStr(permission.value.uuid));
      }
      run := Run(UserAccess.Granted, [], Some(PermissionCall(data)), false);
  }

  /**
   * `deletePermissionController`: no rules and no gate; the lookup is chained on the model class,
   * so an unresolvable class ends the request. A missing row gives 'errors.id' with no reply;
   * otherwise `deleted` decides between 'permission-delete' with the uuid and
   * 'errors.permission-delete'.
   */
  method DeletePermissionController(c: ApiController, store: Store, verdict: Verdict, deleted: bool)
    returns (run: Run)
    requires Writable(c.payload)
    modifies c`payload, c`errors, c`dataValidCallback, c`validationErrorMessages
    ensures run.gate.Granted? && run.rules == []
    ensures verdict.Invalid? ==> Rejected(c, verdict.failures, old(c.payload)) && run.write.None?
    ensures run.crashed <==> verdict.Valid? && !store.resolvable
    ensures run.crashed ==> Untouched(old(c.payload), old(c.errors), c.payload, c.errors) && run.write.None?
    ensures verdict.Valid? && store.resolvable ==>
              var uuid := Get(verdict.data, "uuid");
              var found := FindById(store.rows, uuid);
              (found.None? ==>
                 Failed(old(c.payload), old(c.errors), c.payload, c.errors, c.ErrorMessage("errors.id", None, EmptyArray)) &&
                 run.write.None?) &&
              (found.Some? ==> run.write == Some(DeleteRow(found.value))) &&
              (found.Some? && deleted ==>
                 Succeeded(old(c.payload), old(c.errors), c.payload, c.errors, c.MessageText("permission-delete"),
                           [("uuid", uuid)])) &&
              (found.Some? && !deleted ==>
                 Failed(old(c.payload), old(c.errors), c.payload, c.errors,
                        c.ErrorMessage("errors.permission-delete", None, EmptyArray)))
  {
    c.OnDataValid(Handler("deletePermission"));
    match verdict
    case Invalid(failures) =>
      c.ValidationFailed(failures);
      run := Run(UserAccess.Granted, [], None, false);
    case Valid(data) =>
      if !store.resolvable {
        return Run(UserAccess.Granted, [], None, true);
      }
      var uuid := Get(data, "uuid");
      var found := FindById(store.rows, uuid);
      if found.None? {
        c.Error("errors.id", None, EmptyArray);
        return Run(UserAccess.Granted, [], None, false);
      }
      var runClosure := c.SetResponse(deleted, Closure, Text("errors.permission-delete"));
      if runClosure {
        MessageThenField(c.payload, c.MessageText("permission-delete"), "uuid", uuid);
        c.Message("permission-delete");
        c.Field("uuid", uuid);
      }
      run := Run(UserAccess.Granted, [], Some(DeleteRow(found.value)), false);
  }
}

=== FILE: errors.dfy ===
/** The pure half of the error handling: message fallback chains and validation-error translation. */
module Errors {
  import opened PhpValues

  /**
   * The text `error($name, $default)` appends: the controller's own message when non-empty,
   * else the system registry's message when non-empty, else the default, else the name.
   */
  function ErrorText(local: Option<string>, registry: Option<string>, default: Option<string>, name: string): (r: string)
    ensures !EmptyText(local) ==> r == local.value
    ensures EmptyText(local) && !EmptyText(registry) ==> r == registry.value
    ensures EmptyText(local) && EmptyText(registry) ==> r == (if default.Some? then default.value else name)
  {
    if !EmptyText(local) then local.value
    else if !EmptyText(registry) then registry.value
    else default.GetOr(name)
  }

  /**
   * The text `addError($code)` appends: the controller's own message when non-empty, else the
   * code. It is `error($code)` with no registry entry and no default.
   */
  function AddErrorText(local: Option<string>, code: string): (r: string)
    ensures r == ErrorText(local, None, None, code)
    ensures r == code || r == local.value
  {
    if EmptyText(local) then code else local.value
  }

  /** `getError`: the controller's own message when non-empty, else the error service's answer. */
  function LookupErrorText(local: Option<string>, service: Option<string>): (r: Option<string>)
    ensures !EmptyText(local) ==> r == local
    ensures EmptyText(local) ==> r == service
  {
    if EmptyText(local) then service else local
  }

  /** One failed rule as the validator reports it. */
  datatype ValidationFailure = ValidationFailure(fieldName: Value, errorCode: string, params: Value)

  /** `getValidationErrorMessage`: the 'message' of the table entry for the code, when the entry is set. */
  function ValidationMessage(table: Value, code: string): (r: Option<string>)
    ensures Get(table, code) == VNull ==> r.None?
    ensures Get(table, code) != VNull ==> r == AsText(Get(Get(table, code), "message"))
  {
    var entry := Get(table, code);
    if entry == VNull then None else AsText(Get(entry, "message"))
  }

  /**
   * The table `loadValidationErrors` builds: the system's validation messages, with the entries
   * under the controller's `errors.validation` messages taking precedence.
   */
  function MergedValidationTable(system: map<string, Value>, messages: Value): (r: Value)
    ensures r.VArr? && r.entries.Keys == system.Keys + Entries(GetPath(messages, ["errors", "validation"])).Keys
    ensures forall code :: code in Entries(GetPath(messages, ["errors", "validation"])) ==>
              Get(r, code) == Get(GetPath(messages, ["errors", "validation"]), code)
    ensures forall code :: code in system && code !in Entries(GetPath(messages, ["errors", "validation"])) ==>
              Get(r, code) == system[code]
  {
    VArr(system + Entries(GetPath(messages, ["errors", "validation"])))
  }

  /** The cache after `loadValidationErrors`: kept when non-empty, built otherwise. */
  function LoadedValidationTable(cache: Value, system: map<string, Value>, messages: Value): (r: Value)
    ensures !Empty(cache) ==> r == cache
    ensures Empty(cache) ==> r == MergedValidationTable(system, messages)
  {
    if Empty(cache) then MergedValidationTable(system, messages) else cache
  }

  /** Loading twice is loading once. */
  lemma LoadValidationIdempotent(cache: Value, system: map<string, Value>, messages: Value)
    ensures var once := LoadedValidationTable(cache, system, messages);
      LoadedValidationTable(once, system, messages) == once
  {
  }

  /** The envelope entry for one failure: its field name and the rendered message, else the raw code. */
  function ResolveFailure(table: Value, f: ValidationFailure, render: (string, Value) -> string): (r: Value)
    ensures Get(r, "field_name") == f.fieldName
    ensures var m := ValidationMessage(table, f.errorCode);
      Get(r, "message") == VStr(if EmptyText(m) then f.errorCode else render(m.value, f.params))
    ensures r.VArr? && r.entries.Keys == {"field_name", "message"}
  {
    var m := ValidationMessage(table, f.errorCode);
    VArr(map["field_name" := f.fieldName,
             "message" := VStr(if EmptyText(m) then f.errorCode else render(m.value, f.params))])
  }

  /** `resolveValidationErrors` once the table is loaded: one entry per failure, in order. */
  function ResolveValidationErrors(table: Value, failures: seq<ValidationFailure>, render: (string, Value) -> string): (r: seq<Value>)
    ensures |r| == |failures|
    ensures forall i :: 0 <= i < |failures| ==> r[i] == ResolveFailure(table, failures[i], render)
  {
    seq(|failures|, i requires 0 <= i < |failures| => ResolveFailure(table, failures[i], render))
  }

  /** Translating failures commutes with concatenating them. */
  lemma {:induction false} ResolveValidationErrorsAppend(table: Value, a: seq<ValidationFailure>, b: seq<ValidationFailure>, render: (string, Value) -> string)
    ensures ResolveValidationErrors(table, a + b, render) ==
            ResolveValidationErrors(table, a, render) + ResolveValidationErrors(table, b, render)
  {
    var l := ResolveValidationErrors(table, a + b, render);
    var rr := ResolveValidationErrors(table, a, render) + ResolveValidationErrors(table, b, render);
    assert |l| == |rr|;
    forall i | 0 <= i < |l| ensures l[i] == rr[i] {
      if i < |a| {
        assert (a + b)[i] == a[i];
      } else {
        assert (a + b)[i] == b[i - |a|];
      }
    }
  }
}

=== FILE: handlers.dfy ===
/** What every handler trait produces: one success reply or one error, and a record of its run. */
module Handlers {
  import opened PhpValues
  import opened Orm
  import opened Validation
  import UserAccess
  import Errors
  import opened Api

  /**
   * A handler's run: the outcome of its permission gate, the validation rules it registered,
   * the write it asked the model for, and whether it called a method on a model class that
   * did not resolve (PHP throws there and the request ends).
   */
  datatype Run = Run(gate: UserAccess.Gate, rules: seq<Rule>, write: Option<StoreCall>, crashed: bool)

  /** `->field($k1, $v1)->field($k2, $v2)...` on a payload. */
  function WithFields(v: Value, fields: seq<(string, Value)>): (r: Value)
    requires Writable(v)
    ensures Writable(r)
    ensures fields != [] ==> r.VArr?
    ensures forall k :: (forall i :: 0 <= i < |fields| ==> fields[i].0 != k) ==> Get(r, k) == Get(v, k)
    decreases |fields|
  {
    if fields == [] then v else WithFields(WithKey(v, fields[0].0, fields[0].1), fields[1..])
  }

  /** The last write of a key is what the payload holds. */
  lemma {:induction false} WithFieldsLast(v: Value, fields: seq<(string, Value)>, i: int)
    requires Writable(v)
    requires 0 <= i < |fields|
    requires forall j :: i < j < |fields| ==> fields[j].0 != fields[i].0
    ensures Get(WithFields(v, fields), fields[i].0) == fields[i].1
    decreases |fields|
  {
    var next := WithKey(v, fields[0].0, fields[0].1);
    if i == 0 {
      assert forall j :: 0 <= j < |fields[1..]| ==> fields[1..][j].0 != fields[0].0 by {
        forall j | 0 <= j < |fields[1..]| ensures fields[1..][j].0 != fields[0].0 {
          assert fields[1..][j] == fields[j + 1];
        }
      }
    } else {
      WithFieldsLast(next, fields[1..], i - 1);
    }
  }

  /** A message followed by one field is two writes in that order. */
  lemma MessageThenField(v: Value, message: string, key: string, x: Value)
    requires Writable(v)
    ensures WithFields(v, [("message", VStr(message))] + [(key, x)]) ==
            WithKey(WithKey(v, "message", VStr(message)), key, x)
  {
    var fields := [("message", VStr(message))] + [(key, x)];
    var once := WithKey(v, "message", VStr(message));
    assert fields[1..] == [(key, x)];
    assert WithFields(v, fields) == WithFields(once, [(key, x)]);
    assert [(key, x)][1..] == [];
    assert WithFields(once, [(key, x)]) == WithFields(WithKey(once, key, x), []);
  }

  /** A message followed by two fields is three writes in that order. */
  lemma MessageThenTwoFields(v: Value, message: string, k1: string, x1: Value, k2: string, x2: Value)
    requires Writable(v)
    ensures WithFields(v, [("message", VStr(message))] + [(k1, x1), (k2, x2)]) ==
            WithKey(WithKey(WithKey(v, "message", VStr(message)), k1, x1), k2, x2)
  {
    var fields := [("message", VStr(message))] + [(k1, x1), (k2, x2)];
    var once := WithKey(v, "message", VStr(message));
    var twice := WithKey(once, k1, x1);
    assert fields[1..] == [(k1, x1), (k2, x2)];
    assert WithFields(v, fields) == WithFields(once, [(k1, x1), (k2, x2)]);
    assert [(k1, x1), (k2, x2)][1..] == [(k2, x2)];
    assert WithFields(once, [(k1, x1), (k2, x2)]) == WithFields(twice, [(k2, x2)]);
    assert [(k2, x2)][1..] == [];
    assert WithFields(twice, [(k2, x2)]) == WithFields(WithKey(twice, k2, x2), []);
  }

  /** A success: the message and then the fields written over the payload; the error list untouched. */
  predicate Succeeded(before: Value, beforeErrors: seq<Value>, after: Value, afterErrors: seq<Value>,
                      message: string, fields: seq<(string, Value)>)
    requires Writable(before)
  {
    afterErrors == beforeErrors && after == WithFields(before, [("message", VStr(message))] + fields)
  }

  /** A failure: exactly one error appended; the payload untouched. */
  predicate Failed(before: Value, beforeErrors: seq<Value>, after: Value, afterErrors: seq<Value>, error: string) {
    after == before && afterErrors == beforeErrors + [VStr(error)]
  }

  /** Nothing written at all. */
  predicate Untouched(before: Value, beforeErrors: seq<Value>, after: Value, afterErrors: seq<Value>) {
    after == before && afterErrors == beforeErrors
  }

  /**
   * A success and a failure exclude each other; a success stores the message and every field
   * whose key is not written again later.
   */
  lemma {:induction false} ReplyKinds(before: Value, beforeErrors: seq<Value>, after: Value, afterErrors: seq<Value>,
                                      message: string, fields: seq<(string, Value)>, error: string)
    requires Writable(before)
    requires Succeeded(before, beforeErrors, after, afterErrors, message, fields)
    ensures !Failed(before, beforeErrors, after, afterErrors, error)
    ensures (forall i :: 0 <= i < |fields| ==> fields[i].0 != "message") ==> Get(after, "message") == VStr(message)
    ensures forall i :: 0 <= i < |fields| && (forall j :: i < j < |fields| ==> fields[j].0 != fields[i].0) ==>
              Get(after, fields[i].0) == fields[i].1
  {
    var all := [("message", VStr(message))] + fields;
    if forall i :: 0 <= i < |fields| ==> fields[i].0 != "message" {
      assert forall j :: 0 < j < |all| ==> all[j].0 != all[0].0 by {
        forall j | 0 < j < |all| ensures all[j].0 != all[0].0 {
          assert all[j] == fields[j - 1];
        }
      }
      WithFieldsLast(before, all, 0);
    }
    forall i | 0 <= i < |fields| && (forall j :: i < j < |fields| ==> fields[j].0 != fields[i].0)
      ensures Get(after, fields[i].0) == fields[i].1
    {
      assert all[i + 1] == fields[i];
      assert forall j :: i + 1 < j < |all| ==> all[j] == fields[j - 1];
      WithFieldsLast(before, all, i + 1);
    }
  }

  /** A validation failure: the payload untouched and, under the default callback, the translated failures as the error list. */
  predicate Rejected(c: ApiController, failures: seq<Errors.ValidationFailure>, before: Value)
    reads c
  {
    c.payload == before &&
    (c.dataErrorCallback == Some(DefaultValidationError) ==>
       c.errors == Errors.ResolveValidationErrors(c.validationErrorMessages, failures, c.services.render))
  }
}

=== FILE: meta_tags.dfy ===
/** The meta-tags handler: saves an entity's translated meta title, description and keywords. */
module MetaTags {
  import opened PhpValues
  import opened Orm
  import opened Validation
  import opened Handlers
  import opened Api
  import UserAccess
  import Multilanguage

  /** The keys `updateMetaTagsController` keeps from the request data. */
  const MetaKeys: set<string> := {"meta_title", "meta_description", "meta_keywords"}

  /**
   * `getUpdateMetaTagsMessage`: the declared message when the controller's `isset` hook says it
   * is set, else 'metatags'.
   */
  function UpdateMetaTagsMessage(declared: Option<string>, hookAnswer: bool): (r: string)
    ensures !hookAnswer || declared.None? ==> r == "metatags"
    ensures hookAnswer && declared.Some? ==> r == declared.value
  {
    if hookAnswer && declared.Some? then declared.value else "metatags"
  }

  /** The slice of the data under the three meta keys: exactly those of them the data holds. */
  function MetaInfo(data: Value): (r: Value)
    ensures r.VArr? && r.entries.Keys == MetaKeys * Entries(data).Keys
    ensures forall k :: k in r.entries ==> r.entries[k] == Entries(data)[k]
  {
    VArr(map k | k in Entries(data) && k in MetaKeys :: Entries(data)[k])
  }

  /**
   * `updateMetaTagsController`: no rules and no gate; the lookup is chained on the model class,
   * so an unresolvable class ends the request. A missing entity gives 'errors.id' with no reply;
   * otherwise the meta slice is saved as a translation in the page language, and a created
   * translation row gives the message with its uuid, none 'errors.metatags'.
   */
  method UpdateMetaTagsController(c: ApiController, declared: Option<string>, hookAnswer: bool, store: Store,
                                  client: Multilanguage.Client, verdict: Verdict, translation: Option<Record>)
    returns (run: Run)
    requires Writable(c.payload)
    modifies c`payload, c`errors, c`dataValidCallback, c`validationErrorMessages
    ensures run.gate.Granted? && run.rules == []
    ensures verdict.Invalid? ==> Rejected(c, verdict.failures, old(c.payload)) && run.write.None?
    ensures run.crashed <==> verdict.Valid? && !store.resolvable
    ensures run.crashed ==> Untouched(old(c.payload), old(c.errors), c.payload, c.errors) && run.write.None?
    ensures verdict.Valid? && store.resolvable ==>
              var found := FindById(store.rows, Get(verdict.data, "uuid"));
              (found.None? ==>
                 Failed(old(c.payload), old(c.errors), c.payload, c.errors, c.ErrorMessage("errors.id", None, EmptyArray)) &&
                 run.write.None?) &&
              (found.Some? ==>
                 run.write == Some(SaveTranslation(found.value, MetaInfo(verdict.data),
                                                   c.GetPageLanguage(verdict.data, client)))) &&
              (found.Some? && translation.Some? ==>
                 Succeeded(old(c.payload), old(c.errors), c.payload, c.errors,
                           c.MessageText(UpdateMetaTagsMessage(declared, hookAnswer)),
                           [("uuid", VStr(translation.value.uuid))])) &&
              (found.Some? && translation.None? ==>
                 Failed(old(c.payload), old(c.errors), c.payload, c.errors, c.ErrorMessage("errors.metatags", None, EmptyArray)))
  {
    c.OnDataValid(Handler("updateMetaTags"));
    match verdict
    case Invalid(failures) =>
      c.ValidationFailed(failures);
      run := Run(UserAccess.Granted, [], None, false);
    case Valid(data) =>
      var uuid := Get(data, "uuid");
      var language := c.GetPageLanguage(data, client);
      if !store.resolvable {
        return Run(UserAccess.Granted, [], None, true);
      }
      var found := FindById(store.rows, uuid);
      if found.None? {
        c.Error("errors.id", None, EmptyArray);
        return Run(UserAccess.Granted, [], None, false);
      }
      var info := MetaInfo(data);
      var runClosure := c.SetResponse(translation.Some?, Closure, Text("errors.metatags"));
      if runClosure {
        var message := UpdateMetaTagsMessage(declared, hookAnswer);
        MessageThenField(c.payload, c.MessageText(message), "uuid", VStr(translation.value.uuid));
        c.Message(message);
        c.Field("uuid", VStr(translation.value.uuid));
      }
      run := Run(UserAccess.Granted, [], Some(SaveTranslation(found.value, info, language)), false);
  }
}

=== FILE: multilanguage.dfy ===
/** Message lookup and language selection shared by the API and the page controllers. */
module Multilanguage {
  import opened PhpValues

  /**
   * Looks a message up in the loaded message table: the entry stored under the exact name,
   * else the entry found by reading the name as a dot-separated path. The `?string` return
   * turns a number or a boolean entry into text.
   */
  function GetMessage(messages: Value, name: string): (r: Option<string>)
    ensures Get(messages, name).VStr? ==> r == Some(Get(messages, name).s)
    ensures Get(messages, name).VInt? ==> r == Some(IntText(Get(messages, name).i))
    ensures Get(messages, name).VBool? ==> r == Some(if Get(messages, name).b then "1" else "")
    ensures Get(messages, name) == VNull ==> r == AsText(GetPath(messages, Split(name, '.')))
  {
    var exact := Get(messages, name);
    if exact != VNull then AsText(exact)
    else
      AsText(GetPath(messages, Split(name, '.')))
  }

  /** A name without a dot that is not in the table has no message. */
  lemma UndottedMissingMessage(messages: Value, name: string)
    requires '.' !in name && Get(messages, name) == VNull
    ensures GetMessage(messages, name) == None
  {
    SplitNoSeparator(name, '.');
    assert GetPath(messages, [name]) == GetPath(Get(messages, name), []);
  }

  /** A two-part name missing as an exact key is read from the nested table of its first part. */
  lemma NestedMessage(messages: Value, group: string, key: string)
    requires '.' !in group && '.' !in key
    requires Get(messages, group + "." + key) == VNull
    ensures GetMessage(messages, group + "." + key) == AsText(Get(Get(messages, group), key))
  {
    SplitPair(group, key, '.');
    assert group + "." + key == group + ['.'] + key;
    var inner := Get(messages, group);
    assert GetPath(messages, [group, key]) == GetPath(inner, [key]);
    assert GetPath(inner, [key]) == GetPath(Get(inner, key), []);
  }

  /** What `loadMessages` stores: the component's properties, or an empty table when they are empty. */
  function LoadedMessages(properties: Value): (r: Value)
    ensures Empty(properties) ==> r == EmptyArray
    ensures !Empty(properties) ==> r == properties
    ensures !Empty(r) || r == EmptyArray
  {
    if Empty(properties) then EmptyArray else properties
  }

  /** The language `loadMessages` loads: the one given, else the default. */
  function LoadLanguage(language: Option<string>, default: string): (r: string)
    ensures language.None? ==> r == default
    ensures language.Some? ==> r == language.value
  {
    language.GetOr(default)
  }

  /** The trait's `getDefaultLanguage`: the configured default language, else "en". */
  function DefaultLanguage(configured: Option<string>): (r: string)
    ensures configured.None? ==> r == "en"
    ensures configured.Some? ==> r == configured.value
  {
    configured.GetOr("en")
  }

  /** The language the client remembers: its cookie and its session entry. */
  datatype Client = Client(cookieLanguage: Option<string>, sessionLanguage: Option<string>)

  /** The language given in the request data when it is not empty, as the `string` return turns it into text. */
  function DataLanguage(data: Value): (r: Option<string>)
    ensures Empty(Get(data, "language")) ==> r.None?
    ensures Get(data, "language").VStr? && !Empty(Get(data, "language")) ==> r == Some(Get(data, "language").s)
    ensures Get(data, "language").VInt? && Get(data, "language").i != 0 ==> r == Some(IntText(Get(data, "language").i))
    ensures Get(data, "language") == VBool(true) ==> r == Some("1")
    ensures Get(data, "language").VArr? ==> r.None?
    ensures r.Some? ==> !EmptyText(r)
  {
    var language := Get(data, "language");
    if Empty(language) then None
    else if language.VInt? then
      IntTextRoundTrip(language.i);
      assert IntegerText("0") == Some(0) by { assert IsDigits("0"); }
      AsText(language)
    else AsText(language)
  }

  /**
   * `getPageLanguage`: the data's language when non-empty, else the cookie when non-empty,
   * else the session's entry when there is one (even an empty one), else the default.
   */
  function PageLanguage(data: Value, client: Client, default: string): (r: string)
    ensures DataLanguage(data).Some? ==> r == DataLanguage(data).value
    ensures DataLanguage(data).None? && !EmptyText(client.cookieLanguage) ==> r == client.cookieLanguage.value
    ensures DataLanguage(data).None? && EmptyText(client.cookieLanguage) ==>
              r == (if client.sessionLanguage.Some? then client.sessionLanguage.value else default)
    ensures Get(data, "language").VInt? && Get(data, "language").i != 0 ==>
              r == IntText(Get(data, "language").i)
    ensures Get(data, "language") == VBool(true) ==> r == "1"
    ensures default != "" && client.sessionLanguage != Some("") ==> r != ""
  {
    var fromData := DataLanguage(data);
    if fromData.Some? then fromData.value
    else if !EmptyText(client.cookieLanguage) then client.cookieLanguage.value
    else client.sessionLanguage.GetOr(default)
  }

  /**
   * PHP's loose `==` between a `?string` and any value. Two integer-form numeric strings, or such
   * a string and an integer, compare by the number they denote; other numeric forms (leading
   * blanks, decimals, exponents) are not recognised.
   */
  function LooseEqualsText(a: Option<string>, b: Value): (r: bool)
    ensures a.Some? && b == VStr(a.value) ==> r
    ensures a.Some? && b.VInt? && a.value == IntText(b.i) ==> r
    ensures a.Some? && b.VStr? && a.value != b.s && (IntegerText(a.value).None? || IntegerText(b.s).None?) ==> !r
    ensures a.Some? && b.VArr? ==> !r
    ensures a.None? ==> (r <==> Empty(b) && b != VStr("0"))
    ensures b.VBool? ==> (r <==> (b.b <==> !EmptyText(a)))
  {
    IntTextRoundTrip(if b.VInt? then b.i else 0);
    match b
    case VNull => a.None? || a.value == ""
    case VBool(x) => x == (a.Some? && a.value != "" && a.value != "0")
    case VInt(i) => (a.None? && i == 0) || (a.Some? && IntegerText(a.value) == Some(i))
    case VStr(s) => (a.None? && s == "") || a == Some(s) || (a.Some? && IntegerText(a.value).Some? && IntegerText(a.value) == IntegerText(s))
    case VArr(entries) => a.None? && entries == map[]
  }

  /** `isLanguageChange`: false without a language in the data, else whether the session's entry loosely differs. */
  function IsLanguageChange(data: Value, session: Option<string>): (r: bool)
    ensures Get(data, "language") == VNull ==> !r
    ensures Get(data, "language").VStr? && session.Some? ==>
              (r <==> session.value != Get(data, "language").s &&
                      (IntegerText(session.value).None? || IntegerText(session.value) != IntegerText(Get(data, "language").s)))
    ensures Get(data, "language").VStr? && session.None? ==> (r <==> Get(data, "language").s != "")
    ensures Get(data, "language").VInt? && session.Some? ==>
              (r <==> IntegerText(session.value) != Some(Get(data, "language").i))
    ensures Get(data, "language").VInt? && session.None? ==> (r <==> Get(data, "language").i != 0)
  {
    var language := Get(data, "language");
    language != VNull && !LooseEqualsText(session, language)
  }

  /** An integer language in the data is no change from the same number stored as text in the session. */
  lemma IntegerLanguageSettles(data: Value, n: int)
    requires Get(data, "language") == VInt(n)
    ensures !IsLanguageChange(data, Some(IntText(n)))
  {
    IntTextRoundTrip(n);
  }

  /** Storing the page language in the session makes the same data no longer a language change. */
  lemma {:induction false} LanguageChangeSettles(data: Value, client: Client, default: string)
    requires DataLanguage(data).Some?
    ensures !IsLanguageChange(data, Some(PageLanguage(data, client, default)))
  {
    var language := Get(data, "language");
    if language.VInt? {
      IntTextRoundTrip(language.i);
    }
  }
}

=== FILE: options.dfy ===
/** The handlers that save a model's options. */
module Options {
  import opened PhpValues
  import opened Orm
  import opened Validation
  import opened Handlers
  import opened Api
  import UserAccess

  /** The write `saveController` asks for: all options of the referenced entity, [] when absent. */
  function OptionsCall(data: Value): (r: StoreCall)
    ensures r.SaveOptions? && r.reference == Get(data, "id")
    ensures Get(data, "options") == VNull ==> r.options == EmptyArray
    ensures Get(data, "options") != VNull ==> r.options == Get(data, "options")
  {
    SaveOptions(Get(data, "id"), GetOr(data, "options", EmptyArray))
  }

  /** The write `saveOptionController` asks for: one key and its value, each null when absent. */
  function OptionCall(data: Value): (r: StoreCall)
    ensures r == SaveOption(Get(data, "id"), Get(data, "key"), Get(data, "value"))
  {
    SaveOption(Get(data, "id"), GetOr(data, "key", VNull), GetOr(data, "value", VNull))
  }

  /**
   * The shared body of both handlers: no rules and no gate; an unresolvable class gives
   * 'errors.id'; otherwise the model's answer `saved` decides between 'orm.options.save' with the
   * uuid of the fresh model instance and 'errors.options.save'.
   */
  method SaveWith(c: ApiController, store: Store, verdict: Verdict, handler: string,
                  call: Value -> StoreCall, saved: bool) returns (run: Run)
    requires Writable(c.payload)
    modifies c`payload, c`errors, c`dataValidCallback, c`validationErrorMessages
    ensures run.gate.Granted? && !run.crashed && run.rules == []
    ensures verdict.Invalid? ==> Rejected(c, verdict.failures, old(c.payload)) && run.write.None?
    ensures verdict.Valid? && !store.resolvable ==>
              Failed(old(c.payload), old(c.errors), c.payload, c.errors, c.ErrorMessage("errors.id", None, EmptyArray)) &&
              run.write.None?
    ensures verdict.Valid? && store.resolvable ==>
              run.write == Some(call(verdict.data)) &&
              (saved ==>
                 Succeeded(old(c.payload), old(c.errors), c.payload, c.errors, c.MessageText("orm.options.save"),
                           [("uuid", store.instanceUuid)])) &&
              (!saved ==>
                 Failed(old(c.payload), old(c.errors), c.payload, c.errors, c.ErrorMessage("errors.options.save", None, EmptyArray)))
  {
    c.OnDataValid(Handler(handler));
    match verdict
    case Invalid(failures) =>
      c.ValidationFailed(failures);
      run := Run(UserAccess.Granted, [], None, false);
    case Valid(data) =>
      if !store.resolvable {
        c.Error("errors.id", None, EmptyArray);
        return Run(UserAccess.Granted, [], None, false);
      }
      var runClosure := c.SetResponse(saved, Closure, Text("errors.options.save"));
      if runClosure {
        MessageThenField(c.payload, c.MessageText("orm.options.save"), "uuid", store.instanceUuid);
        c.Message("orm.options.save");
        c.Field("uuid", store.instanceUuid);
      }
      run := Run(UserAccess.Granted, [], Some(call(data)), false);
  }

  /** `saveController`: saves the options array of the entity 'id' names. */
  method SaveController(c: ApiController, store: Store, verdict: Verdict, saved: bool) returns (run: Run)
    requires Writable(c.payload)
    modifies c`payload, c`errors, c`dataValidCallback, c`validationErrorMessages
    ensures run.gate.Granted? && !run.crashed && run.rules == []
    ensures verdict.Invalid? ==> Rejected(c, verdict.failures, old(c.payload)) && run.write.None?
    ensures verdict.Valid? && !store.resolvable ==>
              Failed(old(c.payload), old(c.errors), c.payload, c.errors, c.ErrorMessage("errors.id", None, EmptyArray)) &&
              run.write.None?
    ensures verdict.Valid? && store.resolvable ==>
              run.write == Some(OptionsCall(verdict.data)) &&
              (saved ==>
                 Succeeded(old(c.payload), old(c.errors), c.payload, c.errors, c.MessageText("orm.options.save"),
                           [("uuid", store.instanceUuid)])) &&
              (!saved ==>
                 Failed(old(c.payload), old(c.errors), c.payload, c.errors, c.ErrorMessage("errors.options.save", None, EmptyArray)))
  {
    run := SaveWith(c, store, verdict, "saveOptions", OptionsCall, saved);
  }

  /** `saveOptionController`: saves one option of the entity 'id' names. */
  method SaveOptionController(c: ApiController, store: Store, verdict: Verdict, saved: bool) returns (run: Run)
    requires Writable(c.payload)
    modifies c`payload, c`errors, c`dataValidCallback, c`validationErrorMessages
    ensures run.gate.Granted? && !run.crashed && run.rules == []
    ensures verdict.Invalid? ==> Rejected(c, verdict.failures, old(c.payload)) && run.write.None?
    ensures verdict.Valid? && !store.resolvable ==>
              Failed(old(c.payload), old(c.errors), c.payload, c.errors, c.ErrorMessage("errors.id", None, EmptyArray)) &&
              run.write.None?
    ensures verdict.Valid? && store.resolvable ==>
              run.write == Some(OptionCall(verdict.data)) &&
              (saved ==>
                 Succeeded(old(c.payload), old(c.errors), c.payload, c.errors, c.MessageText("orm.options.save"),
                           [("uuid", store.instanceUuid)])) &&
              (!saved ==>
                 Failed(old(c.payload), old(c.errors), c.payload, c.errors, c.ErrorMessage("errors.options.save", None, EmptyArray)))
  {
    run := SaveWith(c, store, verdict, "saveOption", OptionCall, saved);
  }
}

=== FILE: orm.dfy ===
/**
 * The persistence layer as the handlers see it: a model class that may fail to resolve, the rows
 * of its table, and the write calls a handler makes.
 */
module Orm {
  import opened PhpValues

  /** One row: its numeric id, its uuid and its columns. */
  datatype Record = Record(id: int, uuid: string, columns: map<string, Value>)
  {
    /** `$model->toArray()` */
    function ToArray(): Value { VArr(columns) }
  }

  /**
   * `Model::create($class, $extension)`: whether the class resolves to a model, the uuid of the
   * fresh model instance, and the rows its queries see.
   */
  datatype Store = Store(resolvable: bool, instanceUuid: Value, rows: seq<Record>)

  /** Whether a row answers to a key given as a uuid or as a numeric id. */
  predicate Identifies(key: Value, row: Record) {
    key == VStr(row.uuid) || key == VInt(row.id)
  }

  /** `findById($key)`: the first row the key identifies. */
  function FindById(rows: seq<Record>, key: Value): (r: Option<Record>)
    ensures r.Some? ==> r.value in rows && Identifies(key, r.value)
    ensures r.None? <==> forall i :: 0 <= i < |rows| ==> !Identifies(key, rows[i])
    ensures r.Some? ==> exists i :: 0 <= i < |rows| && rows[i] == r.value &&
                                    forall j :: 0 <= j < i ==> !Identifies(key, rows[j])
  {
    if rows == [] then None
    else if Identifies(key, rows[0]) then Some(rows[0])
    else FindById(rows[1..], key)
  }

  /** Whether a row holds the value in the column. */
  predicate Matches(row: Record, column: string, value: Value) {
    column in row.columns && row.columns[column] == value
  }

  /** `where($column, '=', $value)->first()`: the first row holding the value in the column. */
  function FirstWhere(rows: seq<Record>, column: string, value: Value): (r: Option<Record>)
    ensures r.Some? ==> r.value in rows && Matches(r.value, column, value)
    ensures r.None? <==> forall i :: 0 <= i < |rows| ==> !Matches(rows[i], column, value)
    ensures r.Some? ==> exists i :: 0 <= i < |rows| && rows[i] == r.value &&
                                    forall j :: 0 <= j < i ==> !Matches(rows[j], column, value)
  {
    if rows == [] then None
    else if Matches(rows[0], column, value) then Some(rows[0])
    else FirstWhere(rows[1..], column, value)
  }

  /** The write a handler asks the model for. */
  datatype StoreCall =
    | UpdateRow(row: Record, changes: Value)
    | CreateRow(data: Value)
    | DeleteRow(row: Record)
    | SoftDeleteRow(row: Record)
    | RestoreRow(row: Record)
    | SetRowStatus(row: Record, status: Value)
    | SaveOptions(reference: Value, options: Value)
    | SaveOption(reference: Value, key: Value, value: Value)
    | AddUserPermission(entity: Value, user: Value, permissions: Value)
    | SaveRelation(id: Value, relationType: Value, relationId: Value)
    | DeleteRelations(id: Value, relationType: Value, relationId: Value)
    | DeleteRelation(uuid: Value)
    | SaveTranslation(row: Record, info: Value, language: string)
}

=== FILE: php_values.dfy ===
/** PHP values as the controllers see them, and the few PHP built-ins the controllers rely on. */
module PhpValues {

  datatype Option<+T> = None | Some(value: T) {
    /** `$x ?? $default` */
    function GetOr(default: T): T {
      if Some? then value else default
    }
  }

  /**
   * A PHP value. Every PHP array is a VArr keyed by string, an integer key standing as its decimal
   * text (PHP treats the keys "5" and 5 as one key); a list is the array keyed "0" .. "n-1"
   * (`ListValue`). The order of keys is not kept.
   */
  datatype Value =
    | VNull
    | VBool(b: bool)
    | VInt(i: int)
    | VStr(s: string)
    | VArr(entries: map<string, Value>)

  const EmptyArray: Value := VArr(map[])

  /** PHP's `empty()`: null, false, 0, "", "0" and the empty array. */
  predicate Empty(v: Value) {
    match v
    case VNull => true
    case VBool(b) => !b
    case VInt(i) => i == 0
    case VStr(s) => s == "" || s == "0"
    case VArr(entries) => entries == map[]
  }

  /** PHP's `empty()` on a `?string`. */
  predicate EmptyText(t: Option<string>) {
    t.None? || t.value == "" || t.value == "0"
  }

  /** The value a `?string` holds. */
  function TextValue(t: Option<string>): Value {
    if t.Some? then VStr(t.value) else VNull
  }

  /** Whether a string is one or more decimal digits. */
  predicate IsDigits(s: string) {
    |s| > 0 && forall i :: 0 <= i < |s| ==> '0' <= s[i] <= '9'
  }

  /** The value of a string of decimal digits. */
  function DigitsValue(s: string): (r: nat)
    requires IsDigits(s)
    decreases |s|
  {
    var last := (s[|s| - 1] as int) - ('0' as int);
    if |s| == 1 then last else DigitsValue(s[..|s| - 1]) * 10 + last
  }

  /** The integer an integer-form numeric string denotes: optional sign, then digits. */
  function IntegerText(s: string): (r: Option<int>)
    ensures IsDigits(s) ==> r == Some(DigitsValue(s))
    ensures |s| > 0 && s[0] == '-' && IsDigits(s[1..]) ==> r == Some(-(DigitsValue(s[1..]) as int))
  {
    if IsDigits(s) then Some(DigitsValue(s))
    else if |s| > 0 && (s[0] == '-' || s[0] == '+') && IsDigits(s[1..]) then
      Some(if s[0] == '-' then -(DigitsValue(s[1..]) as int) else DigitsValue(s[1..]))
    else None
  }

  /** The decimal digits of a natural number, as `(string)$n` writes them. */
  function DecimalText(n: nat): (r: string)
    decreases n
  {
    var digit := [(('0' as int) + n % 10) as char];
    if n < 10 then digit else DecimalText(n / 10) + digit
  }

  /** `(string)$n` for an integer. */
  function IntText(n: int): string {
    if n < 0 then "-" + DecimalText(-n) else DecimalText(n)
  }

  /** Writing a number in decimal and reading it back gives the number. */
  lemma {:induction false} DecimalRoundTrip(n: nat)
    ensures IsDigits(DecimalText(n)) && DigitsValue(DecimalText(n)) == n
    decreases n
  {
    var digit := [(('0' as int) + n % 10) as char];
    if n >= 10 {
      DecimalRoundTrip(n / 10);
      var t := DecimalText(n / 10) + digit;
      assert t[..|t| - 1] == DecimalText(n / 10);
    }
  }

  /** `(string)$n` is an integer-form numeric string denoting `n`. */
  lemma IntTextRoundTrip(n: int)
    ensures IntegerText(IntText(n)) == Some(n)
  {
    if n < 0 {
      DecimalRoundTrip(-n);
      assert IntText(n)[1..] == DecimalText(-n);
    } else {
      DecimalRoundTrip(n);
    }
  }

  /**
   * A value returned where a `?string` or `string` is declared, without strict types: a string
   * as it is, an integer in decimal, true as "1" and false as "". Null, and an array (which PHP
   * rejects with a TypeError), give no text.
   */
  function AsText(v: Value): (r: Option<string>)
    ensures v.VStr? ==> r == Some(v.s)
    ensures v.VInt? ==> r == Some(IntText(v.i))
    ensures v.VBool? ==> r == Some(if v.b then "1" else "")
    ensures v.VNull? || v.VArr? ==> r.None?
  {
    match v
    case VStr(s) => Some(s)
    case VInt(i) => IntTextRoundTrip(i); Some(IntText(i))
    case VBool(b) => Some(if b then "1" else "")
    case _ => None
  }

  /** Distinct numbers have distinct decimal texts. */
  lemma IntTextInjective()
    ensures forall i, j :: IntText(i) == IntText(j) ==> i == j
  {
    forall i, j | IntText(i) == IntText(j)
      ensures i == j
    {
      IntTextRoundTrip(i);
      IntTextRoundTrip(j);
    }
  }

  /** The entries of a list: the i-th item under the key `(string)$i`, and no other key. */
  function ListEntries(items: seq<Value>): map<string, Value>
    decreases |items|
  {
    if items == [] then map[]
    else
      var n := |items| - 1;
      ListEntries(items[..n])[IntText(n) := items[n]]
  }

  /** A list's entries are its items under the decimal texts of their indexes, and nothing else. */
  lemma {:induction false} ListEntriesIndexes(items: seq<Value>)
    ensures forall i :: 0 <= i < |items| ==> IntText(i) in ListEntries(items) && ListEntries(items)[IntText(i)] == items[i]
    ensures forall k :: k in ListEntries(items) ==> IntegerText(k).Some? && 0 <= IntegerText(k).value < |items| &&
                                                    IntText(IntegerText(k).value) == k
    decreases |items|
  {
    if items != [] {
      var n := |items| - 1;
      ListEntriesIndexes(items[..n]);
      IntTextInjective();
      IntTextRoundTrip(n);
    }
  }

  /** The PHP list `[items[0], items[1], ...]`. */
  function ListValue(items: seq<Value>): Value {
    VArr(ListEntries(items))
  }

  /** The entries of an array; null and the scalars have none. */
  function Entries(v: Value): map<string, Value> {
    if v.VArr? then v.entries else map[]
  }

  /** `$v[$key] ?? null` */
  function Get(v: Value, key: string): Value {
    if v.VArr? && key in v.entries then v.entries[key] else VNull
  }

  /** A list is read at the decimal text of an index, and at nothing else; the empty list is the empty array. */
  lemma ListRead(items: seq<Value>, key: string)
    ensures forall i :: 0 <= i < |items| ==> Get(ListValue(items), IntText(i)) == items[i]
    ensures IntegerText(key).None? ==> Get(ListValue(items), key) == VNull
    ensures ListValue([]) == EmptyArray
  {
    ListEntriesIndexes(items);
  }

  /** `$v[$key] ?? $default`, the reading of a request collection's `get($key, $default)`. */
  function GetOr(v: Value, key: string, default: Value): (r: Value)
    ensures Get(v, key) != VNull ==> r == Get(v, key)
    ensures Get(v, key) == VNull ==> r == default
  {
    var x := Get(v, key);
    if x != VNull then x else default
  }

  /**
   * Whether `$v[$key] = ...` can be written: any array, and null and false, which PHP turns into an
   * empty array first. A string, a number and true make PHP raise an Error.
   */
  predicate Writable(v: Value) {
    v.VNull? || v == VBool(false) || v.VArr?
  }

  /** `$v[$key] = $x`; null and false become an array first. */
  function WithKey(v: Value, key: string, x: Value): (r: Value)
    requires Writable(v)
    ensures r.VArr? && Get(r, key) == x
    ensures r.entries.Keys == Entries(v).Keys + {key}
    ensures forall k :: k != key ==> Get(r, k) == Get(v, k)
  {
    VArr(Entries(v)[key := x])
  }

  /** Writing a string key into a one-item list keeps the item under "0" beside the new key. */
  lemma ListTakesStringKey(a: Value, x: Value)
    ensures WithKey(ListValue([a]), "k", x) == VArr(map["0" := a, "k" := x])
  {
    assert IntText(0) == "0";
    assert ListEntries([a]) == map["0" := a] by {
      assert [a][..0] == [];
    }
  }

  /** A second write to the same key replaces the first. */
  lemma WithKeyTwice(v: Value, key: string, x: Value, y: Value)
    requires Writable(v)
    ensures WithKey(WithKey(v, key, x), key, y) == WithKey(v, key, y)
  {
    assert Entries(v)[key := x][key := y] == Entries(v)[key := y];
  }

  /** Writing a key into an array made of a base and some entries extends the entries. */
  lemma WithKeyExtends(base: Value, done: map<string, Value>, key: string, x: Value)
    requires Writable(base)
    ensures WithKey(VArr(Entries(base) + done), key, x) == VArr(Entries(base) + done[key := x])
  {
    assert (Entries(base) + done)[key := x] == Entries(base) + done[key := x];
  }

  /**
   * One more `$a[$name][$key] = $x` on an array whose entry `name` was `inner` before a run of
   * such writes: the entry becomes `inner`'s entries followed by everything written so far.
   */
  lemma WriteNestedEntry(start: Value, name: string, done: map<string, Value>, current: Value, key: string, x: Value)
    requires Writable(start) && Writable(Get(start, name))
    requires done == map[] ==> current == start
    requires done != map[] ==> current == WithKey(start, name, VArr(Entries(Get(start, name)) + done))
    ensures WithKey(current, name, WithKey(Get(current, name), key, x)) ==
            WithKey(start, name, VArr(Entries(Get(start, name)) + done[key := x]))
  {
    var inner := Get(start, name);
    if done == map[] {
      assert Entries(inner) + map[] == Entries(inner);
    } else {
      WithKeyTwice(start, name, VArr(Entries(inner) + done), VArr(Entries(inner) + done));
    }
    assert Get(current, name) == VArr(Entries(inner) + done) || (done == map[] && Get(current, name) == inner);
    var nested := WithKey(Get(current, name), key, x);
    WithKeyExtends(inner, done, key, x);
    assert nested == VArr(Entries(inner) + done[key := x]);
    if done != map[] {
      WithKeyTwice(start, name, VArr(Entries(inner) + done), nested);
    }
  }

  /** Nested lookup along a key path, as `Arrays::getValue` does once the path is split. */
  function GetPath(v: Value, path: seq<string>): Value
    decreases |path|
  {
    if path == [] then v else GetPath(Get(v, path[0]), path[1..])
  }

  /** PHP's `explode($sep, $s)`: the pieces between separators, in order; never empty. */
  function Split(s: string, sep: char): (r: seq<string>)
    ensures |r| >= 1
    ensures forall i :: 0 <= i < |r| ==> sep !in r[i]
  {
    if s == [] then [""]
    else if s[0] == sep then [""] + Split(s[1..], sep)
    else
      var rest := Split(s[1..], sep);
      [[s[0]] + rest[0]] + rest[1..]
  }

  /** PHP's `implode($sep, $parts)`. */
  function Join(parts: seq<string>, sep: char): string
    requires |parts| >= 1
  {
    if |parts| == 1 then parts[0] else parts[0] + [sep] + Join(parts[1..], sep)
  }

  /** Splitting loses nothing: joining the pieces back gives the original string. */
  lemma {:induction false} JoinSplit(s: string, sep: char)
    ensures Join(Split(s, sep), sep) == s
  {
    if s == [] {
    } else if s[0] == sep {
      JoinSplit(s[1..], sep);
      assert Split(s, sep)[1..] == Split(s[1..], sep);
    } else {
      JoinSplit(s[1..], sep);
      var rest := Split(s[1..], sep);
      if |rest| == 1 {
        assert Split(s, sep) == [[s[0]] + rest[0]];
      } else {
        assert Split(s, sep)[1..] == rest[1..];
        assert Join(rest, sep) == rest[0] + [sep] + Join(rest[1..], sep);
      }
    }
  }

  /** A string without the separator is one piece. */
  lemma {:induction false} SplitNoSeparator(s: string, sep: char)
    requires sep !in s
    ensures Split(s, sep) == [s]
  {
    if s != [] {
      assert s[0] != sep && sep !in s[1..];
      SplitNoSeparator(s[1..], sep);
      assert [s[0]] + s[1..] == s;
    }
  }

  /** The piece before the first separator comes first, followed by the pieces of the rest. */
  lemma {:induction false} SplitFirst(a: string, b: string, sep: char)
    requires sep !in a
    ensures Split(a + [sep] + b, sep) == [a] + Split(b, sep)
  {
    if a == [] {
      assert a + [sep] + b == [sep] + b;
      assert ([sep] + b)[1..] == b;
    } else {
      assert (a + [sep] + b)[1..] == a[1..] + [sep] + b;
      SplitFirst(a[1..], b, sep);
      assert [a[0]] + a[1..] == a;
    }
  }

  /** A string with exactly one separator splits into the two sides. */
  lemma {:induction false} SplitPair(a: string, b: string, sep: char)
    requires sep !in a && sep !in b
    ensures Split(a + [sep] + b, sep) == [a, b]
  {
    if a == [] {
      assert a + [sep] + b == [sep] + b;
      assert (a + [sep] + b)[1..] == b;
      SplitNoSeparator(b, sep);
    } else {
      assert (a + [sep] + b)[1..] == a[1..] + [sep] + b;
      SplitPair(a[1..], b, sep);
      assert [a[0]] + a[1..] == a;
    }
  }
}

=== FILE: polymorphic_relations.dfy ===
/**
 * The handlers that add and remove polymorphic relations. They validate with the throwing form,
 * so invalid data ends the request, and they write their replies directly rather than through a
 * data-valid callback.
 */
module PolymorphicRelations {
  import opened PhpValues
  import opened Orm
  import opened Validation
  import opened Handlers
  import opened Api
  import UserAccess

  /**
   * `resolveRelationCallback`: the callback's answer for the data and the model when a callback
   * is set, else the data itself. The model is represented by the fresh instance's uuid.
   */
  function ResolveRelationCallback(data: Value, callback: Option<(Value, Value) -> Value>, model: Value): (r: Value)
    ensures callback.None? ==> r == data
    ensures callback.Some? ==> r == callback.value(data, model)
  {
    if callback.Some? then callback.value(data, model) else data
  }

  /** PHP's `$result === false || $result === null`. */
  predicate FailedResult(result: Value) {
    result == VBool(false) || result == VNull
  }

  /**
   * The removal `deleteRelation` asks for: by owner, type and related id when both the type and
   * the related id are non-empty, else by the relation's own uuid.
   */
  function RemovalCall(data: Value): (r: StoreCall)
    ensures !Empty(Get(data, "type")) && !Empty(Get(data, "relation_id")) ==>
              r == DeleteRelations(Get(data, "id"), Get(data, "type"), Get(data, "relation_id"))
    ensures Empty(Get(data, "type")) || Empty(Get(data, "relation_id")) ==> r == DeleteRelation(Get(data, "uuid"))
  {
    var relationType := Get(data, "type");
    var relationId := Get(data, "relation_id");
    if !Empty(relationType) && !Empty(relationId) then DeleteRelations(Get(data, "id"), relationType, relationId)
    else DeleteRelation(Get(data, "uuid"))
  }

  /**
   * `addRelation`: invalid data ends the request; an unresolvable relations model gives
   * 'errors.relations.add' (default 'Not valid relation model class.'); otherwise the relation is
   * saved from the values read before the callback ran; no saved row gives 'errors.relations.add'
   * (default 'Error save relation.'), a saved row 'relations.add' with its uuid.
   */
  method AddRelation(c: ApiController, store: Store, verdict: Verdict, before: Option<(Value, Value) -> Value>,
                     saved: Option<Record>) returns (run: Run)
    requires Writable(c.payload)
    modifies c`payload, c`errors
    ensures run.gate.Granted? && run.rules == []
    ensures run.crashed <==> verdict.Invalid?
    ensures run.crashed ==> Untouched(old(c.payload), old(c.errors), c.payload, c.errors) && run.write.None?
    ensures verdict.Valid? && !store.resolvable ==>
              Failed(old(c.payload), old(c.errors), c.payload, c.errors,
                     c.ErrorMessage("errors.relations.add", Some("Not valid relation model class."), EmptyArray)) &&
              run.write.None?
    ensures verdict.Valid? && store.resolvable ==>
              var data := verdict.data;
              run.write == Some(SaveRelation(Get(data, "id"), Get(data, "type"), Get(data, "relation_id"))) &&
              (saved.Some? ==>
                 Succeeded(old(c.payload), old(c.errors), c.payload, c.errors, c.MessageText("relations.add"),
                           [("uuid", VStr(saved.value.uuid))])) &&
              (saved.None? ==>
                 Failed(old(c.payload), old(c.errors), c.payload, c.errors,
                        c.ErrorMessage("errors.relations.add", Some("Error save relation."), EmptyArray)))
  {
    if verdict.Invalid? {
      return Run(UserAccess.Granted, [], None, true);
    }
    var data := verdict.data;
    var id := Get(data, "id");
    var relationType := Get(data, "type");
    var relationId := Get(data, "relation_id");
    if !store.resolvable {
      c.Error("errors.relations.add", Some("Not valid relation model class."), EmptyArray);
      return Run(UserAccess.Granted, [], None, false);
    }
    data := ResolveRelationCallback(data, before, store.instanceUuid);
    run := Run(UserAccess.Granted, [], Some(SaveRelation(id, relationType, relationId)), false);
    if saved.None? {
      c.Error("errors.relations.add", Some("Error save relation."), EmptyArray);
      return;
    }
    MessageThenField(c.payload, c.MessageText("relations.add"), "uuid", VStr(saved.value.uuid));
    c.Message("relations.add");
    c.Field("uuid", VStr(saved.value.uuid));
  }

  /**
   * `deleteRelation`: invalid data ends the request; an unresolvable relations model gives
   * 'errors.relations.add'; otherwise the removal `RemovalCall` names is made from the values read
   * before the callback ran; a false or null answer gives 'errors.relations.delete' (default
   * 'Error delete relation.'), any other 'relations.delete' with the uuid.
   */
  method DeleteRelationController(c: ApiController, store: Store, verdict: Verdict, before: Option<(Value, Value) -> Value>,
                                  removed: Value) returns (run: Run)
    requires Writable(c.payload)
    modifies c`payload, c`errors
    ensures run.gate.Granted? && run.rules == []
    ensures run.crashed <==> verdict.Invalid?
    ensures run.crashed ==> Untouched(old(c.payload), old(c.errors), c.payload, c.errors) && run.write.None?
    ensures verdict.Valid? && !store.resolvable ==>
              Failed(old(c.payload), old(c.errors), c.payload, c.errors,
                     c.ErrorMessage("errors.relations.add", Some("Not valid relation model class."), EmptyArray)) &&
              run.write.None?
    ensures verdict.Valid? && store.resolvable ==>
              run.write == Some(RemovalCall(verdict.data)) &&
              (!FailedResult(removed) ==>
                 Succeeded(old(c.payload), old(c.errors), c.payload, c.errors, c.MessageText("relations.delete"),
                           [("uuid", Get(verdict.data, "uuid"))])) &&
              (FailedResult(removed) ==>
                 Failed(old(c.payload), old(c.errors), c.payload, c.errors,
                        c.ErrorMessage("errors.relations.delete", Some("Error delete relation."), EmptyArray)))
  {
    if verdict.Invalid? {
      return Run(UserAccess.Granted, [], None, true);
    }
    var data := verdict.data;
    var uuid := Get(data, "uuid");
    var call := RemovalCall(data);
    if !store.resolvable {
      c.Error("errors.relations.add", Some("Not valid relation model class."), EmptyArray);
      return Run(UserAccess.Granted, [], None, false);
    }
    data := ResolveRelationCallback(data, before, store.instanceUuid);
    run := Run(UserAccess.Granted, [], Some(call), false);
    if FailedResult(removed) {
      c.Error("errors.relations.delete", Some("Error delete relation."), EmptyArray);
      return;
    }
    MessageThenField(c.payload, c.MessageText("relations.delete"), "uuid", uuid);
    c.Message("relations.delete");
    c.Field("uuid", uuid);
  }
}

=== FILE: services.dfy ===
/**
 * The container services a controller consults. Each service is reduced to the answers the
 * controllers read from it; functions stand for the services' own computations.
 */
module Services {
  import opened PhpValues

  /** The `access` service: permission checks and the current user. */
  datatype Access = Access(
    grants: (string, Value, Option<int>) -> bool,   // hasAccess(name, type, userId)
    controlPanelPermission: string,                 // getControlPanelPermission()
    fullPermissions: Value,                         // getFullPermissions()
    controlPanelAccess: bool,                       // hasControlPanelAccess()
    user: Value,                                    // getUser()
    id: Option<int>                                 // getId()
  )

  /** The system `errors` registry. */
  datatype ErrorRegistry = ErrorRegistry(
    getError: (string, Value, Option<string>) -> Option<string>,  // getError(name, params, default)
    validationErrors: map<string, Value>                          // loadValidationErrors()
  )

  /** A response as the PSR-7 builder calls shape it: status, headers (one value per name) and body. */
  datatype HttpResponse = HttpResponse(status: int, headers: map<string, string>, body: string)
  {
    function WithStatus(code: int): HttpResponse { this.(status := code) }
    function WithHeader(name: string, value: string): HttpResponse { this.(headers := headers[name := value]) }
    function WithoutHeader(name: string): HttpResponse { this.(headers := headers - {name}) }
    function Write(text: string): HttpResponse { this.(body := body + text) }
  }

  /** What `responseFactory->createResponse()` hands out. */
  const NewResponse: HttpResponse := HttpResponse(200, map[], "")

  /**
   * The dependency container. `registered` is the set of ids `has()` answers true for; the
   * remaining fields are what `get()` returns for each id the controllers use.
   */
  datatype Container = Container(
    registered: set<string>,
    access: Access,                                  // get('access')
    dispatch: (string, Value) -> Value,              // get('event')->dispatch(name, params)
    errors: ErrorRegistry,                           // get('errors')
    errorText: (string, Value) -> Option<string>,    // get('error')->getError(code, params)
    configuredLanguage: Option<string>,              // config 'defaultLanguage', when set
    encode: Value -> string,                         // json_encode($v)
    encodePretty: Value -> string,                   // json_encode with the pretty flags
    decode: Value -> Value,                          // json_decode($v, true)
    render: (string, Value) -> string                // Text::render(template, params)
  )
  {
    /** `has($id)` */
    predicate Has(id: string) { id in registered }
  }
}

=== FILE: soft_delete.dfy ===
/** Soft delete and restore handlers. They have no permission gate of their own. */
module SoftDelete {
  import opened PhpValues
  import opened Orm
  import opened Validation
  import opened Handlers
  import opened Api
  import UserAccess

  /** The error `softDeleteController` and `restoreController` report for an unresolvable model class. */
  const InvalidClass := "Not valid model class or extension name"

  /** `getSoftDeleteMessage`: the declared message, else 'delete'. */
  function SoftDeleteMessage(declared: Option<string>): (r: string)
    ensures declared.None? ==> r == "delete"
    ensures declared.Some? ==> r == declared.value
  {
    declared.GetOr("delete")
  }

  /** `getRestoreMessage`: the declared message, else 'restore'. */
  function RestoreMessage(declared: Option<string>): (r: string)
    ensures declared.None? ==> r == "restore"
    ensures declared.Some? ==> r == declared.value
  {
    declared.GetOr("restore")
  }

  /**
   * The shared body of both handlers: an unresolvable class gives the `InvalidClass` error and no
   * reply; otherwise the found entity receives `call`, and `done` (the model's answer) decides
   * between the message with the uuid and the `error` entry.
   */
  method ChangeEntity(c: ApiController, store: Store, verdict: Verdict, handler: string,
                      call: Record -> StoreCall, done: bool, message: string, error: string) returns (run: Run)
    requires Writable(c.payload)
    modifies c`payload, c`errors, c`dataValidCallback, c`validationErrorMessages
    ensures run.gate.Granted? && !run.crashed && run.rules == [Rule("text:min=2|required", "uuid")]
    ensures c.dataValidCallback == Some(Handler(handler))
    ensures verdict.Invalid? ==> Rejected(c, verdict.failures, old(c.payload)) && run.write.None?
    ensures verdict.Valid? && !store.resolvable ==>
              Failed(old(c.payload), old(c.errors), c.payload, c.errors, c.ErrorMessage(InvalidClass, None, EmptyArray)) &&
              run.write.None?
    ensures verdict.Valid? && store.resolvable ==>
              var uuid := Get(verdict.data, "uuid");
              var found := FindById(store.rows, uuid);
              run.write == (if found.Some? then Some(call(found.value)) else None) &&
              (found.Some? && done ==>
                 Succeeded(old(c.payload), old(c.errors), c.payload, c.errors, c.MessageText(message), [("uuid", uuid)])) &&
              (!(found.Some? && done) ==>
                 Failed(old(c.payload), old(c.errors), c.payload, c.errors, c.ErrorMessage(error, None, EmptyArray)))
  {
    c.OnDataValid(Handler(handler));
    var rules := [Rule("text:min=2|required", "uuid")];
    match verdict
    case Invalid(failures) =>
      c.ValidationFailed(failures);
      run := Run(UserAccess.Granted, rules, None, false);
    case Valid(data) =>
      if !store.resolvable {
        c.Error(InvalidClass, None, EmptyArray);
        return Run(UserAccess.Granted, rules, None, false);
      }
      var uuid := Get(data, "uuid");
      var found := FindById(store.rows, uuid);
      var write: Option<StoreCall> := if found.Some? then Some(call(found.value)) else None;
      var runClosure := c.SetResponse(found.Some? && done, Closure, Text(error));
      if runClosure {
        MessageThenField(c.payload, c.MessageText(message), "uuid", uuid);
        c.Message(message);
        c.Field("uuid", uuid);
      }
      run := Run(UserAccess.Granted, rules, write, false);
  }

  /** `softDeleteController`: marks the entity deleted; a failure reports 'errors.delete'. */
  method SoftDeleteController(c: ApiController, declared: Option<string>, store: Store, verdict: Verdict,
                              softDeleted: bool) returns (run: Run)
    requires Writable(c.payload)
    modifies c`payload, c`errors, c`dataValidCallback, c`validationErrorMessages
    ensures run.gate.Granted? && !run.crashed && run.rules == [Rule("text:min=2|required", "uuid")]
    ensures verdict.Invalid? ==> Rejected(c, verdict.failures, old(c.payload)) && run.write.None?
    ensures verdict.Valid? && !store.resolvable ==>
              Failed(old(c.payload), old(c.errors), c.payload, c.errors, c.ErrorMessage(InvalidClass, None, EmptyArray))
    ensures verdict.Valid? && store.resolvable ==>
              var uuid := Get(verdict.data, "uuid");
              var found := FindById(store.rows, uuid);
              run.write == (if found.Some? then Some(SoftDeleteRow(found.value)) else None) &&
              (found.Some? && softDeleted ==>
                 Succeeded(old(c.payload), old(c.errors), c.payload, c.errors,
                           c.MessageText(SoftDeleteMessage(declared)), [("uuid", uuid)])) &&
              (!(found.Some? && softDeleted) ==>
                 Failed(old(c.payload), old(c.errors), c.payload, c.errors, c.ErrorMessage("errors.delete", None, EmptyArray)))
  {
    run := ChangeEntity(c, store, verdict, "softDelete", row => SoftDeleteRow(row), softDeleted,
                        SoftDeleteMessage(declared), "errors.delete");
  }

  /** `restoreController`: clears the deleted mark; a failure reports 'errors.restore'. */
  method RestoreController(c: ApiController, declared: Option<string>, store: Store, verdict: Verdict,
                           restored: bool) returns (run: Run)
    requires Writable(c.payload)
    modifies c`payload, c`errors, c`dataValidCallback, c`validationErrorMessages
    ensures run.gate.Granted? && !run.crashed && run.rules == [Rule("text:min=2|required", "uuid")]
    ensures verdict.Invalid? ==> Rejected(c, verdict.failures, old(c.payload)) && run.write.None?
    ensures verdict.Valid? && !store.resolvable ==>
              Failed(old(c.payload), old(c.errors), c.payload, c.errors, c.ErrorMessage(InvalidClass, None, EmptyArray))
    ensures verdict.Valid? && store.resolvable ==>
              var uuid := Get(verdict.data, "uuid");
              var found := FindById(store.rows, uuid);
              run.write == (if found.Some? then Some(RestoreRow(found.value)) else None) &&
              (found.Some? && restored ==>
                 Succeeded(old(c.payload), old(c.errors), c.payload, c.errors,
                           c.MessageText(RestoreMessage(declared)), [("uuid", uuid)])) &&
              (!(found.Some? && restored) ==>
                 Failed(old(c.payload), old(c.errors), c.payload, c.errors, c.ErrorMessage("errors.restore", None, EmptyArray)))
  {
    run := ChangeEntity(c, store, verdict, "restore", row => RestoreRow(row), restored,
                        RestoreMessage(declared), "errors.restore");
  }
}

=== FILE: status.dfy ===
/** The status handler. */
module Status {
  import opened PhpValues
  import opened Orm
  import opened Validation
  import opened Handlers
  import opened Api
  import opened Services
  import UserAccess

  /** The status a request asks for: its 'status' value, 1 when absent. */
  function RequestedStatus(data: Value): (r: Value)
    ensures Get(data, "status") == VNull ==> r == VInt(1)
    ensures Get(data, "status") != VNull ==> r == Get(data, "status")
  {
    GetOr(data, "status", VInt(1))
  }

  /** The part of `setStatus` before the response: the gate, the rule and the status change. */
  method StatusChange(c: ApiController, store: Store, verdict: Verdict, statusSet: bool) returns (run: Run)
    requires Writable(c.payload)
    modifies c`payload, c`errors, c`dataValidCallback, c`validationErrorMessages
    ensures run.gate == UserAccess.RequireControlPanelPermission(c.services, None)
    ensures run.gate.Halted? ==> Untouched(old(c.payload), old(c.errors), c.payload, c.errors) && run.rules == []
    ensures run.gate.Granted? ==> run.rules == [Rule("status", "checkList:items=0,1,toggle")]
    ensures run.gate.Granted? && verdict.Invalid? ==> Rejected(c, verdict.failures, old(c.payload)) && run.write.None?
    ensures run.crashed <==> run.gate.Granted? && verdict.Valid? && !store.resolvable
    ensures run.crashed ==> Untouched(old(c.payload), old(c.errors), c.payload, c.errors) && run.write.None?
    ensures run.gate.Granted? && verdict.Valid? && store.resolvable ==>
              var uuid := Get(verdict.data, "uuid");
              var status := RequestedStatus(verdict.data);
              var found := FindById(store.rows, uuid);
              run.write == (if found.Some? then Some(SetRowStatus(found.value, status)) else None) &&
              (found.Some? && statusSet ==>
                 Succeeded(old(c.payload), old(c.errors), c.payload, c.errors, c.MessageText("status"),
                           [("uuid", uuid), ("status", status)])) &&
              (!(found.Some? && statusSet) ==>
                 Failed(old(c.payload), old(c.errors), c.payload, c.errors, c.ErrorMessage("errors.status", None, EmptyArray)))
  {
    var gate := UserAccess.RequireControlPanelPermission(c.services, None);
    if gate.Halted? {
      return Run(gate, [], None, false);
    }
    c.OnDataValid(Handler("status"));
    var rules := [Rule("status", "checkList:items=0,1,toggle")];
    match verdict
    case Invalid(failures) =>
      c.ValidationFailed(failures);
      run := Run(gate, rules, None, false);
    case Valid(data) =>
      if !store.resolvable {
        return Run(gate, rules, None, true);
      }
      var write := StatusWrite(c, store.rows, data, statusSet);
      run := Run(gate, rules, write, false);
  }

  /** The validated part of `setStatus`: the status write on the found entity and its reply. */
  method StatusWrite(c: ApiController, rows: seq<Record>, data: Value, statusSet: bool)
    returns (write: Option<StoreCall>)
    requires Writable(c.payload)
    modifies c`payload, c`errors
    ensures var uuid := Get(data, "uuid");
            var status := RequestedStatus(data);
            var found := FindById(rows, uuid);
            write == (if found.Some? then Some(SetRowStatus(found.value, status)) else None) &&
            (found.Some? && statusSet ==>
               Succeeded(old(c.payload), old(c.errors), c.payload, c.errors, c.MessageText("status"),
                         [("uuid", uuid), ("status", status)])) &&
            (!(found.Some? && statusSet) ==>
               Failed(old(c.payload), old(c.errors), c.payload, c.errors, c.ErrorMessage("errors.status", None, EmptyArray)))
  {
    var status := RequestedStatus(data);
    var uuid := Get(data, "uuid");
    var found := FindById(rows, uuid);
    write := if found.Some? then Some(SetRowStatus(found.value, status)) else None;
    var runClosure := c.SetResponse(found.Some? && statusSet, Closure, Text("errors.status"));
    if runClosure {
      MessageThenTwoFields(c.payload, c.MessageText("status"), "uuid", uuid, "status", status);
      c.Message("status");
      c.Field("uuid", uuid);
      c.Field("status", status);
    }
  }

  /**
   * `setStatus`: behind the control-panel gate, sets the found entity's status; success gives the
   * 'status' message, the uuid and the status, anything else one 'errors.status'. The rule is
   * registered with its two arguments in the order the handler passes them. The handler answers
   * with the controller's JSON response.
   */
  method SetStatus(c: ApiController, store: Store, verdict: Verdict, statusSet: bool)
    returns (run: Run, response: HttpResponse)
    requires Writable(c.payload)
    modifies c`payload, c`errors, c`dataValidCallback, c`validationErrorMessages, c`status, c`code, c`listedErrors
    ensures run.gate == UserAccess.RequireControlPanelPermission(c.services, None)
    ensures run.gate.Halted? ==> Untouched(old(c.payload), old(c.errors), c.payload, c.errors) && run.rules == []
    ensures run.gate.Granted? ==> run.rules == [Rule("status", "checkList:items=0,1,toggle")]
    ensures run.gate.Granted? && verdict.Invalid? ==> Rejected(c, verdict.failures, old(c.payload)) && run.write.None?
    ensures run.crashed <==> run.gate.Granted? && verdict.Valid? && !store.resolvable
    ensures run.crashed ==> Untouched(old(c.payload), old(c.errors), c.payload, c.errors) && run.write.None?
    ensures run.gate.Granted? && verdict.Valid? && store.resolvable ==>
              var uuid := Get(verdict.data, "uuid");
              var status := RequestedStatus(verdict.data);
              var found := FindById(store.rows, uuid);
              run.write == (if found.Some? then Some(SetRowStatus(found.value, status)) else None) &&
              (found.Some? && statusSet ==>
                 Succeeded(old(c.payload), old(c.errors), c.payload, c.errors, c.MessageText("status"),
                           [("uuid", uuid), ("status", status)])) &&
              (!(found.Some? && statusSet) ==>
                 Failed(old(c.payload), old(c.errors), c.payload, c.errors, c.ErrorMessage("errors.status", None, EmptyArray)))
    ensures run.gate.Granted? && !run.crashed ==>
              c.code == (if |c.errors| > 0 then 400 else 200) &&
              response == NewResponse.Write(Framed(c.Encoded(false), c.payload, false))
                                     .WithStatus(c.code).WithHeader("Content-Type", "application/json")
  {
    run := StatusChange(c, store, verdict, statusSet);
    if run.gate.Halted? {
      return run, run.gate.response;
    }
    if run.crashed {
      return run, NewResponse;
    }
    response := c.GetResponse(false);
  }
}

=== FILE: task_progress.dfy ===
/**
 * Task progress responses: each step echoes the controller's JSON response to the client, the
 * first opening a JSON array and the later ones separated by commas; the closing response
 * (the one whose payload carries `progress_end`) is framed with ',' and ']'.
 */
module TaskProgress {
  import opened PhpValues
  import opened Services
  import opened Api

  /** The text echoed for one step: '[' before the first body, ',' before every later one. */
  function Emission(step: int, body: string): (r: string)
    ensures step == 1 ==> r == "[" + body
    ensures step != 1 ==> r == "," + body
  {
    (if step == 1 then "[" else ",") + body
  }

  /** The echoed text of steps 1, 2, ... with the given bodies. */
  function Stream(bodies: seq<string>): string
    decreases |bodies|
  {
    if bodies == [] then "" else Stream(bodies[..|bodies| - 1]) + Emission(|bodies|, bodies[|bodies| - 1])
  }

  /** `implode(',', $parts)` after one more part. */
  lemma {:induction false} JoinAppend(parts: seq<string>, last: string)
    requires |parts| >= 1
    ensures Join(parts + [last], ',') == Join(parts, ',') + [','] + last
    decreases |parts|
  {
    if |parts| == 1 {
      assert (parts + [last])[1..] == [last];
    } else {
      assert (parts + [last])[1..] == parts[1..] + [last];
      JoinAppend(parts[1..], last);
    }
  }

  /** One or more steps echo an opened JSON array holding the bodies. */
  lemma {:induction false} StreamIsOpenArray(bodies: seq<string>)
    requires |bodies| >= 1
    ensures Stream(bodies) == "[" + Join(bodies, ',')
    decreases |bodies|
  {
    var n := |bodies|;
    if n == 1 {
      assert Stream(bodies[..0]) == "";
    } else {
      var front := bodies[..n - 1];
      StreamIsOpenArray(front);
      JoinAppend(front, bodies[n - 1]);
      assert front + [bodies[n - 1]] == bodies;
    }
  }

  /**
   * Steps followed by the closing response make one JSON array of all the bodies. The closing
   * frame alone, with no step before it, opens no array.
   */
  lemma ClosedStream(bodies: seq<string>, last: string)
    requires |bodies| >= 1
    ensures Stream(bodies) + ("," + last + "]") == "[" + Join(bodies + [last], ',') + "]"
  {
    StreamIsOpenArray(bodies);
    JoinAppend(bodies, last);
    Bracketed(Join(bodies, ','), last);
  }

  /** Regrouping the text of an opened array and its closing frame. */
  lemma Bracketed(open: string, last: string)
    ensures ("[" + open) + ("," + last + "]") == "[" + (open + [','] + last) + "]"
  {
  }

  /** `initTaskProgress`: step 0, and the given delay and total. */
  method InitTaskProgress(c: ApiController, totalSteps: Value, sleep: Value)
    modifies c`progressStep, c`progressSleep, c`totalProgressSteps
    ensures c.progressStep == 0 && c.progressSleep == sleep && c.totalProgressSteps == totalSteps
  {
    c.progressStep := 0;
    c.progressSleep := sleep;
    c.totalProgressSteps := totalSteps;
  }

  /** `taskProgressEnd`: the envelope cleared, then `progress_end` set to true. */
  method TaskProgressEnd(c: ApiController)
    modifies c`payload, c`status, c`code, c`listedErrors
    ensures c.payload == VArr(map["progress_end" := VBool(true)])
    ensures c.status == "ok" && c.code == 200 && c.listedErrors == []
  {
    c.ClearResult();
    c.Field("progress_end", VBool(true));
  }

  /** The first half of `sendProgressResponse`: the progress flag, the next step and the total written. */
  method MarkProgress(c: ApiController)
    requires Writable(c.payload)
    modifies c`payload, c`progressStep
    ensures c.progressStep == old(c.progressStep) + 1
    ensures c.payload == WithKey(WithKey(WithKey(old(c.payload), "progress", VBool(true)),
                                         "progress_step", VInt(c.progressStep)),
                                 "progress_total_setps", c.totalProgressSteps)
  {
    c.Field("progress", VBool(true));
    c.progressStep := c.progressStep + 1;
    c.Field("progress_step", VInt(c.progressStep));
    c.Field("progress_total_setps", c.totalProgressSteps);
  }

  /**
   * `sendProgressResponse`: marks the payload as progress, advances the step, stores the step and
   * the total, and echoes the controller's JSON response body as the step's `Emission`.
   */
  method SendProgressResponse(c: ApiController)
    requires Writable(c.payload)
    modifies c`payload, c`progressStep, c`status, c`code, c`listedErrors, c`output
    ensures c.progressStep == old(c.progressStep) + 1
    ensures c.payload == WithKey(WithKey(WithKey(old(c.payload), "progress", VBool(true)),
                                         "progress_step", VInt(c.progressStep)),
                                 "progress_total_setps", c.totalProgressSteps)
    ensures c.code == (if |c.errors| > 0 then 400 else 200) && c.listedErrors == c.errors
    ensures c.output == old(c.output) + [Emission(c.progressStep, Framed(c.Encoded(false), c.payload, false))]
  {
    MarkProgress(c);
    var response := c.GetResponse(false);
    assert response.body == Framed(c.Encoded(false), c.payload, false);
    c.output := c.output + [Emission(c.progressStep, response.body)];
  }

  /** A step appends to what was echoed so far exactly the next emission of the stream. */
  lemma StreamStep(bodies: seq<string>, body: string)
    ensures Stream(bodies + [body]) == Stream(bodies) + Emission(|bodies| + 1, body)
  {
    assert (bodies + [body])[..|bodies|] == bodies;
  }
}

=== FILE: update_model_field.dfy ===
/** The single-field update handler (published under the name `softDeleteController`). */
module UpdateModelField {
  import opened PhpValues
  import opened Orm
  import opened Validation
  import opened Handlers
  import opened Api
  import UserAccess

  /** `getUpdateFieldMessage`: the declared message, else 'field.update'. */
  function UpdateFieldMessage(declared: Option<string>): (r: string)
    ensures declared.None? ==> r == "field.update"
    ensures declared.Some? ==> r == declared.value
  {
    declared.GetOr("field.update")
  }

  /** The array key a field name becomes: a string is itself, null becomes the empty key. */
  function FieldKey(fieldName: Value): (r: string)
    ensures fieldName.VStr? ==> r == fieldName.s
    ensures fieldName == VNull ==> r == ""
  {
    if fieldName.VStr? then fieldName.s else ""
  }

  /** The changes written: exactly one column, the named field set to the given value. */
  function Changes(data: Value): (r: Value)
    ensures r.VArr? && r.entries.Keys == {FieldKey(Get(data, "field_name"))}
    ensures Get(r, FieldKey(Get(data, "field_name"))) == Get(data, "field_value")
  {
    VArr(map[FieldKey(Get(data, "field_name")) := Get(data, "field_value")])
  }

  /**
   * Updates one column of the entity the uuid names. An unresolvable class gives 'errors.class';
   * success gives the message, the uuid and the field name; anything else 'errors.filed.update'
   * (the key as the handler spells it). There is no permission gate.
   */
  method UpdateFieldController(c: ApiController, declared: Option<string>, store: Store, verdict: Verdict,
                               updated: bool) returns (run: Run)
    requires Writable(c.payload)
    modifies c`payload, c`errors, c`dataValidCallback, c`validationErrorMessages
    ensures run.gate.Granted? && !run.crashed
    ensures run.rules == [Rule("text:min=1|required", "uuid"), Rule("text:min=1|required", "field_name")]
    ensures verdict.Invalid? ==> Rejected(c, verdict.failures, old(c.payload)) && run.write.None?
    ensures verdict.Valid? && !store.resolvable ==>
              Failed(old(c.payload), old(c.errors), c.payload, c.errors, c.ErrorMessage("errors.class", None, EmptyArray)) &&
              run.write.None?
    ensures verdict.Valid? && store.resolvable ==>
              var uuid := Get(verdict.data, "uuid");
              var found := FindById(store.rows, uuid);
              run.write == (if found.Some? then Some(UpdateRow(found.value, Changes(verdict.data))) else None) &&
              (found.Some? && updated ==>
                 Succeeded(old(c.payload), old(c.errors), c.payload, c.errors, c.MessageText(UpdateFieldMessage(declared)),
                           [("uuid", uuid), ("field_name", Get(verdict.data, "field_name"))])) &&
              (!(found.Some? && updated) ==>
                 Failed(old(c.payload), old(c.errors), c.payload, c.errors,
                        c.ErrorMessage("errors.filed.update", None, EmptyArray)))
  {
    c.OnDataValid(Handler("updateField"));
    var rules := [Rule("text:min=1|required", "uuid"), Rule("text:min=1|required", "field_name")];
    match verdict
    case Invalid(failures) =>
      c.ValidationFailed(failures);
      run := Run(UserAccess.Granted, rules, None, false);
    case Valid(data) =>
      if !store.resolvable {
        c.Error("errors.class", None, EmptyArray);
        return Run(UserAccess.Granted, rules, None, false);
      }
      var uuid := Get(data, "uuid");
      var fieldName := Get(data, "field_name");
      var found := FindById(store.rows, uuid);
      var write: Option<StoreCall> := if found.Some? then Some(UpdateRow(found.value, Changes(data))) else None;
      var runClosure := c.SetResponse(found.Some? && updated, Closure, Text("errors.filed.update"));
      if runClosure {
        var message := UpdateFieldMessage(declared);
        MessageThenTwoFields(c.payload, c.MessageText(message), "uuid", uuid, "field_name", fieldName);
        c.Message(message);
        c.Field("uuid", uuid);
        c.Field("field_name", fieldName);
      }
      run := Run(UserAccess.Granted, rules, write, false);
  }
}

=== FILE: user_access.dfy ===
/** The access gate of the API controllers. */
module UserAccess {
  import opened PhpValues
  import opened Services

  /**
   * The outcome of a permission requirement: granted, or halted. A halted request has the
   * system error page written to the response and the process exits, so the caller never resumes.
   */
  datatype Gate = Granted | Halted(response: HttpResponse)

  /** `hasAccess`: false without an access service, else the service's verdict. */
  function HasAccess(services: Container, name: string, permissionType: Value): (r: bool)
    ensures !services.Has("access") ==> !r
    ensures services.Has("access") ==> r == services.access.grants(name, permissionType, None)
  {
    services.Has("access") && services.access.grants(name, permissionType, None)
  }

  /**
   * `requireAccess`: granted exactly when `hasAccess` holds; otherwise the request halts on the
   * supplied response, or on a new one when none is supplied.
   */
  function RequireAccess(services: Container, name: string, permissionType: Value, response: Option<HttpResponse>): (r: Gate)
    ensures r.Granted? <==> HasAccess(services, name, permissionType)
    ensures r.Halted? ==> r.response == (if response.Some? then response.value else NewResponse)
  {
    if HasAccess(services, name, permissionType) then Granted
    else Halted(response.GetOr(NewResponse))
  }

  /** `requireControlPanelPermission`: `requireAccess` with the control-panel permission and full rights. */
  function RequireControlPanelPermission(services: Container, response: Option<HttpResponse>): (r: Gate)
    ensures r == RequireAccess(services, services.access.controlPanelPermission, services.access.fullPermissions, response)
    ensures r.Granted? ==> services.Has("access")
  {
    RequireAccess(services, services.access.controlPanelPermission, services.access.fullPermissions, response)
  }

  /** `hasControlPanelAccess`: the access service's own answer. */
  function HasControlPanelAccess(services: Container): (r: bool)
    ensures r == services.access.controlPanelAccess
  {
    services.access.controlPanelAccess
  }
}

=== FILE: validation.dfy ===
/** What the external validator is given and what it decides. */
module Validation {
  import opened PhpValues
  import opened Errors

  /** `addRule($first, $second)`, with the arguments in the order the caller wrote them. */
  datatype Rule = Rule(first: string, second: string)

  /**
   * The validator's decision: the data passed every rule, or the failures it found. It then
   * invokes exactly one of the two registered callbacks.
   */
  datatype Verdict = Valid(data: Value) | Invalid(failures: seq<ValidationFailure>)
}
